=== FILE: README.md ===
# Jira analytics agents — a Dafny model

This project models the agent core of a Jira analytics chatbot:

- **Query analysis.** A natural-language request becomes a `QueryAnalysis` holding project keys, metrics, a time period and filters.
- **Endpoint matching.** The request is matched against a registry of generated analytics endpoints.
- **Code generation.** When no endpoint fits, the LLM client writes new analytics code. It uses a template chosen from the request, and falls back to a built-in module when the model call fails.
- **Gate and deployment.** The code is checked by a validation gate, deployed into a directory of its own, imported and run.
- **Sprint metrics.** `analyze_jira_data` is the entry point. It answers the Anthropic provider directly. Sprint-metric questions go to the sprint-metrics report computed from Jira boards, sprints and issues, and everything else goes to the agents.

Every service the core calls is a parameter of the model: the LLM's replies, `compile`, the module importer, `module.analyze`, the result formatters, the Jira REST API, `uuid4` and the clock.

One behaviour is followed from the code, as written. `deploy` creates and imports the endpoint but never registers it. `generate_and_deploy` then runs the new endpoint without registering it either. So a deployed endpoint is found by later requests only after a reload of the registry, and only if something else registered it.

A second behaviour is also followed from the code. `get_metrics` puts a sprint's baseline one day after its start (metrics_manager.py:245-246), although its description says two days. The baseline is only reported: the metrics are computed over every issue of the sprint.

| file | module | models |
|---|---|---|
| common.dfy | Common | `Option`, `Outcome` (a value or a raised exception's message), timestamps |
| text.dfy | Text | the Python string operations used: `lower`, `in`, `strip`, `split`, `join` |
| patterns.dfy | Patterns | the regular expressions of the source as match-at-index functions, and `re.search` |
| query.dfy | Query | `QueryAnalysis`, `analyze_query` and its `_extract_*` helpers |
| registry.dfy | Registry | `AnalyticsEndpoint`, `AnalyticsRegistry` and its JSON persistence |
| deployment.dfy | Deployment | `DeploymentManager` over a model of the file system |
| llm.dfy | Llm | `LLMManager`'s provider settings, fallbacks, and the outcome of its two message calls |
| codegen.dfy | CodeGen | `CodeGenerator`: template selection, template loading, fallback code, fence stripping, `generate_code` |
| coordinator.dfy | Coordinator | `AgentCoordinator`: matching, validation, formatting, execution, generate-and-deploy |
| metrics.dfy | Metrics | `metrics_manager.py`: per-sprint metrics and `get_metrics` |
| routing.dfy | Routing | `LLMManager.analyze_jira_data` |

## Model

| member | source | states |
|---|---|---|
| Patterns.KeyAfterAt | agent_coordinator.py:114-121 | a match of `for\s+([A-Z]+)` or `in\s+([A-Z]+)` at an index captures a nonempty run of capitals that follows the keyword there |
| Patterns.LastSprintsAt | agent_coordinator.py:169-170 | a match of `last\s+(\d+)\s+sprint` captures one nonempty run of digits |
| Patterns.LastPeriodAt | agent_coordinator.py:175-176 | a match of `last\s+(\d+)\s+(day\|week\|month\|year)s?` captures digits and a word that is one of the four units in any case |
| Patterns.FieldIsAt | agent_coordinator.py:202-209 | a match of `field\s+(is\|=)\s+(["']?)(\w+)(["']?)` starts with the field name and whitespace, and its third group is a nonempty run of word characters |
| Patterns.MatchAt | agent_coordinator.py:116-209 | `re.match` at an index: the groups have the pattern's arity and the match ends within the text, past its start |
| Patterns.Search | agent_coordinator.py:170-209 | `re.search`: the index found is a match and no earlier index matches; None means no index matches |
| Patterns.SearchGroup | agent_coordinator.py:170-209 | a group of the first match exists iff the pattern matches somewhere |
| Query.NoMatchInside | agent_coordinator.py:114-121 | no match of a key pattern starts inside another match, so `findall` skipping past each match loses no key |
| Query.FindAll | agent_coordinator.py:114-121 | `re.findall`: a key is found iff the key pattern matches at some index and captures it |
| Query.ExtractProjectKeys | agent_coordinator.py:101-127 | the keys hold no duplicate; a key is listed iff it is a maximal run of capitals after "for" or "in" and whitespace |
| Query.NameInjective | agent_coordinator.py:140-154 | distinct metrics have distinct names |
| Query.Names | agent_coordinator.py:140-154 | the metric names, element by element |
| Query.ExtractMetrics | agent_coordinator.py:129-156 | metrics come in the source's append order without repeats; each metric is present iff its case-insensitive keyword test holds (story_points iff "points" without "committed", "completed" or "finished") |
| Query.AllMetricsInOrder | agent_coordinator.py:140-154 | the five metrics in append order cover every metric |
| Query.Selected | agent_coordinator.py:140-154 | the chosen metrics keep the order of the list they come from |
| Query.ExtractTimePeriod | agent_coordinator.py:158-187 | the period is always digits followed by a unit letter, never None |
| Query.TimePeriodRules | agent_coordinator.py:158-187 | "last N sprint" gives N then "s"; otherwise "last N <unit>" gives N then the lower-cased first letter of the unit as written; otherwise "5s" iff a sprint metric (not story_points) was asked for, else "30d" |
| Query.PeriodRule | agent_coordinator.py:175-180 | when only the period pattern matches, the period is its digits followed by the lower-cased first letter of the captured unit word |
| Query.ExtractFilters | agent_coordinator.py:189-213 | only "status" and "issuetype" appear; each appears iff its pattern matches somewhere, and then maps to the third group of the first match, a nonempty run of word characters |
| Query.FieldValue | agent_coordinator.py:201-211 | the value a filter search captures is a nonempty run of word characters |
| Query.FilterMap | agent_coordinator.py:199-213 | a key is present iff its search captured a value, and maps to that value |
| Query.AnalyzeQuery | agent_coordinator.py:71-99 | the analysis keeps the query and holds exactly the extracted keys (no duplicates), metric names, time period and filters |
| Query.WithinNamesKey | agent_coordinator.py:119-121 | the unanchored `in\s+` also matches inside "within", so "within ABC" yields the key ABC |
| Query.StatusWithoutSpaces | agent_coordinator.py:201-211 | "status=Done" gives no filter, since the pattern needs whitespace around `=` |
| Query.NoStatusAt | agent_coordinator.py:201-205 | in "status=Done", "status" is never followed by whitespace |
| Query.NoTypeAt | agent_coordinator.py:207-211 | "status=Done" contains no "type" |
| Registry.IsoFormat | analytics_registry.py:26 | a timestamp is written as a nonempty digit string |
| Registry.ParseIso | analytics_registry.py:137 | parsing succeeds exactly on nonempty digit strings |
| Registry.DigitsOfIso | analytics_registry.py:26 | the digits written for a timestamp denote it |
| Registry.IsoRoundTrip | analytics_registry.py:135-139 | parsing the written timestamp gives it back |
| Registry.ToDict | analytics_registry.py:20-27 | raises "cannot pickle 'module' object" iff the endpoint holds a module; otherwise the record has its id, name, path, capabilities and the ISO text of its creation time |
| Registry.SerializedRoundTrip | analytics_registry.py:132-155 | the record with the module dropped, restored, keeps every field except the module; a module is set only if the file exists and imports |
| Registry.RecordRoundTrip | analytics_registry.py:20-27 | `to_dict` succeeds iff the endpoint holds no module; then restoring its record gives the endpoint back, and a module is set only if the file exists and its import succeeds |
| Registry.Put | analytics_registry.py:51 | assignment keeps the table well formed and adds the id to the keys |
| Registry.Without | analytics_registry.py:65 | removing an id from the key order keeps all other keys and no duplicates |
| Registry.Remove | analytics_registry.py:65 | deletion keeps the table well formed and removes exactly that id |
| Registry.Values | analytics_registry.py:89 | `list(values())` lists the entries in insertion order |
| Registry.Records | analytics_registry.py:168 | one record per entry, in insertion order |
| Registry.Rebuild | analytics_registry.py:132-155 | the dictionary `load` builds is well formed |
| Registry.RebuildStep | analytics_registry.py:133-155 | one loop iteration of `load` assigns one restored record |
| Registry.Filter | analytics_registry.py:102-117 | `find_endpoints` never returns more endpoints than it is given |
| Registry.PutProperties | analytics_registry.py:51 | after assignment the id maps to the endpoint and other ids are untouched; a new id is appended to the order and an existing one keeps its place |
| Registry.RemoveUndoesPut | analytics_registry.py:44-68 | deleting a newly assigned id restores the previous table |
| Registry.WithoutAbsent | analytics_registry.py:65 | removing an id that is not there changes nothing |
| Registry.ValuesOnce | analytics_registry.py:89 | every entry is listed, and no id is listed twice |
| Registry.FilterMembers | analytics_registry.py:102-117 | an endpoint is found iff it is registered and offers the project key (when given) and every metric (when given) |
| Registry.FilterAppend | analytics_registry.py:102-117 | the matches of two lists in a row are the matches of the first followed by those of the second, so the registry order is kept |
| Registry.FilterUnconstrained | analytics_registry.py:108-112 | with no project key and no metrics every endpoint is found, in order |
| Registry.RebuildDistinct | analytics_registry.py:132-155 | records with distinct ids load in their order, one entry each |
| Registry.SaveThenLoad | analytics_registry.py:119-174 | loading the records `save` means to write (the modules dropped) gives back the same ids in the same order, with every field except the module |
| Registry.RecordIds | analytics_registry.py:168 | the intended records are those of the entries in order, carrying their ids without repeats |
| Registry.SavedCases | analytics_registry.py:159-174 | `save` changes the file only to the records of the entries; with no module held, it writes them and each is what `to_dict` returns; when some `to_dict` raises, the file keeps what it held |
| Registry.SaveWithModuleExample | analytics_registry.py:159-174 | an imported endpoint, once registered, is never written: the file stays missing where its record was meant to be written |
| Registry.AnalyticsRegistry.constructor | analytics_registry.py:33-42 | starts empty and then loads the file |
| Registry.AnalyticsRegistry.Save | analytics_registry.py:159-174 | with an entry holding a module the file is unchanged (the TypeError is caught); otherwise it holds the records of the current entries |
| Registry.AnalyticsRegistry.Register | analytics_registry.py:44-52 | the endpoint is assigned under its id, then saved as `save` does; an endpoint holding a module leaves the file unchanged |
| Registry.AnalyticsRegistry.Assign | analytics_registry.py:51 | `self.endpoints[e.id] = e` in place |
| Registry.AnalyticsRegistry.Unregister | analytics_registry.py:54-68 | answers whether the id was registered; if so it is removed and saved as `save` does, otherwise nothing changes |
| Registry.AnalyticsRegistry.Get | analytics_registry.py:70-80 | finds an endpoint iff the id is registered, and that endpoint has the id |
| Registry.AnalyticsRegistry.Find | analytics_registry.py:91-117 | the registered endpoints that pass the filter, in order |
| Registry.AnalyticsRegistry.Load | analytics_registry.py:119-157 | a missing or unreadable file leaves the entries unchanged; otherwise they are rebuilt from the records |
| Registry.AnalyticsRegistry.RestoreAll | analytics_registry.py:132-155 | the loop of `load` builds the rebuilt table |
| Deployment.AfterLastSlash | deployment_manager.py:154 | the index past the last '/', with no '/' after it |
| Deployment.TrimSlashes | deployment_manager.py:154 | trailing slashes removed, keeping a prefix |
| Deployment.ChildNameOfJoin | deployment_manager.py:187-192 | joining a name to the base and listing the base gives the name back |
| Deployment.JoinOfChildName | deployment_manager.py:187-189 | a listed entry is the base joined with its name |
| Deployment.AfterLastSlashAppend | deployment_manager.py:154 | after a '/' followed by no other '/', the last component starts there |
| Deployment.DirNameOfSource | deployment_manager.py:150-157 | the directory of an endpoint's `analytics.py` is the endpoint directory, so `update` writes `metadata.json` next to the code, as `deploy` does |
| Deployment.EndpointDirShape | deployment_manager.py:43-44 | an endpoint directory is the base joined with the id, nonempty and not ending in '/' |
| Deployment.DirNameOfChild | deployment_manager.py:154 | the directory of `dir/name` is `dir` for a name without '/' |
| Deployment.DeployAndUpdateAgree | deployment_manager.py:163-170 | `deploy` and `update` derive the same capabilities; missing metadata gives the documented defaults; `update` keeps the id and path |
| Deployment.CapabilitiesFrom | deployment_manager.py:65-71 | the metadata's project keys, metrics, filters and description when present, else [], [], {} and ""; the time period as given |
| Deployment.DeploymentManager.constructor | deployment_manager.py:14-26 | the base directory is created; files are untouched |
| Deployment.DeploymentManager.Deploy | deployment_manager.py:28-99 | creates the directory, writes the code and the metadata, and imports; an import failure propagates; the registry is never touched |
| Deployment.DeploymentManager.Undeploy | deployment_manager.py:101-127 | an unregistered id changes nothing and answers False; otherwise the id is unregistered and saved as `save` does; the directory the joined path names (trailing slashes dropped, so the empty id names the base) is removed with its files and answers True when it exists; a plain file at that path raises "Not a directory"; nothing there answers False |
| Deployment.EmptyIdNamesBase | deployment_manager.py:121-125 | the empty id joins to the base with a trailing slash, which names the base directory itself |
| Deployment.DeploymentManager.Update | deployment_manager.py:129-176 | None without a registry or for an unknown id; writing the code, then the metadata (over the files as the first write left them), raises as `open` does; otherwise both files are rewritten, an import failure propagates, and a successful import puts the updated endpoint under the same id while the file stays as it was |
| Deployment.OpenError | deployment_manager.py:150-155 | `open(p, "w")` succeeds iff `p` is nonempty, the directory holding it exists as a directory and `p` is not one; an empty path or a missing directory gives Errno 2, a plain file in the directory's place Errno 20, a directory at `p` Errno 21 |
| Deployment.DeploymentManager.ListEndpoints | deployment_manager.py:178-194 | raises when the base is missing; otherwise lists, without repeats, exactly the subdirectories holding `analytics.py` |
| Llm.ModelStringRoundTrip | llm_manager.py:153-165 | a non-OpenAI model string contains '/' and splits back into the provider and its model |
| Llm.ModelStringCases | llm_manager.py:153-165 | for OpenAI, the mapped model alone; for any other provider, the provider and '/' followed by its mapped model, or nothing for an unmapped one |
| Llm.SplitFirstUnique | llm_manager.py:187 | `split("/", 1)` splits at the first '/' |
| Llm.FallbackEntryCases | llm_manager.py:176-192 | an unqualified fallback is qualified like the primary model; "openai/x" in any case becomes x; other "p/x" are kept |
| Llm.Entries | llm_manager.py:176-192 | one entry per comma-separated piece, stripped and qualified |
| Llm.ConfigureFallbacks | llm_manager.py:167-194 | an empty setting gives no fallbacks; otherwise one entry per comma-separated piece |
| Llm.MessageRaisesOnlyForMissingKey | llm_manager.py:291-541 | `process_message` raises iff the provider is Anthropic and no API key is set, and then with that message |
| Llm.LLMManager.constructor | llm_manager.py:25-42 | provider lower-cased with default "openai"; the model map has its two defaults; model string and fallbacks are configured from them |
| Llm.LLMManager.SwitchProvider | llm_manager.py:196-205 | succeeds iff the lower-cased name is in the model map, then sets provider and model; otherwise nothing changes |
| Llm.LLMManager.ProcessMessage | llm_manager.py:291-450 | answers as `MessageAnswer` for the current provider, with the tool-call branches folded into the reply (see Left out), and leaves provider and model unchanged |
| Llm.LLMManager.ProcessDirect | llm_manager.py:452-541 | answers as `DirectAnswer`: raises only for a missing key, falls back to OpenAI when the Anthropic call fails, and leaves provider and model unchanged |
| CodeGen.SelectTemplatePriority | code_generator.py:214-242 | each template is chosen iff its own test holds and no earlier one does |
| CodeGen.StemOf | code_generator.py:265-266 | the template name of `x.py` is `x` |
| CodeGen.ScannedKeys | code_generator.py:263-268 | the scanned keys are exactly the stems of the `.py` files |
| CodeGen.LoadTemplates | code_generator.py:244-270 | the built-ins, overridden by the files of an existing template directory |
| CodeGen.TemplatesComplete | code_generator.py:36 | every selectable template name has a template, the built-in one unless a file overrides it |
| CodeGen.FallbackCode | code_generator.py:125-212 | every fallback module defines `analyze(`; the completion-time module is used iff that template was selected |
| CodeGen.DropOpeningFence | code_generator.py:963-967 | never longer; text without an opening fence is kept |
| CodeGen.DropClosingFence | code_generator.py:969-970 | never longer; text without a closing fence is kept |
| CodeGen.CleanCodeResponse | code_generator.py:953-972 | never longer; unfenced text is returned unchanged |
| CodeGen.CleanFencedBlock | code_generator.py:953-972 | a stripped body wrapped in a python code fence is recovered exactly |
| CodeGen.OpeningFenceDropped | code_generator.py:964-965 | dropping the python fence leaves the rest, stripped |
| CodeGen.EmptyBlockCleaned | code_generator.py:953-972 | an empty fenced block cleans to empty text |
| CodeGen.BlockCleaned | code_generator.py:969-972 | a nonempty stripped body followed by a closing fence is recovered |
| CodeGen.GeneratedCode | code_generator.py:85-95 | a reply is cleaned; a raised call gives a fallback module that defines `analyze(` |
| CodeGen.ProviderAfter | code_generator.py:96-99 | the provider left behind is the lower-cased original or "anthropic" |
| CodeGen.RestoreFailsForUnmappedProvider | code_generator.py:96-99 | a "gemini" provider is left switched to "anthropic" |
| CodeGen.CodeGenerator.constructor | code_generator.py:13-22 | keeps the client and loads the templates |
| CodeGen.CodeGenerator.GenerateCodeAsWritten | code_generator.py:24-99 | without a client, the fallback module; otherwise the direct Anthropic call's code; the provider is restored only when the model map knows it |
| CodeGen.CodeGenerator.GenerateCode | code_generator.py:24-99 | the same code, with provider and model restored to their values on entry |
| CodeGen.CodeGenerator.AskAnthropic | code_generator.py:38-91 | switching to Anthropic succeeds, so the direct call is the one made |
| Coordinator.Candidates | agent_coordinator.py:229-245 | an endpoint is a candidate iff it is registered and supports every requested key and metric |
| Coordinator.CandidatesStep | agent_coordinator.py:229-245 | one more endpoint is appended to the candidates exactly when it supports the request |
| Coordinator.CandidatesAppend | agent_coordinator.py:229-245 | the candidates keep the registry order: those of two lists in a row are the first list's followed by the second's |
| Coordinator.BestIndex | agent_coordinator.py:248-251 | the first endpoint with the largest metric count, which is what the stable descending sort puts first |
| Coordinator.MostSpecificAppend | agent_coordinator.py:248-251 | a later candidate replaces the choice only with strictly more metrics |
| Coordinator.MostSpecificChoice | agent_coordinator.py:215-253 | None iff no endpoint supports the request; otherwise the choice supports it, has the most metrics, and no earlier supporting endpoint ties it |
| Coordinator.ChosenLast | agent_coordinator.py:248-251 | a supporting endpoint with strictly more metrics than every earlier candidate is chosen |
| Coordinator.ChosenKept | agent_coordinator.py:248-251 | an endpoint with no more metrics does not displace the choice |
| Coordinator.EmptyRequestMatchesAll | agent_coordinator.py:237-241 | a request with no keys and no metrics matches every endpoint |
| Coordinator.Validation | agent_coordinator.py:324-362 | valid iff there are no errors |
| Coordinator.ValidationGate | agent_coordinator.py:338-362 | valid iff it compiles and defines `analyze(`; the missing-function error iff `analyze(` is absent; warnings iff `os.system(` or `subprocess` occur; at most two errors |
| Coordinator.FallbackPassesGate | agent_coordinator.py:338-362 | every fallback module passes the gate once it compiles |
| Coordinator.ValidateCode | agent_coordinator.py:324-362 | the validation result of the code, given what `compile` reports |
| Coordinator.ShownKey | agent_coordinator.py:400 | the first requested key, or "Unknown" |
| Coordinator.FormatResult | agent_coordinator.py:364-384 | the sprint formatter iff "sprints" is a key; otherwise completion times iff some project entry has completion times; otherwise a JSON dump |
| Coordinator.ExecuteEndpoint | agent_coordinator.py:255-280 | a report iff the endpoint has a module, `analyze` returns and rendering its result does not raise; the report holds that result in the format `format_result` chooses; every failure gives the execution error text |
| Coordinator.MetadataFor | agent_coordinator.py:306-313 | the endpoint gets the requested keys, metrics, period and filters, the query in its description, and "Analytics for " with the keys joined by ", " as its name |
| Coordinator.CodeFor | code_generator.py:24-99 | without a client or an API key, a module defining `analyze(`; with both and a reply, the cleaned reply |
| Coordinator.DeployAnswer | agent_coordinator.py:299-322 | a report only for code that passes the gate, with a deployer and an import that succeeds, formatted as `format_result` chooses |
| Coordinator.DeployedSupportsRequest | agent_coordinator.py:306-320 | the endpoint deployed for a request supports that request and carries the imported module |
| Coordinator.DeployAnswerMessages | agent_coordinator.py:282-322 | every error carries one of the three prefixes; refused code gives its errors joined by ", " |
| Coordinator.AgentCoordinator.constructor | agent_coordinator.py:35-46 | keeps the three collaborators |
| Coordinator.AgentCoordinator.FindMatchingEndpoint | agent_coordinator.py:215-253 | the most specific supporting endpoint; None without a registry |
| Coordinator.AgentCoordinator.GenerateAndDeploy | agent_coordinator.py:282-322 | the deploy answer for the generated code; the registry is untouched; the provider is restored only when the model map knows it; valid code adds the endpoint directory with `analytics.py` and `metadata.json`; refused code leaves the deployer unchanged |
| Coordinator.AgentCoordinator.DeployGenerated | agent_coordinator.py:299-322 | validates, deploys and runs; valid code adds the endpoint directory with the code and the metadata files; refused code leaves the deployer unchanged |
| Coordinator.AgentCoordinator.ProcessQuery | agent_coordinator.py:48-69 | the analysis holds the query, keys, metrics, time period and filters; a matching endpoint is run and the deployer is unchanged; otherwise a new endpoint is generated and, for code that passes the gate, its directory, `analytics.py` and `metadata.json` are added to the deployer; the provider is left as `generate_code` leaves it; the registry is untouched |
| Metrics.DoneCount | metrics_manager.py:169-171 | no more done issues than issues |
| Metrics.StoryPoints | metrics_manager.py:159-163 | a number is kept; a parseable numeral is its value; a missing, falsy or unconvertible value is 0; True counts as 1 |
| Metrics.MetricsOf | metrics_manager.py:143-185 | every issue is counted, at most all are done, velocity equals completed points, churn is committed − completed, and the churn rate is the defined ratio |
| Metrics.CalculateMetricsForSprint | metrics_manager.py:143-185 | the loop computes the sprint's metrics: every issue counted, done ones completed, velocity equal to completed points, churn = committed − completed |
| Metrics.CompletedWithinCommitted | metrics_manager.py:155-175 | with non-negative points, completed ≤ committed and the churn rate lies in [0, 100] |
| Metrics.RateBounds | metrics_manager.py:175 | the churn rate of a completed part of the commitment lies in [0, 100] |
| Metrics.SprintExample | test_app.py:15-57 | the three-issue example gives 3 issues, 8 committed, 2 done, 3 completed, churn 5 and a churn rate of 62.5 |
| Metrics.InsertByEnd | metrics_manager.py:224-228 | inserting adds one sprint |
| Metrics.InsertByEndSorted | metrics_manager.py:224-228 | inserting into a list sorted by descending end date keeps it sorted and adds exactly that sprint |
| Metrics.InsertByEndBounded | metrics_manager.py:224-228 | inserting keeps an upper bound on the end dates |
| Metrics.ConsSorted | metrics_manager.py:224-228 | a sprint ending no earlier than the rest heads a sorted list |
| Metrics.SortByEndDesc | metrics_manager.py:224-228 | sorted by descending end date (no end date last) and a permutation of the input |
| Metrics.Prefix | metrics_manager.py:231 | Python's `[:n]`, negative `n` included |
| Metrics.SelectionProperties | metrics_manager.py:207-231 | min(n, available) sprints; the active sprint first; the closed ones after it by descending end date, each from the closed listing |
| Metrics.BoardFor | metrics_manager.py:23-40 | the first board when the request succeeds with boards; no boards gives a 404 "No board found" error |
| Metrics.EntryFor | metrics_manager.py:234-270 | id and name copied; metrics iff the issue request succeeded, then the state, the metrics of the issues, and a baseline one day after the start exactly when there is a start |
| Metrics.SumBounds | metrics_manager.py:281 | a sum of values within bounds lies within length times the bounds |
| Metrics.MeanBounds | metrics_manager.py:281 | the average is 0 for no values and otherwise lies within the values' bounds |
| Metrics.ClosedVelocitiesFrom | metrics_manager.py:272-279 | every averaged velocity is that of a closed sprint with metrics; none when no sprint is closed |
| Metrics.EntriesFor | metrics_manager.py:233-270 | one entry per selected sprint |
| Metrics.MetricsForCases | metrics_manager.py:188-290 | board and closed-listing failures give their error and status; a failed active listing means no active sprint; a report has one entry per selected sprint, at most `num_sprints`, and average 0 without closed sprints |
| Metrics.MetricsFor | metrics_manager.py:188-290 | an error response iff the board or the closed-sprint request fails; a report names the project, counts its sprints and averages the velocities of the closed ones |
| Metrics.GetMetrics | metrics_manager.py:188-290 | computes the report of `get_metrics` |
| Metrics.SprintEntries | metrics_manager.py:233-270 | the loop builds one entry per selected sprint |
| Metrics.AverageVelocity | metrics_manager.py:272-281 | the loop averages the closed sprints' velocities |
| Routing.Route | llm_manager.py:207-289 | Anthropic answers directly; otherwise a sprint question (with "velocity", "points" or "churn") takes the metrics path, and only the rest go to the agents |
| Routing.StuckOnAnthropic | llm_manager.py:207-289 | once `generate_code` has left a "gemini" client on Anthropic, every question, sprint questions included, is answered directly |
| Routing.DirectReply | llm_manager.py:224-233 | the direct call's text, or the error text; a missing key gives the key message |
| Routing.RequestedProject | llm_manager.py:238-239 | group 1 of the leftmost match of `for\s+([A-Z]+)`, a nonempty run of capitals; None iff the pattern matches nowhere |
| Routing.RequestedSprints | llm_manager.py:245-246 | 5 when "last N sprint" does not occur; otherwise the value of the digits of the first match |
| Routing.RowOf | llm_manager.py:270-275 | velocity equals completed, churn is committed − completed; a sprint's name and points come from its entry |
| Routing.Rows | llm_manager.py:270-277 | one row per sprint entry |
| Routing.CompletedColumn | llm_manager.py:259 | the completed points of every row |
| Routing.TableAsWritten | llm_manager.py:259-277 | as written, one row per sprint, each "Unknown" with zero points, and the average velocity is 0 |
| Routing.Table | llm_manager.py:256-277 | the table meant: one row per sprint read from its entry, the average being the mean of the completed points |
| Routing.TableFindingExample | llm_manager.py:259-277 | a closed sprint with 3 of 8 points done shows as blank as written, and as its name, 8, 3 and average 3 when read from the entry |
| Routing.TableMatchesReport | llm_manager.py:259-260 | for closed sprints with metrics, the table averages the same velocities as the report |
| Routing.ReportVelocities | metrics_manager.py:173 | every report entry with metrics has velocity equal to completed points |
| Routing.SprintReply | llm_manager.py:250-282 | an error tuple becomes the AttributeError message; a report without sprints gives "No sprint data found"; otherwise the table as written |
| Routing.SprintsAnswer | llm_manager.py:236-282 | no project key gives the key message; a table carries the key and requested count from the query, with blank rows and average 0 |
| Routing.AnalyzeJiraData | llm_manager.py:207-289 | routes as `Route` says; on the agents path the analysis is the query's (keys, metric names, time period, filters) and the answer is the coordinator's for it; the deployer gains the new endpoint when code is generated and is unchanged when an endpoint matches or another path is taken; the provider is left as `generate_code` leaves it when the agents generate code with this client, else unchanged |
| Routing.AskAgents | llm_manager.py:283-285 | the analysis `process_query` makes of the query (keys, metric names, time period, filters) and the coordinator's answer for it; the deployer gains the new endpoint when code is generated, and is unchanged when an endpoint matches; the provider is left as `generate_code` leaves it when code is generated with this client |
| Routing.AnswerSprintQuery | llm_manager.py:236-282 | answers the sprint question as written: the key message, the error text, no data, or the blank table |
| Routing.BuildTable | llm_manager.py:256-282 | the loop builds the table as written |

## Left out

- I/O is out: printing, logging, `_save_debug_code` and the debug directory.
- The registry file, the deployed files and the directories are modelled as values: a snapshot, a set of directories and a map of files. JSON encoding is not modelled.
- Paths are strings. "." and ".." components are not resolved, so an id of ".." names a directory of its own in the model, and only trailing slashes are dropped when `undeploy` looks for a directory. Deployment.OpenError looks only at the immediate directory of the path, not at the components above it.
- Registry.AnalyticsRegistry.Load: a record that `AnalyticsEndpoint(**record)` rejects (analytics_registry.py:141) raises after the earlier records were assigned, leaving a partial table; the model assumes every stored record has the endpoint's fields.
- Registry.AnalyticsRegistry.Save: `os.makedirs("")` for a `db_path` with no directory part (analytics_registry.py:123-125, 165) raises and is caught; the model takes the directory of the registry file to exist.
- The text of prompts is not modelled. The LLM's replies are parameters, so the template a prompt embeds is not passed on.
- `to_dict` of the analysis is not modelled.
- Timestamps are natural numbers, and ISO-8601 text is their decimal digits. `datetime.now()` is a parameter, and so is `uuid4()`, required to be a plain path component.
- `get_metrics` takes start and end dates already parsed. The source's handling of unparseable dates is not modelled. For a start date, the source skips the baseline. For an end date, the source's sort raises. The comparison of naive and aware datetimes is not modelled either.
- Metrics.MetricsFor: exceptions that escape `get_metrics` are not modelled. A request that raises (a connection error or timeout from `requests.get`, or `response.json()` on a 200 response that is not JSON, metrics_manager.py:31-36, 92, 126-132) and an issue whose "fields" or "status" is null (the `.get` on None at metrics_manager.py:158, 167-169) raise out of `get_metrics`, and `analyze_jira_data` then answers "I encountered an error while analyzing the data: " with the message (llm_manager.py:287-289). The `Jira` oracle only fetches or fails with an HTTP status, and an issue's fields are always present.
- HTTP requests and pagination are parameters (`Jira`): board, active-sprint, closed-sprint and issue listings, and the story-point conversion `float(x)`. The other REST helpers of `llm_manager.py` and `metrics_manager.py` are not part of this model.
- The texts of the built-in templates are not modelled. Each is an opaque value, and only the fallback modules are spelled out.
- Output formatting is not modelled: `format_sprint_metrics`, `format_story_point_completion_times`, the sprint table's text layout and float formatting. The model returns structured values: a `Format` choice, `Reply` rows and the average.
- Lower-casing and `IGNORECASE` are ASCII only, and so are `\d` and `\w`. `\s` and `strip()` use Python's whitespace set.
- `list(set(...))` of the project keys has an unspecified order in the model. Hash order is not modelled.
- Metrics.SortByEndDesc: stated as sorted and a permutation of the input; the stability of Python's sort is not stated.
- Coordinator.BestIndex: the sort in `find_matching_endpoint` is not modelled. Its result is stated as the first endpoint with the most metrics, which is the element a stable descending sort puts first.
- Float infinities and NaN are not modelled; story points and averages are reals.
- Llm.LLMManager.ProcessMessage: the tool-call and legacy function-call branches (llm_manager.py:326-419) are folded into the reply oracle: which functions the model calls, their arguments, `get_project_metrics`, `get_initiative_summary`, the recursive `analyze_jira_data` and the follow-up completion are not modelled. Only the provider handling, the missing-key error and the fallback chain are.
- Llm.ModelString and CodeGen.SelectTemplate carry no ensures of their own: their properties are the lemmas Llm.ModelStringCases and CodeGen.SelectTemplatePriority, which callers use where they need them.
- CodeGen.CodeGenerator.GenerateCode and Routing.Table are the corrected halves of the two findings below. The entry points (`process_query`, `analyze_jira_data`) use the code as written: CodeGen.CodeGenerator.GenerateCodeAsWritten and Routing.TableAsWritten.
- Coordinator.ExecuteEndpoint: how the formatters and `json.dumps` render a result is a parameter (`Renderer`); the model states only whether rendering raises.
- CodeGen.CodeGenerator.GenerateCode: the `process_message` branch of `generate_code` is not modelled. The switch to Anthropic always succeeds, so that branch is never taken.
- Llm.LLMManager.constructor: only the provider settings are modelled. The Jira fields, the function table, the system prompt and the creation of the agent components are not.
- `process_query` returns an `Answer` value, not a string: text or a formatted report.
- The unused `original_provider` of `analyze_jira_data` is not modelled.

## Findings

| source | as written | input that shows it | evidently intended | confidence | as-written member | corrected member |
|---|---|---|---|---|---|---|
| code_generator.py:38-99 | the provider is restored with `switch_provider(original)`, which fails for a provider the model map lacks | LLM_PROVIDER=gemini: after `generate_code` the client is left on "anthropic" | provider and model are back to their values on entry | not executed | CodeGen.CodeGenerator.GenerateCodeAsWritten | CodeGen.CodeGenerator.GenerateCode |
| analytics_registry.py:20-27 | `to_dict` calls `asdict` before dropping the module; `asdict` deep-copies every field and a module cannot be copied, so `save` raises TypeError, catches it and writes nothing | an endpoint deployed and then registered holds its module: `register_endpoint` leaves the file as it was, and `update` never persists | the record of every endpoint with the module left out is written | not executed | Registry.SaveWithModuleExample | Registry.SaveThenLoad |
| llm_manager.py:259-275 | the sprint table reads "name", "committed_points" and "completed_points" at the top level of each entry, but `get_metrics` stores "sprint_name" and a nested "metrics" | a closed sprint named "Sprint 1" with 3 of 8 points done shows as "Unknown", 0, 0, with average velocity 0 | each row shows the sprint's name and points, and the average is taken over its completed points | not executed | Routing.TableAsWritten | Routing.Table |

=== FILE: codegen.dfy ===
/** The control logic of the code generator (code_generator.py): template
    selection by keyword priority, the built-in template table, the fallback
    modules, stripping of Markdown fences from the model's reply, and
    `generate_code`, which switches the language-model client to Anthropic
    for the call and switches it back afterwards. */
module CodeGen {
  import opened Common
  import opened Text
  import opened Query
  import opened Llm

  /** The four built-in templates. */
  datatype TemplateName = Default | StoryPointsAnalysis | TimeAnalysis | StoryPointCompletionTime

  /** The dictionary key of a built-in template. */
  function Key(t: TemplateName): string {
    match t
    case Default => "default"
    case StoryPointsAnalysis => "story_points_analysis"
    case TimeAnalysis => "time_analysis"
    case StoryPointCompletionTime => "story_point_completion_time"
  }

  /** A template: one of the built-in texts, or the contents of a `.py` file
      from the template directory.  The built-in texts are prompts for the
      model and are not part of this model. */
  datatype Template = BuiltIn(name: TemplateName) | FromFile(text: string)

  // ---------------------------------------------------------------------
  // Template selection

  const CompletionKeywords: seq<string> := ["how long", "calendar days", "completion time", "time to complete"]
  const StoryPointsKeywords: seq<string> := ["story points", "points", "velocity", "churn"]
  const TimeKeywords: seq<string> := ["time", "duration", "days", "weeks", "months"]

  /** Python's `any(k in text for k in keywords)`. */
  predicate AnyIn(text: string, keywords: seq<string>) {
    exists k :: k in keywords && Contains(text, k)
  }

  /** `_select_template`, on the text of the query. */
  function SelectTemplate(query: string): (r: TemplateName) {
    var q := Lower(query);
    if Contains(q, "story points") && AnyIn(q, CompletionKeywords) then StoryPointCompletionTime
    else if AnyIn(q, StoryPointsKeywords) then StoryPointsAnalysis
    else if AnyIn(q, TimeKeywords) then TimeAnalysis
    else Default
  }

  /** The tests are tried in order and the first that holds decides; each
      template is chosen exactly when its own test holds and no earlier one
      does.  (Stated as a lemma rather than on `SelectTemplate`, so that the
      callers of the function do not carry these quantified facts.) */
  lemma SelectTemplatePriority(query: string)
    ensures SelectTemplate(query) == StoryPointCompletionTime <==>
      Contains(Lower(query), "story points") && AnyIn(Lower(query), CompletionKeywords)
    ensures SelectTemplate(query) == StoryPointsAnalysis <==>
      !(Contains(Lower(query), "story points") && AnyIn(Lower(query), CompletionKeywords)) &&
      AnyIn(Lower(query), StoryPointsKeywords)
    ensures SelectTemplate(query) == TimeAnalysis <==>
      !AnyIn(Lower(query), StoryPointsKeywords) && AnyIn(Lower(query), TimeKeywords)
    ensures SelectTemplate(query) == Default <==>
      !AnyIn(Lower(query), StoryPointsKeywords) && !AnyIn(Lower(query), TimeKeywords)
  {
    var q := Lower(query);
    if Contains(q, "story points") {
      assert "story points" in StoryPointsKeywords;
    }
  }

  // ---------------------------------------------------------------------
  // The template table

  /** The four built-in entries of `_load_templates`. */
  const BuiltIns: map<string, Template> :=
    map[Key(Default) := BuiltIn(Default),
        Key(StoryPointsAnalysis) := BuiltIn(StoryPointsAnalysis),
        Key(TimeAnalysis) := BuiltIn(TimeAnalysis),
        Key(StoryPointCompletionTime) := BuiltIn(StoryPointCompletionTime)]

  /** `os.path.splitext(name)[0]` for a file name ending in ".py": the name
      without its extension, unless everything before the extension is dots,
      in which case Python treats the whole name as the stem. */
  function Stem(name: string): (r: string)
    requires EndsWith(name, ".py")
  {
    var root := name[..|name| - 3];
    if forall k :: 0 <= k < |root| ==> root[k] == '.' then name else root
  }

  /** A file name with something other than dots before ".py" loses exactly
      its extension. */
  lemma StemOf(base: string)
    requires exists k :: 0 <= k < |base| && base[k] != '.'
    ensures EndsWith(base + ".py", ".py") && Stem(base + ".py") == base
  {
    var name := base + ".py";
    assert name[|name| - 3..] == ".py";
    assert name[..|name| - 3] == base;
  }

  /** The entries the directory scan adds: one per `.py` file, in listing
      order, a later file replacing an earlier one with the same stem. */
  function Scanned(files: seq<(string, string)>): (r: map<string, Template>) {
    if files == [] then map[]
    else
      var (name, text) := files[|files| - 1];
      var before := Scanned(files[..|files| - 1]);
      if EndsWith(name, ".py") then before[Stem(name) := FromFile(text)] else before
  }

  /** The keys the scan adds are exactly the stems of the `.py` files. */
  lemma {:induction false} ScannedKeys(files: seq<(string, string)>)
    ensures forall k :: k in Scanned(files) <==>
      exists i :: 0 <= i < |files| && EndsWith(files[i].0, ".py") && Stem(files[i].0) == k
  {
    if files != [] {
      var init := files[..|files| - 1];
      ScannedKeys(init);
      forall k ensures k in Scanned(files) <==>
        exists i :: 0 <= i < |files| && EndsWith(files[i].0, ".py") && Stem(files[i].0) == k
      {
        if k in Scanned(init) {
          var i :| 0 <= i < |init| && EndsWith(init[i].0, ".py") && Stem(init[i].0) == k;
          assert files[i] == init[i];
        }
        if exists i :: 0 <= i < |files| && EndsWith(files[i].0, ".py") && Stem(files[i].0) == k {
          var i :| 0 <= i < |files| && EndsWith(files[i].0, ".py") && Stem(files[i].0) == k;
          if i < |init| {
            assert init[i] == files[i];
          }
        }
      }
    }
  }

  /** `_load_templates`: the built-ins, then every `.py` file of the template
      directory (`dir` is None when no directory is given or it does not
      exist; otherwise its listing, as name and contents). */
  method LoadTemplates(dir: Option<seq<(string, string)>>) returns (templates: map<string, Template>)
    ensures templates == BuiltIns + (if dir.Some? then Scanned(dir.value) else map[])
  {
    templates := map[];
    templates := templates[Key(Default) := BuiltIn(Default)];
    templates := templates[Key(StoryPointsAnalysis) := BuiltIn(StoryPointsAnalysis)];
    templates := templates[Key(TimeAnalysis) := BuiltIn(TimeAnalysis)];
    templates := templates[Key(StoryPointCompletionTime) := BuiltIn(StoryPointCompletionTime)];
    if dir.Some? {
      var files := dir.value;
      var i := 0;
      while i < |files|
        invariant 0 <= i <= |files|
        invariant templates == BuiltIns + Scanned(files[..i])
      {
        var (name, text) := files[i];
        assert files[..i + 1][..i] == files[..i];
        if EndsWith(name, ".py") {
          templates := templates[Stem(name) := FromFile(text)];
        }
        i := i + 1;
      }
      assert files[..i] == files;
    }
  }

  /** Every name `_select_template` can return is a key of the table, so the
      lookup in `generate_code` never needs its default; a built-in is
      replaced only by a directory file with the same stem. */
  lemma TemplatesComplete(files: seq<(string, string)>)
    ensures forall t :: Key(t) in BuiltIns + Scanned(files)
    ensures forall t :: Key(t) !in Scanned(files) ==> (BuiltIns + Scanned(files))[Key(t)] == BuiltIn(t)
  {
    forall t ensures Key(t) in BuiltIns && BuiltIns[Key(t)] == BuiltIn(t) {
      match t
      case Default =>
      case StoryPointsAnalysis =>
      case TimeAnalysis =>
      case StoryPointCompletionTime =>
    }
  }

  // ---------------------------------------------------------------------
  // Fallback modules

  const AnalyzeHeader: string := "def analyze("

  /** The generic fallback module. */
  const GenericStub: string := GenericHead + AnalyzeHeader + GenericTail
  const GenericHead: string := "\nimport os\nfrom typing import Dict, List, Any\n\n"
  const GenericTail: string :=
    "project_keys: List[str], **kwargs) -> Dict[str, Any]:\n" +
    "    \"\"\"\n" +
    "    Fallback analyze function.\n" +
    "    \n" +
    "    Args:\n" +
    "        project_keys: List of Jira project keys to analyze\n" +
    "        **kwargs: Additional parameters\n" +
    "        \n" +
    "    Returns:\n" +
    "        Fallback results\n" +
    "    \"\"\"\n" +
    "    return {\n" +
    "        \"error\": \"Code generation failed. Using fallback implementation.\",\n" +
    "        \"project_keys\": project_keys\n" +
    "    }\n"

  /** The fallback module for story-point completion times. */
  const CompletionStub: string := CompletionHead + AnalyzeHeader + CompletionTail
  const CompletionHead: string := "\nimport os\nfrom typing import Dict, List, Any\nfrom datetime import datetime, timedelta\n\n"
  const CompletionTail: string :=
    "project_keys: List[str], time_period: str = \"3m\", story_point_values: List[int] = None, **kwargs) -> Dict[str, Any]:\n" +
    "    \"\"\"\n" +
    "    Fallback analyze function for story point completion time analysis.\n" +
    "    \n" +
    "    Args:\n" +
    "        project_keys: List of Jira project keys to analyze\n" +
    "        time_period: Time period to analyze\n" +
    "        story_point_values: List of story point values to analyze\n" +
    "        **kwargs: Additional parameters\n" +
    "        \n" +
    "    Returns:\n" +
    "        Fallback results\n" +
    "    \"\"\"\n" +
    "    if story_point_values is None:\n" +
    "        story_point_values = [1, 2, 3, 5, 8]\n" +
    "    \n" +
    "    # Create a simple fallback result\n" +
    "    results = {}\n" +
    "    \n" +
    "    for project_key in project_keys:\n" +
    "        completion_times = {}\n" +
    "        \n" +
    "        for points in story_point_values:\n" +
    "            completion_times[str(points)] = {\n" +
    "                \"count\": 0,\n" +
    "                \"avg_days\": None,\n" +
    "                \"median_days\": None,\n" +
    "                \"min_days\": None,\n" +
    "                \"max_days\": None\n" +
    "            }\n" +
    "        \n" +
    "        results[project_key] = {\n" +
    "            \"completion_times\": completion_times,\n" +
    "            \"time_period\": {\n" +
    "                \"start_date\": (datetime.now() - timedelta(days=90)).isoformat(),\n" +
    "                \"end_date\": datetime.now().isoformat(),\n" +
    "                \"description\": time_period\n" +
    "            }\n" +
    "        }\n" +
    "    \n" +
    "    return results\n"

  /** `_get_fallback_code`. */
  function FallbackCode(t: TemplateName): (r: string)
    ensures Contains(r, AnalyzeHeader)
    ensures r == CompletionStub <==> t == StoryPointCompletionTime
  {
    assert GenericStub != CompletionStub by {
      assert GenericStub[46] == GenericHead[46] == '\n';
      assert CompletionStub[46] == CompletionHead[46] == 'f';
    }
    if t == StoryPointCompletionTime then
      ContainsMiddle(CompletionHead, AnalyzeHeader, CompletionTail);
      CompletionStub
    else
      ContainsMiddle(GenericHead, AnalyzeHeader, GenericTail);
      GenericStub
  }

  // ---------------------------------------------------------------------
  // Cleaning the reply

  const PythonFence: string := "```python"
  const Fence: string := "```"

  /** The first step of `_clean_code_response`: drop one opening fence,
      "```python" tried before "```", and strip what remains. */
  function DropOpeningFence(text: string): (r: string)
    ensures |r| <= |text|
    ensures !StartsWith(text, Fence) ==> r == text
  {
    assert StartsWith(text, PythonFence) ==> StartsWith(text, Fence) by {
      if StartsWith(text, PythonFence) {
        assert text[..3] == text[..9][..3];
      }
    }
    if StartsWith(text, PythonFence) then Strip(text[|PythonFence|..])
    else if StartsWith(text, Fence) then Strip(text[|Fence|..])
    else text
  }

  /** The second step: drop one closing fence and strip what remains. */
  function DropClosingFence(text: string): (r: string)
    ensures |r| <= |text|
    ensures !EndsWith(text, Fence) ==> r == text
  {
    if EndsWith(text, Fence) then Strip(text[..|text| - |Fence|]) else text
  }

  /** `_clean_code_response`: at most one opening and one closing fence
      are removed; text with neither is returned unchanged. */
  function CleanCodeResponse(text: string): (r: string)
    ensures |r| <= |text|
    ensures !StartsWith(text, Fence) && !EndsWith(text, Fence) ==> r == text
  {
    DropClosingFence(DropOpeningFence(text))
  }

  /** A code block in a Markdown fence labelled python is unwrapped to
      exactly its body, when the body has no surrounding whitespace. */
  lemma CleanFencedBlock(body: string)
    requires IsStripped(body)
    ensures CleanCodeResponse(PythonFence + "\n" + body + "\n" + Fence) == body
  {
    var rest := "\n" + body + "\n" + Fence;
    assert PythonFence + "\n" + body + "\n" + Fence == PythonFence + rest;
    OpeningFenceDropped(rest);
    if body == [] {
      assert rest == "\n\n" + Fence;
      EmptyBlockCleaned();
    } else {
      BlockCleaned(body);
    }
  }

  lemma OpeningFenceDropped(rest: string)
    ensures DropOpeningFence(PythonFence + rest) == Strip(rest)
  {
    var text := PythonFence + rest;
    assert text[..|PythonFence|] == PythonFence && text[|PythonFence|..] == rest;
  }

  lemma EmptyBlockCleaned()
    ensures DropClosingFence(Strip("\n\n" + Fence)) == ""
  {
    StripAround("\n\n", Fence, "");
    assert "\n\n" + Fence + "" == "\n\n" + Fence;
    assert Fence[..0] == "" + "" + "";
    StripAround("", "", "");
  }

  lemma BlockCleaned(body: string)
    requires IsStripped(body) && body != []
    ensures DropClosingFence(Strip("\n" + body + "\n" + Fence)) == body
  {
    var t := body + "\n" + Fence;
    assert IsStripped(t) by {
      assert t[0] == body[0];
      assert t[|t| - 1] == '`';
    }
    assert "\n" + body + "\n" + Fence == "\n" + t + "";
    StripAround("\n", t, "");
    assert t[|t| - |Fence|..] == Fence;
    assert t[..|t| - |Fence|] == "" + body + "\n";
    StripAround("", body, "\n");
  }

  // ---------------------------------------------------------------------
  // generate_code

  /** The code `generate_code` returns for a reply of the model: the cleaned
      reply, or the fallback module of the selected template when the call
      raised. */
  function GeneratedCode(query: string, reply: Outcome<string>): (r: string)
    ensures reply.Raised? ==> Contains(r, AnalyzeHeader)
    ensures reply.Ok? ==> r == CleanCodeResponse(reply.value)
  {
    match reply
    case Ok(text) => CleanCodeResponse(text)
    case Raised(_) => FallbackCode(SelectTemplate(query))
  }

  /** The provider `generate_code` leaves behind when it started from
      `original`: `switch_provider(original)` runs only for a non-empty
      name and succeeds only for a name the model map knows. */
  function ProviderAfter(original: string, modelMap: map<string, string>): (r: string)
    ensures r == Lower(original) || r == "anthropic"
  {
    if original != "" && Lower(original) in modelMap then Lower(original) else "anthropic"
  }

  /** With a provider the model map does not know, such as one configured
      as LLM_PROVIDER=gemini, the restore fails and the client is left on
      Anthropic. */
  lemma RestoreFailsForUnmappedProvider(openaiModel: string, anthropicModel: string)
    ensures ProviderAfter("gemini", map["openai" := openaiModel, "anthropic" := anthropicModel]) == "anthropic"
  {
    var m := map["openai" := openaiModel, "anthropic" := anthropicModel];
    assert Lower("gemini")[0] == 'g';
    assert Lower("gemini") !in m by {
      assert "openai"[0] == 'o' && "anthropic"[0] == 'a';
    }
  }

  /** `CodeGenerator`. */
  class CodeGenerator {
    const llm: LLMManager?
    const templates: map<string, Template>

    ghost predicate Valid() reads this, llm {
      (llm != null ==> llm.Valid()) &&
      (forall t :: Key(t) in templates)
    }

    /** `__init__`: the client, and the table `_load_templates` builds. */
    constructor (llm: LLMManager?, dir: Option<seq<(string, string)>>)
      requires llm != null ==> llm.Valid()
      ensures Valid() && this.llm == llm
      ensures templates == BuiltIns + (if dir.Some? then Scanned(dir.value) else map[])
    {
      var t := LoadTemplates(dir);
      TemplatesComplete(if dir.Some? then dir.value else []);
      this.llm := llm;
      templates := t;
    }

    /** `generate_code` as written.  Without a client the first attribute
        access raises and the fallback is returned.  With one, the client is
        switched to Anthropic, which always succeeds, so the direct Anthropic
        call is the one made; afterwards `switch_provider(original)` tries to
        switch back. */
    method GenerateCodeAsWritten(analysis: QueryAnalysis, o: Replies) returns (code: string)
      requires Valid()
      modifies llm
      ensures Valid()
      ensures llm == null ==> code == FallbackCode(SelectTemplate(analysis.query))
      ensures llm != null ==>
        code == GeneratedCode(analysis.query, DirectAnswer(o, llm.modelMap["openai"], llm.fallbacks))
      ensures llm != null ==> llm.provider == ProviderAfter(old(llm.provider), llm.modelMap)
    {
      var name := SelectTemplate(analysis.query);
      var template := templates[Key(name)];
      if llm == null {
        return FallbackCode(name);
      }
      var original := llm.provider;
      code := AskAnthropic(analysis.query, o);
      if original != "" {
        var _ := llm.SwitchProvider(original);
      }
    }

    /** `generate_code` with the provider restored as its comment intends:
        provider and model are set back to their values on entry, as the
        client's own fallback paths do. */
    method GenerateCode(analysis: QueryAnalysis, o: Replies) returns (code: string)
      requires Valid()
      modifies llm
      ensures Valid()
      ensures llm == null ==> code == FallbackCode(SelectTemplate(analysis.query))
      ensures llm != null ==>
        code == GeneratedCode(analysis.query, DirectAnswer(o, llm.modelMap["openai"], llm.fallbacks))
      ensures llm != null ==> llm.provider == old(llm.provider) && llm.model == old(llm.model)
    {
      var name := SelectTemplate(analysis.query);
      var template := templates[Key(name)];
      if llm == null {
        return FallbackCode(name);
      }
      var original, originalModel := llm.provider, llm.model;
      code := AskAnthropic(analysis.query, o);
      llm.provider, llm.model := original, originalModel;
    }

    /** The middle of `generate_code`: switch the client to Anthropic and
        make the direct call; the client is left on Anthropic. */
    method AskAnthropic(query: string, o: Replies) returns (code: string)
      requires llm != null && llm.Valid()
      modifies llm
      ensures llm.Valid() && llm.provider == "anthropic"
      ensures code == GeneratedCode(query, DirectAnswer(o, llm.modelMap["openai"], llm.fallbacks))
    {
      assert Lower("anthropic") == "anthropic";
      var _ := llm.SwitchProvider("anthropic");
      var reply := llm.ProcessDirect(o);
      code := GeneratedCode(query, reply);
    }
  }
}

=== FILE: common.dfy ===
/** Small value types shared by every module of the model. */
module Common {

  /** Python's `None` or a value. */
  datatype Option<T> = None | Some(value: T) {
    function GetOr(default: T): T {
      match this
      case Some(v) => v
      case None => default
    }
  }

  /** The result of a Python call that either returns a value or raises an
      exception whose `str()` is `message`. */
  datatype Outcome<T> = Ok(value: T) | Raised(message: string)

  /** An abstract point in time (Python `datetime`); larger is later. */
  type Timestamp = nat
}

=== FILE: coordinator.dfy ===
/** The agent coordinator (agent_coordinator.py): choosing a registered
    endpoint for an analysed query, the validation gate for generated code,
    running an endpoint, and the generate-validate-deploy-run path taken when
    no endpoint fits.  Every failure becomes an answer text; none escapes. */
module Coordinator {
  import opened Common
  import opened Text
  import opened Query
  import opened Registry
  import opened Deployment
  import opened Llm
  import opened CodeGen

  // ---------------------------------------------------------------------
  // Results and answers

  /** A value of the dictionary an endpoint's `analyze` returns, as far as
      `format_result` looks at it: a dictionary, with whether its
      "completion_times" entry is truthy, or anything else. */
  datatype Field = Dict(completionTimes: bool) | NotDict

  type AnalysisResult = map<string, Field>

  /** The three formatters `format_result` chooses between; the first two
      report on one project key.  The text they render is not modelled. */
  datatype Format = SprintMetrics(projectKey: string) | CompletionTimes(projectKey: string) | JsonDump

  /** What the coordinator answers: a rendered result, or a message. */
  datatype Answer = Report(format: Format, result: AnalysisResult) | Text(text: string)

  const ExecutionError: string := "Error executing analytics: "
  const GenerationError: string := "Error generating analytics code: "
  const DeploymentError: string := "Error generating and deploying analytics: "

  /** `str(e)` of the AttributeError raised by using `name` on None. */
  function NoAttribute(name: string): string {
    "'NoneType' object has no attribute '" + name + "'"
  }

  // ---------------------------------------------------------------------
  // find_matching_endpoint

  /** The endpoint offers every requested project key and metric. */
  predicate Supports(e: Endpoint, a: QueryAnalysis) {
    (forall pk :: pk in a.projectKeys ==> pk in e.capabilities.projectKeys) &&
    (forall m :: m in a.metrics ==> m in e.capabilities.metrics)
  }

  /** The sort key of `find_matching_endpoint`. */
  function MetricCount(e: Endpoint): nat {
    |e.capabilities.metrics|
  }

  /** The endpoints that support the request, in their order. */
  function Candidates(es: seq<Endpoint>, a: QueryAnalysis): (r: seq<Endpoint>)
    ensures forall e :: e in r <==> e in es && Supports(e, a)
  {
    if es == [] then []
    else
      var last := es[|es| - 1];
      assert es == es[..|es| - 1] + [last];
      Candidates(es[..|es| - 1], a) + (if Supports(last, a) then [last] else [])
  }

  lemma CandidatesStep(es: seq<Endpoint>, i: nat, a: QueryAnalysis)
    requires i < |es|
    ensures Candidates(es[..i + 1], a) == Candidates(es[..i], a) + (if Supports(es[i], a) then [es[i]] else [])
  {
    assert es[..i + 1][..i] == es[..i];
    assert es[..i + 1][i] == es[i];
  }

  /** The candidates keep the registry's order: those of a list followed by
      another are the candidates of the first followed by those of the
      second. */
  lemma {:induction false} CandidatesAppend(xs: seq<Endpoint>, ys: seq<Endpoint>, a: QueryAnalysis)
    ensures Candidates(xs + ys, a) == Candidates(xs, a) + Candidates(ys, a)
  {
    if ys == [] {
      assert xs + ys == xs;
    } else {
      var init := ys[..|ys| - 1];
      CandidatesAppend(xs, init, a);
      assert (xs + ys)[..|xs + ys| - 1] == xs + init;
      assert (xs + ys)[|xs + ys| - 1] == ys[|ys| - 1];
    }
  }

  /** The first element of `es` with the most metrics: what a stable sort by
      metric count in descending order puts first. */
  function BestIndex(es: seq<Endpoint>): (i: nat)
    requires es != []
    ensures i < |es|
    ensures forall j :: 0 <= j < |es| ==> MetricCount(es[j]) <= MetricCount(es[i])
    ensures forall j :: 0 <= j < i ==> MetricCount(es[j]) < MetricCount(es[i])
  {
    if |es| == 1 then 0
    else
      var init := es[..|es| - 1];
      var i := BestIndex(init);
      assert forall j :: 0 <= j < |init| ==> init[j] == es[j];
      if MetricCount(es[|es| - 1]) > MetricCount(init[i]) then |es| - 1 else i
  }

  /** `sort(..., reverse=True)` then `[0]`, or None for no candidates. */
  function MostSpecific(es: seq<Endpoint>): Option<Endpoint> {
    if es == [] then None else Some(es[BestIndex(es)])
  }

  /** Adding a candidate at the end replaces the choice only when it has
      strictly more metrics. */
  lemma MostSpecificAppend(es: seq<Endpoint>, x: Endpoint)
    ensures MostSpecific(es + [x]) ==
      if es == [] || MetricCount(x) > MetricCount(MostSpecific(es).value) then Some(x) else MostSpecific(es)
  {
    if es != [] {
      assert (es + [x])[..|es|] == es;
    }
  }

  /** `r` is a supporting endpoint of `es` with the most metrics, and every
      supporting endpoint before its first occurrence has strictly fewer. */
  ghost predicate ChosenFrom(es: seq<Endpoint>, a: QueryAnalysis, r: Endpoint) {
    Supports(r, a) &&
    (forall e :: e in es && Supports(e, a) ==> MetricCount(e) <= MetricCount(r)) &&
    exists i :: 0 <= i < |es| && es[i] == r &&
      forall j :: 0 <= j < i && Supports(es[j], a) ==> MetricCount(es[j]) < MetricCount(r)
  }

  /** The endpoint chosen from `es`: None exactly when none supports the
      request; otherwise the first supporting endpoint with the most
      metrics. */
  lemma {:induction false} MostSpecificChoice(es: seq<Endpoint>, a: QueryAnalysis)
    ensures MostSpecific(Candidates(es, a)).None? <==> forall e :: e in es ==> !Supports(e, a)
    ensures MostSpecific(Candidates(es, a)).Some? ==> ChosenFrom(es, a, MostSpecific(Candidates(es, a)).value)
  {
    if es != [] {
      var init, x := es[..|es| - 1], es[|es| - 1];
      assert es == init + [x];
      MostSpecificChoice(init, a);
      var c := Candidates(init, a);
      CandidatesStep(es, |es| - 1, a);
      assert es[..|es|] == es;
      if Supports(x, a) {
        assert Candidates(es, a) == c + [x];
        MostSpecificAppend(c, x);
        if c == [] || MetricCount(x) > MetricCount(MostSpecific(c).value) {
          ChosenLast(init, x, a);
        } else {
          ChosenKept(init, x, a, MostSpecific(c).value);
        }
      } else {
        assert Candidates(es, a) == c;
        if MostSpecific(c).Some? {
          ChosenKept(init, x, a, MostSpecific(c).value);
        }
      }
    }
  }

  /** An appended endpoint with strictly more metrics than every earlier
      supporting one is the choice. */
  lemma ChosenLast(init: seq<Endpoint>, x: Endpoint, a: QueryAnalysis)
    requires Supports(x, a)
    requires (forall e :: e in init ==> !Supports(e, a)) ||
      exists r :: ChosenFrom(init, a, r) && MetricCount(r) < MetricCount(x)
    ensures ChosenFrom(init + [x], a, x)
  {
    var es := init + [x];
    forall e | e in es && Supports(e, a) ensures MetricCount(e) <= MetricCount(x) {
      if e != x {
        assert e in init;
      }
    }
    forall j | 0 <= j < |init| && Supports(es[j], a) ensures MetricCount(es[j]) < MetricCount(x) {
      assert es[j] == init[j] && init[j] in init;
    }
    assert es[|init|] == x;
  }

  /** An appended endpoint that does not support the request, or has no
      more metrics than the current choice, leaves the choice alone. */
  lemma ChosenKept(init: seq<Endpoint>, x: Endpoint, a: QueryAnalysis, r: Endpoint)
    requires ChosenFrom(init, a, r)
    requires Supports(x, a) ==> MetricCount(x) <= MetricCount(r)
    ensures ChosenFrom(init + [x], a, r)
  {
    var es := init + [x];
    var i :| 0 <= i < |init| && init[i] == r &&
      forall j :: 0 <= j < i && Supports(init[j], a) ==> MetricCount(init[j]) < MetricCount(r);
    assert es[i] == r;
    forall j | 0 <= j < i && Supports(es[j], a) ensures MetricCount(es[j]) < MetricCount(r) {
      assert es[j] == init[j];
    }
    forall e | e in es && Supports(e, a) ensures MetricCount(e) <= MetricCount(r) {
      if e != x {
        assert e in init;
      }
    }
  }

  /** A request with no project keys and no metrics is supported by every
      endpoint. */
  lemma {:induction false} EmptyRequestMatchesAll(es: seq<Endpoint>, a: QueryAnalysis)
    requires a.projectKeys == [] && a.metrics == []
    ensures Candidates(es, a) == es
  {
    if es != [] {
      EmptyRequestMatchesAll(es[..|es| - 1], a);
      assert es == es[..|es| - 1] + [es[|es| - 1]];
    }
  }

  // ---------------------------------------------------------------------
  // validate_code

  /** What `compile` raises: the text of the SyntaxError, its line and
      column (as the message shows them, "unknown" when absent) and the
      offending line, if any. */
  datatype SyntaxError = SyntaxError(message: string, line: string, column: string, text: Option<string>)

  /** The error line shown: the stripped text, or "unknown" when the error
      has none or it is empty. */
  function ErrorLine(e: SyntaxError): string {
    if e.text.None? || e.text.value == "" then "unknown" else Strip(e.text.value)
  }

  function SyntaxMessage(e: SyntaxError): string {
    "Syntax error: " + e.message + " at line " + e.line + ", column " + e.column +
    ". Error line: '" + ErrorLine(e) + "'"
  }

  const MissingAnalyze: string := "Missing required 'analyze' function"
  const UnsafeCalls: string := "Code contains potentially unsafe system calls"

  datatype ValidationResult = ValidationResult(isValid: bool, errors: seq<string>, warnings: seq<string>)

  /** The result `validate_code` builds for `code`, given what `compile`
      raised on it. */
  function Validation(code: string, compiled: Option<SyntaxError>): (v: ValidationResult)
    ensures v.isValid <==> v.errors == []
  {
    var errors :=
      (if compiled.Some? then [SyntaxMessage(compiled.value)] else []) +
      (if !Contains(code, AnalyzeHeader) then [MissingAnalyze] else []);
    var warnings :=
      if Contains(code, "os.system(") || Contains(code, "subprocess") then [UnsafeCalls] else [];
    ValidationResult(errors == [], errors, warnings)
  }

  /** The gate passes exactly the code that compiles and defines `analyze`;
      a missing `analyze` is always reported; the unsafe-call check only
      warns. */
  lemma ValidationGate(code: string, compiled: Option<SyntaxError>)
    ensures Validation(code, compiled).isValid <==> compiled.None? && Contains(code, AnalyzeHeader)
    ensures MissingAnalyze in Validation(code, compiled).errors <==> !Contains(code, AnalyzeHeader)
    ensures Validation(code, compiled).warnings != [] <==>
      Contains(code, "os.system(") || Contains(code, "subprocess")
    ensures |Validation(code, compiled).errors| <= 2
  {
    if compiled.Some? {
      var e := compiled.value;
      assert SyntaxMessage(e)[0] == 'S' && MissingAnalyze[0] == 'M';
    }
  }

  /** Each fallback module passes the gate whenever it compiles. */
  lemma FallbackPassesGate(t: TemplateName)
    ensures Validation(FallbackCode(t), None).isValid
  {
  }

  /** `validate_code`: `compile` is the oracle for Python's compiler. */
  method ValidateCode(code: string, compile: string -> Option<SyntaxError>) returns (v: ValidationResult)
    ensures v == Validation(code, compile(code))
  {
    var errors: seq<string> := [];
    var warnings: seq<string> := [];
    var compiled := compile(code);
    if compiled.Some? {
      errors := errors + [SyntaxMessage(compiled.value)];
    }
    if !Contains(code, AnalyzeHeader) {
      errors := errors + [MissingAnalyze];
    }
    if Contains(code, "os.system(") || Contains(code, "subprocess") {
      warnings := warnings + [UnsafeCalls];
    }
    v := ValidationResult(|errors| == 0, errors, warnings);
  }

  // ---------------------------------------------------------------------
  // format_result and execute_endpoint

  /** The key the formatters report on: `project_keys[0]`, or "Unknown".
      The order of the keys is arbitrary, so this is some requested key. */
  function ShownKey(a: QueryAnalysis): (k: string)
    ensures k == "Unknown" || k in a.projectKeys
  {
    if a.projectKeys == [] then "Unknown" else a.projectKeys[0]
  }

  /** `format_result`'s choice of formatter. */
  function FormatResult(result: AnalysisResult, a: QueryAnalysis): (f: Format)
    ensures f.SprintMetrics? <==> "sprints" in result
    ensures f.CompletionTimes? <==>
      "sprints" !in result && exists k :: k in result && result[k] == Dict(true)
    ensures f.JsonDump? <==>
      "sprints" !in result && forall k :: k in result ==> result[k] != Dict(true)
    ensures !f.JsonDump? ==> f.projectKey == ShownKey(a)
  {
    if "sprints" in result then SprintMetrics(ShownKey(a))
    else if exists k :: k in result && result[k] == Dict(true) then CompletionTimes(ShownKey(a))
    else JsonDump
  }

  /** `module.analyze(project_keys=..., time_period=..., filters=...)`. */
  type Runner = (LoadedModule, seq<string>, Option<string>, map<string, string>) -> Outcome<AnalysisResult>

  /** Rendering a result with the chosen formatter: None when it returns its
      text, or the message of what it raised (`json.dumps` meeting a value
      JSON cannot encode, or a formatter failing on the result's shape). */
  type Renderer = (Format, AnalysisResult) -> Option<string>

  /** `execute_endpoint`: the formatted result, or the error text when the
      endpoint has no module, `analyze` raises, or rendering the result
      raises (`format_result` runs inside the same `try`). */
  function ExecuteEndpoint(e: Endpoint, a: QueryAnalysis, run: Runner, render: Renderer): (r: Answer)
    ensures r.Report? <==>
      e.loaded.Some? && run(e.loaded.value, a.projectKeys, a.timePeriod, a.filters).Ok? &&
      render(FormatResult(run(e.loaded.value, a.projectKeys, a.timePeriod, a.filters).value, a),
             run(e.loaded.value, a.projectKeys, a.timePeriod, a.filters).value).None?
    ensures r.Report? ==> r.result == run(e.loaded.value, a.projectKeys, a.timePeriod, a.filters).value
    ensures r.Report? ==> r.format == FormatResult(r.result, a)
    ensures r.Text? ==> StartsWith(r.text, ExecutionError)
  {
    match e.loaded
    case None => Text(ExecutionError + NoAttribute("analyze"))
    case Some(m) =>
      match run(m, a.projectKeys, a.timePeriod, a.filters)
      case Raised(msg) => Text(ExecutionError + msg)
      case Ok(result) =>
        var f := FormatResult(result, a);
        match render(f, result)
        case Some(msg) => Text(ExecutionError + msg)
        case None => Report(f, result)
  }

  // ---------------------------------------------------------------------
  // generate_and_deploy

  /** The metadata `generate_and_deploy` passes to `deploy`: every key is
      present, so the endpoint's capabilities are exactly the request. */
  function MetadataFor(a: QueryAnalysis): (meta: Metadata)
    ensures CapabilitiesFrom(meta) ==
      Capabilities(a.projectKeys, a.metrics, a.timePeriod, a.filters, "Generated analytics for query: " + a.query)
    ensures DeployedName(meta) == "Analytics for " + Join(a.projectKeys, ", ")
  {
    Metadata(
      Some("Analytics for " + Join(a.projectKeys, ", ")),
      Some(a.projectKeys),
      Some(a.metrics),
      a.timePeriod,
      Some(a.filters),
      Some("Generated analytics for query: " + a.query))
  }

  /** The deployed endpoint offers what the query asked for, so the same
      request would match it were it registered. */
  lemma DeployedSupportsRequest(base: string, id: string, a: QueryAnalysis, now: Timestamp, m: LoadedModule)
    ensures Supports(Deployed(base, id, MetadataFor(a), now, m), a)
    ensures Deployed(base, id, MetadataFor(a), now, m).loaded == Some(m)
  {
  }

  /** The outside world of one query: the model's replies, the compiler,
      the importer, the generated code's `analyze`, the formatters, the
      `uuid4()` value and the clock. */
  datatype Services = Services(
    replies: Replies,
    compile: string -> Option<SyntaxError>,
    loader: Loader,
    run: Runner,
    render: Renderer,
    freshId: string,
    now: Timestamp)

  /** The code `generate_code` produces.  Without a client, or when the
      direct call raises for want of an API key, it is the fallback module,
      which defines `analyze`. */
  function CodeFor(g: CodeGenerator, a: QueryAnalysis, o: Replies): (code: string)
    requires g.llm != null ==> "openai" in g.llm.modelMap
    ensures g.llm == null || !o.apiKeySet ==> Contains(code, AnalyzeHeader)
    ensures g.llm != null && o.apiKeySet && o.anthropic.Ok? ==> code == CleanCodeResponse(o.anthropic.value)
  {
    if g.llm == null then FallbackCode(SelectTemplate(a.query))
    else GeneratedCode(a.query, DirectAnswer(o, g.llm.modelMap["openai"], g.llm.fallbacks))
  }

  /** What `generate_and_deploy` answers once the code is generated: the
      validation errors, the deployment failure, or the new endpoint's
      result. */
  function DeployAnswer(code: string, d: DeploymentManager?, a: QueryAnalysis, s: Services): (r: Answer)
    ensures r.Report? ==> Validation(code, s.compile(code)).isValid && d != null
    ensures r.Report? ==> s.loader(s.freshId, PathJoin(d.EndpointDir(s.freshId), "analytics.py")).Ok?
    ensures r.Report? ==> r.format == FormatResult(r.result, a)
  {
    var v := Validation(code, s.compile(code));
    if !v.isValid then Text(GenerationError + Join(v.errors, ", "))
    else if d == null then Text(DeploymentError + NoAttribute("deploy"))
    else match s.loader(s.freshId, PathJoin(d.EndpointDir(s.freshId), "analytics.py"))
      case Raised(msg) => Text(DeploymentError + msg)
      case Ok(m) => ExecuteEndpoint(Deployed(d.basePath, s.freshId, MetadataFor(a), s.now, m), a, s.run, s.render)
  }

  /** Every message `generate_and_deploy` can answer carries one of the
      three error prefixes; code the gate refuses is reported with the
      errors joined by ", ". */
  lemma DeployAnswerMessages(code: string, d: DeploymentManager?, a: QueryAnalysis, s: Services)
    ensures DeployAnswer(code, d, a, s).Text? ==>
      StartsWith(DeployAnswer(code, d, a, s).text, GenerationError) ||
      StartsWith(DeployAnswer(code, d, a, s).text, DeploymentError) ||
      StartsWith(DeployAnswer(code, d, a, s).text, ExecutionError)
    ensures !Validation(code, s.compile(code)).isValid ==>
      DeployAnswer(code, d, a, s) == Text(GenerationError + Join(Validation(code, s.compile(code)).errors, ", "))
  {
    var v := Validation(code, s.compile(code));
    if !v.isValid {
      assert (GenerationError + Join(v.errors, ", "))[..|GenerationError|] == GenerationError;
    } else if d == null {
      assert (DeploymentError + NoAttribute("deploy"))[..|DeploymentError|] == DeploymentError;
    } else {
      match s.loader(s.freshId, PathJoin(d.EndpointDir(s.freshId), "analytics.py"))
      case Raised(msg) =>
        assert (DeploymentError + msg)[..|DeploymentError|] == DeploymentError;
      case Ok(m) =>
    }
  }

  /** `AgentCoordinator`. */
  class AgentCoordinator {
    const registry: AnalyticsRegistry?
    const codeGenerator: CodeGenerator?
    const deployer: DeploymentManager?

    ghost predicate Valid()
      reads this, registry, codeGenerator
      reads if codeGenerator != null then {codeGenerator.llm} else {}
    {
      (registry != null ==> registry.Valid()) &&
      (codeGenerator != null ==> codeGenerator.Valid())
    }

    /** The language-model client behind the code generator, if any. */
    function Clients(): set<LLMManager?> reads this {
      if codeGenerator != null then {codeGenerator.llm} else {}
    }

    constructor (registry: AnalyticsRegistry?, codeGenerator: CodeGenerator?, deployer: DeploymentManager?)
      requires registry != null ==> registry.Valid()
      requires codeGenerator != null ==> codeGenerator.Valid()
      ensures Valid()
      ensures this.registry == registry && this.codeGenerator == codeGenerator && this.deployer == deployer
    {
      this.registry := registry;
      this.codeGenerator := codeGenerator;
      this.deployer := deployer;
    }

    /** The endpoint `find_matching_endpoint` returns for `a`. */
    function MatchFor(a: QueryAnalysis): Option<Endpoint>
      reads this, registry
      requires registry != null ==> registry.Valid()
    {
      if registry == null then None else MostSpecific(Candidates(registry.List(), a))
    }

    /** What `process_query` answers for the analysis `a`: the matching
        endpoint's result, or else what generating a new one gives. */
    function AnswerFor(a: QueryAnalysis, s: Services): Answer
      reads this, registry
      requires registry != null ==> registry.Valid()
      requires codeGenerator != null && codeGenerator.llm != null ==> "openai" in codeGenerator.llm.modelMap
    {
      if MatchFor(a).Some? then ExecuteEndpoint(MatchFor(a).value, a, s.run, s.render)
      else if codeGenerator == null then Text(DeploymentError + NoAttribute("generate_code"))
      else DeployAnswer(CodeFor(codeGenerator, a, s.replies), deployer, a, s)
    }

    /** `find_matching_endpoint`: collects the supporting endpoints in
        registry order, then takes the one with the most metrics. */
    method FindMatchingEndpoint(a: QueryAnalysis) returns (r: Option<Endpoint>)
      requires Valid()
      ensures r == MatchFor(a)
      ensures registry == null ==> r.None?
    {
      if registry == null {
        return None;
      }
      var endpoints := registry.List();
      var matching: seq<Endpoint> := [];
      var i := 0;
      while i < |endpoints|
        invariant 0 <= i <= |endpoints|
        invariant matching == Candidates(endpoints[..i], a)
      {
        var e := endpoints[i];
        CandidatesStep(endpoints, i, a);
        if Supports(e, a) {
          matching := matching + [e];
        }
        i := i + 1;
      }
      assert endpoints[..i] == endpoints;
      if matching != [] {
        r := Some(matching[BestIndex(matching)]);
      } else {
        r := None;
      }
    }

    /** `generate_and_deploy`.  The code generator leaves the client on the
        provider `ProviderAfter` gives; code that fails the gate is never
        deployed; code that passes is written to a new endpoint directory,
        run, and never registered. */
    method GenerateAndDeploy(a: QueryAnalysis, s: Services) returns (answer: Answer)
      requires Valid() && IsName(s.freshId)
      modifies Clients(), deployer
      ensures Valid()
      ensures registry != null ==> unchanged(registry)
      ensures codeGenerator == null ==> answer == Text(DeploymentError + NoAttribute("generate_code"))
      ensures codeGenerator != null ==> answer == DeployAnswer(CodeFor(codeGenerator, a, s.replies), deployer, a, s)
      ensures codeGenerator != null && codeGenerator.llm != null ==>
        codeGenerator.llm.provider == ProviderAfter(old(codeGenerator.llm.provider), codeGenerator.llm.modelMap)
      ensures deployer != null && codeGenerator == null ==> unchanged(deployer)
      ensures deployer != null && codeGenerator != null ==>
        DeployedCode(old(deployer.dirs), old(deployer.files), CodeFor(codeGenerator, a, s.replies), a, s)
      ensures deployer != null && codeGenerator != null &&
              !Validation(CodeFor(codeGenerator, a, s.replies), s.compile(CodeFor(codeGenerator, a, s.replies))).isValid ==>
        unchanged(deployer)
    {
      if codeGenerator == null {
        return Text(DeploymentError + NoAttribute("generate_code"));
      }
      var code := codeGenerator.GenerateCodeAsWritten(a, s.replies);
      answer := DeployGenerated(code, a, s);
    }

    /** The rest of `generate_and_deploy` once the code exists: validate,
        deploy, run. */
    method DeployGenerated(code: string, a: QueryAnalysis, s: Services) returns (answer: Answer)
      requires IsName(s.freshId)
      modifies deployer
      ensures answer == DeployAnswer(code, deployer, a, s)
      ensures deployer != null && !Validation(code, s.compile(code)).isValid ==> unchanged(deployer)
      ensures deployer != null ==> DeployedCode(old(deployer.dirs), old(deployer.files), code, a, s)
    {
      var validation := ValidateCode(code, s.compile);
      if !validation.isValid {
        return Text(GenerationError + Join(validation.errors, ", "));
      }
      if deployer == null {
        return Text(DeploymentError + NoAttribute("deploy"));
      }
      var deployed := deployer.Deploy(code, MetadataFor(a), s.freshId, s.now, s.loader);
      match deployed
      case Raised(msg) =>
        answer := Text(DeploymentError + msg);
      case Ok(endpoint) =>
        answer := ExecuteEndpoint(endpoint, a, s.run, s.render);
    }

    /** The deployer after `generate_and_deploy` has handled `code` for
        `a`, given the directories and files it held before: code that
        passes the gate is written to a new endpoint directory with its
        metadata; refused code leaves both as they were. */
    ghost predicate DeployedCode(dirs0: set<string>, files0: map<string, Content>, code: string, a: QueryAnalysis, s: Services)
      reads this, deployer
      requires deployer != null
    {
      if Validation(code, s.compile(code)).isValid then
        deployer.dirs == dirs0 + {deployer.EndpointDir(s.freshId)} &&
        deployer.files == files0
          [PathJoin(deployer.EndpointDir(s.freshId), "analytics.py") := Code(code)]
          [PathJoin(deployer.EndpointDir(s.freshId), "metadata.json") := MetadataJson(MetadataFor(a))]
      else
        deployer.dirs == dirs0 && deployer.files == files0
    }

    /** `process_query`: analyse, then run the matching endpoint if there is
        one and generate a new one otherwise.  The analysis is returned too,
        because its project keys come in an arbitrary order. */
    method ProcessQuery(query: string, s: Services) returns (a: QueryAnalysis, answer: Answer)
      requires Valid() && IsName(s.freshId)
      modifies Clients(), deployer
      ensures Valid()
      ensures a.query == query && a.metrics == Names(ExtractMetrics(query))
      ensures forall x :: x in a.projectKeys <==> IsProjectKey(query, x)
      ensures a.timePeriod == Some(ExtractTimePeriod(query)) && a.filters == ExtractFilters(query)
      ensures registry != null ==> unchanged(registry)
      ensures answer == AnswerFor(a, s)
      ensures MatchFor(a).Some? && deployer != null ==> unchanged(deployer)
      ensures MatchFor(a).None? && codeGenerator != null && deployer != null ==>
        DeployedCode(old(deployer.dirs), old(deployer.files), CodeFor(codeGenerator, a, s.replies), a, s)
      ensures codeGenerator != null && codeGenerator.llm != null ==>
        codeGenerator.llm.provider ==
          if MatchFor(a).Some? then old(codeGenerator.llm.provider)
          else ProviderAfter(old(codeGenerator.llm.provider), codeGenerator.llm.modelMap)
    {
      a := AnalyzeQuery(query);
      var endpoint := FindMatchingEndpoint(a);
      if endpoint.Some? {
        answer := ExecuteEndpoint(endpoint.value, a, s.run, s.render);
      } else {
        answer := GenerateAndDeploy(a, s);
      }
    }
  }
}

=== FILE: deployment.dfy ===
/** The deployer (deployment_manager.py): writes generated code and its
    metadata into a directory per endpoint, imports it, and keeps the
    registry in step on update and undeploy.  The file system is a set of
    directory paths and a map from file paths to contents. */
module Deployment {
  import opened Common
  import opened Text
  import opened Registry

  /** The `metadata` dictionary; None is a missing key. */
  datatype Metadata = Metadata(
    name: Option<string>,
    projectKeys: Option<seq<string>>,
    metrics: Option<seq<string>>,
    timePeriod: Option<string>,
    filters: Option<map<string, string>>,
    description: Option<string>)

  /** What a file holds: source code, or metadata written as JSON. */
  datatype Content = Code(text: string) | MetadataJson(meta: Metadata)

  // ---------------------------------------------------------------------
  // Paths (POSIX `os.path`)

  /** `base` as the prefix of the paths inside it. */
  function DirPrefix(base: string): string {
    if base == [] || EndsWith(base, "/") then base else base + "/"
  }

  /** `os.path.join(a, b)`: an absolute `b` replaces `a`. */
  function PathJoin(a: string, b: string): string {
    if StartsWith(b, "/") then b else DirPrefix(a) + b
  }

  /** Index just past the last '/' of `p`, 0 when there is none. */
  function AfterLastSlash(p: string): (k: nat)
    ensures k <= |p|
    ensures k > 0 ==> p[k - 1] == '/'
    ensures '/' !in p[k..]
  {
    if p == [] then 0
    else if p[|p| - 1] == '/' then |p|
    else
      var k := AfterLastSlash(p[..|p| - 1]);
      assert p[k..] == p[..|p| - 1][k..] + [p[|p| - 1]];
      k
  }

  /** `p` without its trailing '/' characters. */
  function TrimSlashes(p: string): (r: string)
    ensures |r| <= |p| && r == p[..|r|]
    ensures r == [] || r[|r| - 1] != '/'
  {
    if p != [] && p[|p| - 1] == '/' then TrimSlashes(p[..|p| - 1]) else p
  }

  /** `os.path.dirname(p)`. */
  function DirName(p: string): string {
    var head := p[..AfterLastSlash(p)];
    if head != [] && TrimSlashes(head) != [] then TrimSlashes(head) else head
  }

  /** A single path component, as `uuid4()` produces and `listdir` lists. */
  predicate IsName(n: string) {
    n != [] && '/' !in n
  }

  /** The name of `d` when `d` is directly inside `base`. */
  function ChildName(base: string, d: string): Option<string> {
    var pre := DirPrefix(base);
    if StartsWith(d, pre) && IsName(d[|pre|..]) then Some(d[|pre|..]) else None
  }

  lemma ChildNameOfJoin(base: string, n: string)
    requires IsName(n)
    ensures ChildName(base, PathJoin(base, n)) == Some(n)
  {
    assert n[0] != '/' by { assert n[0] in n; }
    assert !StartsWith(n, "/");
    var pre := DirPrefix(base);
    assert (pre + n)[..|pre|] == pre;
    assert (pre + n)[|pre|..] == n;
  }

  lemma JoinOfChildName(base: string, d: string)
    requires ChildName(base, d).Some?
    ensures d == PathJoin(base, ChildName(base, d).value)
  {
    var pre := DirPrefix(base);
    var n := d[|pre|..];
    assert n[0] != '/' by { assert n[0] in n; }
    assert d == pre + n;
  }

  lemma {:induction false} AfterLastSlashAppend(a: string, b: string)
    requires a != [] && a[|a| - 1] == '/' && '/' !in b
    ensures AfterLastSlash(a + b) == |a|
  {
    if b == [] {
      assert a + b == a;
    } else {
      var init := b[..|b| - 1];
      assert b[|b| - 1] in b;
      assert '/' !in init by {
        forall i | 0 <= i < |init| ensures init[i] != '/' {
          assert init[i] == b[i];
          assert b[i] in b;
        }
      }
      AfterLastSlashAppend(a, init);
      assert (a + b)[..|a + b| - 1] == a + init;
    }
  }

  /** The directory of an endpoint's file is the endpoint's directory, so
      `update` writes the metadata where `deploy` did. */
  lemma DirNameOfSource(base: string, id: string)
    requires IsName(id)
    ensures DirName(PathJoin(PathJoin(base, id), "analytics.py")) == PathJoin(base, id)
  {
    var dir := PathJoin(base, id);
    EndpointDirShape(base, id);
    assert PathJoin(dir, "analytics.py") == dir + "/" + "analytics.py";
    DirNameOfChild(dir, "analytics.py");
  }

  /** An endpoint directory is the base's prefix followed by the id: not
      empty, and not ending in '/'. */
  lemma EndpointDirShape(base: string, id: string)
    requires IsName(id)
    ensures PathJoin(base, id) == DirPrefix(base) + id
    ensures PathJoin(base, id) != [] && PathJoin(base, id)[|PathJoin(base, id)| - 1] != '/'
    ensures !EndsWith(PathJoin(base, id), "/")
  {
    assert id[0] != '/' by { assert id[0] in id; }
    var dir := DirPrefix(base) + id;
    assert dir[|dir| - 1] == id[|id| - 1];
    assert id[|id| - 1] in id;
  }

  /** The directory of `dir/name` is `dir`, for a directory not ending in
      '/' and a name without one. */
  lemma DirNameOfChild(dir: string, name: string)
    requires dir != [] && dir[|dir| - 1] != '/' && '/' !in name
    ensures DirName(dir + "/" + name) == dir
  {
    var p := dir + "/" + name;
    AfterLastSlashAppend(dir + "/", name);
    assert p[..|dir| + 1] == dir + "/";
    assert TrimSlashes(dir + "/") == TrimSlashes(dir) by {
      assert (dir + "/")[..|dir + "/"| - 1] == dir;
    }
  }

  // ---------------------------------------------------------------------

  /** The capabilities `deploy` and `update` derive from the metadata, with
      their defaults for missing keys. */
  function CapabilitiesFrom(meta: Metadata): (c: Capabilities)
    ensures meta.projectKeys.Some? ==> c.projectKeys == meta.projectKeys.value
    ensures meta.projectKeys.None? ==> c.projectKeys == []
    ensures meta.metrics.Some? ==> c.metrics == meta.metrics.value
    ensures meta.metrics.None? ==> c.metrics == []
    ensures c.timePeriod == meta.timePeriod
    ensures meta.filters.None? ==> c.filters == map[]
    ensures meta.description.None? ==> c.description == ""
  {
    Capabilities(
      meta.projectKeys.GetOr([]),
      meta.metrics.GetOr([]),
      meta.timePeriod,
      meta.filters.GetOr(map[]),
      meta.description.GetOr(""))
  }

  /** The name `deploy` gives an endpoint. */
  function DeployedName(meta: Metadata): string {
    meta.name.GetOr("Unnamed endpoint")
  }

  /** The endpoint `deploy` builds once the import succeeded. */
  function Deployed(base: string, id: string, meta: Metadata, now: Timestamp, m: LoadedModule): Endpoint {
    Endpoint(id, DeployedName(meta), PathJoin(PathJoin(base, id), "analytics.py"), CapabilitiesFrom(meta), now, Some(m))
  }

  /** The endpoint `update` stores: same id, path and creation time, the new
      capabilities and module, and the old name unless the metadata has one. */
  function Updated(e: Endpoint, meta: Metadata, m: LoadedModule): Endpoint {
    e.(name := meta.name.GetOr(e.name), capabilities := CapabilitiesFrom(meta), loaded := Some(m))
  }

  /** The capabilities do not depend on which of the two operations derived
      them, and missing keys take the documented defaults. */
  lemma DeployAndUpdateAgree(base: string, id: string, e: Endpoint, meta: Metadata, now: Timestamp, m: LoadedModule)
    requires e.id == id
    ensures Deployed(base, id, meta, now, m).capabilities == Updated(e, meta, m).capabilities
    ensures meta == Metadata(None, None, None, None, None, None) ==>
      Deployed(base, id, meta, now, m).capabilities == Capabilities([], [], None, map[], "") &&
      Deployed(base, id, meta, now, m).name == "Unnamed endpoint" &&
      Updated(e, meta, m).name == e.name
    ensures Updated(e, meta, m).id == e.id && Updated(e, meta, m).path == e.path
  {
  }

  /** Directories after `rmtree(d)`. */
  function DirsWithout(dirs: set<string>, d: string): set<string> {
    set x | x in dirs && x != d && !StartsWith(x, d + "/")
  }

  /** Files after `rmtree(d)`. */
  function FilesWithout(files: map<string, Content>, d: string): map<string, Content> {
    map x | x in files && !StartsWith(x, d + "/") :: files[x]
  }

  /** An empty id joins to the base with a trailing slash, which names the
      base directory itself: `undeploy("")` removes every endpoint. */
  lemma EmptyIdNamesBase(base: string)
    requires base != [] && base[|base| - 1] != '/'
    ensures PathJoin(base, "") == base + "/"
    ensures TrimSlashes(PathJoin(base, "")) == base
  {
    assert !StartsWith("", "/");
    assert (base + "/")[..|base + "/"| - 1] == base;
  }

  /** Why `open(p, "w")` raises over these directories and files, if it
      does: an empty path or a missing directory to hold `p` (Errno 2), a
      plain file where that directory should be (Errno 20), or `p` itself a
      directory (Errno 21). */
  function OpenError(dirs: set<string>, files: map<string, Content>, p: string): (r: Option<string>)
    ensures r.None? <==>
      p != "" && (DirName(p) == "" || (DirName(p) in dirs && DirName(p) !in files)) && p !in dirs
    ensures p == "" ==> r == Some("[Errno 2] No such file or directory: ''")
    ensures p != "" && DirName(p) != "" && DirName(p) in files ==> r == Some("[Errno 20] Not a directory: '" + p + "'")
  {
    if p == "" then Some("[Errno 2] No such file or directory: ''")
    else if DirName(p) != "" && DirName(p) !in dirs && DirName(p) !in files then
      Some("[Errno 2] No such file or directory: '" + p + "'")
    else if DirName(p) != "" && DirName(p) in files then Some("[Errno 20] Not a directory: '" + p + "'")
    else if p in dirs then Some("[Errno 21] Is a directory: '" + p + "'")
    else None
  }

  /** `DeploymentManager`. */
  class DeploymentManager {
    const basePath: string
    const registry: AnalyticsRegistry?
    var dirs: set<string>
    var files: map<string, Content>

    ghost predicate Valid() reads this, registry {
      registry != null ==> registry.Valid()
    }

    /** The directory of the endpoint `id`. */
    function EndpointDir(id: string): string {
      PathJoin(basePath, id)
    }

    /** `__init__`: creates the base directory. */
    constructor (basePath: string, registry: AnalyticsRegistry?, dirs: set<string>, files: map<string, Content>)
      requires registry != null ==> registry.Valid()
      ensures Valid()
      ensures this.basePath == basePath && this.registry == registry
      ensures this.dirs == dirs + {basePath} && this.files == files
    {
      this.basePath := basePath;
      this.registry := registry;
      this.dirs := dirs + {basePath};
      this.files := files;
    }

    /** `deploy`: `freshId` is the `uuid4()` value, `loader` the import,
        `now` the clock.  Both files are written before the import, an import
        that raises propagates, and the registry is never touched. */
    method Deploy(code: string, meta: Metadata, freshId: string, now: Timestamp, loader: Loader)
      returns (r: Outcome<Endpoint>)
      requires IsName(freshId)
      modifies this`dirs, this`files
      ensures registry != null ==> unchanged(registry)
      ensures dirs == old(dirs) + {EndpointDir(freshId)}
      ensures files == old(files)
        [PathJoin(EndpointDir(freshId), "analytics.py") := Code(code)]
        [PathJoin(EndpointDir(freshId), "metadata.json") := MetadataJson(meta)]
      ensures loader(freshId, PathJoin(EndpointDir(freshId), "analytics.py")).Raised? ==>
        r == Raised(loader(freshId, PathJoin(EndpointDir(freshId), "analytics.py")).message)
      ensures loader(freshId, PathJoin(EndpointDir(freshId), "analytics.py")).Ok? ==>
        r == Ok(Deployed(basePath, freshId, meta, now, loader(freshId, PathJoin(EndpointDir(freshId), "analytics.py")).value))
    {
      var dir := PathJoin(basePath, freshId);
      dirs := dirs + {dir};
      var filePath := PathJoin(dir, "analytics.py");
      files := files[filePath := Code(code)];
      files := files[PathJoin(dir, "metadata.json") := MetadataJson(meta)];
      match loader(freshId, filePath)
      case Raised(message) =>
        r := Raised(message);
      case Ok(m) =>
        r := Ok(Endpoint(freshId, meta.name.GetOr("Unnamed endpoint"), filePath, CapabilitiesFrom(meta), now, Some(m)));
    }

    /** `undeploy`: with a registry, an unknown id changes nothing and
        answers False; otherwise the endpoint is unregistered, and the
        answer is whether its directory existed (and was removed).  Trailing
        slashes name the directory itself, so an empty id removes the whole
        base directory.  A plain file in the directory's place passes the
        existence test, and `rmtree` then raises. */
    method Undeploy(id: string) returns (r: Outcome<bool>)
      requires Valid()
      modifies this`dirs, this`files, registry
      ensures Valid()
      ensures registry != null && id !in old(registry.endpoints) ==>
        r == Ok(false) && unchanged(this) && unchanged(registry)
      ensures registry != null && id in old(registry.endpoints) ==>
        registry.Contents() == Remove(old(registry.Contents()), id) &&
        registry.db == Saved(registry.Contents(), old(registry.db))
      ensures registry == null || id in old(registry.endpoints) ==>
        var dir := TrimSlashes(EndpointDir(id));
        if dir in old(dirs) then
          r == Ok(true) && dirs == DirsWithout(old(dirs), dir) && files == FilesWithout(old(files), dir)
        else
          dirs == old(dirs) && files == old(files) &&
          r == (if dir == EndpointDir(id) && dir in old(files) then Raised("[Errno 20] Not a directory: '" + dir + "'")
                else Ok(false))
    {
      if registry != null {
        var endpoint := registry.Get(id);
        if endpoint.None? {
          return Ok(false);
        }
        var _ := registry.Unregister(id);
      }
      var path := PathJoin(basePath, id);
      var dir := TrimSlashes(path);
      if dir in dirs {
        dirs := DirsWithout(dirs, dir);
        files := FilesWithout(files, dir);
        r := Ok(true);
      } else if dir == path && dir in files {
        r := Raised("[Errno 20] Not a directory: '" + dir + "'");
      } else {
        r := Ok(false);
      }
    }

    /** `update`: None without a registry or for an unknown id; otherwise the
        code and then the metadata are written next to the endpoint's file
        (opening a file whose directory is gone raises), the module is
        imported again (a failure propagates) and the updated endpoint is
        registered under the same id.  The updated endpoint holds its module,
        so the registry's `save` writes nothing. */
    method Update(id: string, code: string, meta: Metadata, loader: Loader)
      returns (r: Outcome<Option<Endpoint>>)
      requires Valid()
      modifies this`files, registry
      ensures Valid()
      ensures registry == null || id !in old(registry.endpoints) ==>
        r == Ok(None) && unchanged(this) && (registry != null ==> unchanged(registry))
      ensures registry != null && id in old(registry.endpoints) ==>
        var e := old(registry.endpoints[id]);
        var metaPath := PathJoin(DirName(e.path), "metadata.json");
        var written := old(files)[e.path := Code(code)];
        if OpenError(dirs, old(files), e.path).Some? then
          r == Raised(OpenError(dirs, old(files), e.path).value) && files == old(files) && unchanged(registry)
        else if OpenError(dirs, written, metaPath).Some? then
          r == Raised(OpenError(dirs, written, metaPath).value) && files == written && unchanged(registry)
        else
          files == written[metaPath := MetadataJson(meta)] &&
          match loader(id, e.path)
          case Raised(message) =>
            r == Raised(message) && unchanged(registry)
          case Ok(m) =>
            r == Ok(Some(Updated(e, meta, m))) &&
            registry.Contents() == Put(old(registry.Contents()), Updated(e, meta, m)) &&
            registry.db == old(registry.db)
    {
      if registry == null {
        return Ok(None);
      }
      var found := registry.Get(id);
      if found.None? {
        return Ok(None);
      }
      var e := found.value;
      var failure := OpenError(dirs, files, e.path);
      if failure.Some? {
        return Raised(failure.value);
      }
      files := files[e.path := Code(code)];
      var metaPath := PathJoin(DirName(e.path), "metadata.json");
      failure := OpenError(dirs, files, metaPath);
      if failure.Some? {
        return Raised(failure.value);
      }
      files := files[metaPath := MetadataJson(meta)];
      match loader(id, e.path)
      case Raised(message) =>
        r := Raised(message);
      case Ok(m) =>
        var updated := e.(name := meta.name.GetOr(e.name), capabilities := CapabilitiesFrom(meta), loaded := Some(m));
        registry.Register(updated);
        r := Ok(Some(updated));
    }

    /** Whether `name` is listed by `list_endpoints`: a directory directly in
        the base directory holding an entry named analytics.py. */
    predicate IsEndpointDir(name: string) reads this {
      IsName(name) && PathJoin(basePath, name) in dirs &&
      (PathJoin(PathJoin(basePath, name), "analytics.py") in files ||
       PathJoin(PathJoin(basePath, name), "analytics.py") in dirs)
    }

    /** `list_endpoints`, in the (unspecified) order `listdir` gives; listing
        a base directory that no longer exists raises. */
    method ListEndpoints() returns (r: Outcome<seq<string>>)
      ensures basePath !in dirs ==> r.Raised?
      ensures basePath in dirs ==> r.Ok?
      ensures basePath in dirs ==> forall i, j :: 0 <= i < j < |r.value| ==> r.value[i] != r.value[j]
      ensures basePath in dirs ==> forall n :: n in r.value <==> IsEndpointDir(n)
    {
      if basePath !in dirs {
        return Raised("[Errno 2] No such file or directory: '" + basePath + "'");
      }
      var items := set d | d in dirs && ChildName(basePath, d).Some? :: ChildName(basePath, d).value;
      forall n | IsEndpointDir(n) ensures n in items {
        ChildNameOfJoin(basePath, n);
      }
      var names: seq<string> := [];
      ghost var seen: set<string> := {};
      while items != {}
        invariant forall n :: n in items ==> IsName(n)
        invariant forall i, j :: 0 <= i < j < |names| ==> names[i] != names[j]
        invariant forall n :: n in names ==> n in seen
        invariant seen !! items
        invariant forall n :: n in names <==> n in seen && IsEndpointDir(n)
        invariant forall n :: IsEndpointDir(n) ==> n in seen || n in items
        decreases |items|
      {
        var item :| item in items;
        if PathJoin(basePath, item) in dirs {
          var inner := PathJoin(PathJoin(basePath, item), "analytics.py");
          if inner in files || inner in dirs {
            names := names + [item];
          }
        }
        items := items - {item};
        seen := seen + {item};
      }
      return Ok(names);
    }
  }
}

=== FILE: llm.dfy ===
/** Provider configuration of the language-model client (llm_manager.py):
    the model string, the fallback list, switching providers, and the
    fallback-to-OpenAI paths that restore the provider afterwards. */
module Llm {
  import opened Common
  import opened Text

  /** The environment variables the client reads; None is an unset one. */
  datatype Env = Env(
    llmProvider: Option<string>,
    openaiModel: Option<string>,
    anthropicModel: Option<string>,
    llmFallbacks: Option<string>)

  /** `get_model_string`: the bare model for "openai", otherwise
      provider/model, with an empty model for an unmapped provider. */
  function ModelString(provider: string, modelMap: map<string, string>): string {
    var model := if provider in modelMap then modelMap[provider] else "";
    if provider == "openai" then model else provider + "/" + model
  }

  /** OpenAI's model is named bare; every other provider's is qualified by
      the provider's name, and a provider the map does not know gets an
      empty model name.  (Stated as a lemma rather than on `ModelString`,
      which every `Valid()` mentions.) */
  lemma ModelStringCases(provider: string, modelMap: map<string, string>)
    ensures provider == "openai" ==>
      ModelString(provider, modelMap) == (if "openai" in modelMap then modelMap["openai"] else "")
    ensures provider != "openai" ==> StartsWith(ModelString(provider, modelMap), provider + "/")
    ensures provider != "openai" && provider !in modelMap ==> ModelString(provider, modelMap) == provider + "/"
  {
    if provider != "openai" {
      var model := if provider in modelMap then modelMap[provider] else "";
      assert (provider + "/" + model)[..|provider + "/"|] == provider + "/";
    }
  }

  /** A qualified model string splits back into its provider and model. */
  lemma ModelStringRoundTrip(provider: string, modelMap: map<string, string>)
    requires provider != "openai" && '/' !in provider
    ensures '/' in ModelString(provider, modelMap)
    ensures SplitFirst(ModelString(provider, modelMap), '/') ==
      (provider, if provider in modelMap then modelMap[provider] else "")
  {
    var model := if provider in modelMap then modelMap[provider] else "";
    var s := ModelString(provider, modelMap);
    assert s == provider + "/" + model;
    assert s[|provider|] == '/';
    SplitFirstUnique(s, '/', provider, model);
  }

  /** The split at the first separator is determined by any decomposition
      whose first part is free of the separator. */
  lemma {:induction false} SplitFirstUnique(s: string, c: char, before: string, after: string)
    requires s == before + [c] + after && c !in before
    ensures c in s && SplitFirst(s, c) == (before, after)
  {
    assert s[|before|] == c;
    if before == [] {
      assert s[1..] == after;
    } else {
      assert s[0] == before[0] && before[0] != c by { assert before[0] in before; }
      assert s[1..] == before[1..] + [c] + after;
      assert c !in before[1..] by {
        forall i | 0 <= i < |before[1..]| ensures before[1..][i] != c {
          assert before[1..][i] == before[i + 1];
          assert before[i + 1] in before;
        }
      }
      SplitFirstUnique(s[1..], c, before[1..], after);
      assert [s[0]] + before[1..] == before;
    }
  }

  /** One entry of `configure_fallbacks`, from a stripped piece. */
  function FallbackEntry(fb: string, provider: string): string {
    if '/' !in fb then
      (if provider == "openai" then fb else provider + "/" + fb)
    else
      var (p, m) := SplitFirst(fb, '/');
      if Lower(p) == "openai" then m else fb
  }

  /** A fallback given without a provider is qualified exactly as the
      primary model of the current provider would be; "openai/x" (in any
      case) is reduced to x and every other "p/x" is kept as written. */
  lemma FallbackEntryCases(fb: string, provider: string)
    ensures '/' !in fb ==> FallbackEntry(fb, provider) == ModelString(provider, map[provider := fb])
    ensures forall p, m :: fb == p + "/" + m && '/' !in p ==>
      FallbackEntry(fb, provider) == (if Lower(p) == "openai" then m else fb)
  {
    forall p, m | fb == p + "/" + m && '/' !in p
      ensures FallbackEntry(fb, provider) == (if Lower(p) == "openai" then m else fb)
    {
      SplitFirstUnique(fb, '/', p, m);
    }
  }

  /** The entries for a list of pieces: one per piece, in order. */
  function Entries(pieces: seq<string>, provider: string): (r: seq<string>)
    ensures |r| == |pieces|
    ensures forall k :: 0 <= k < |pieces| ==> r[k] == FallbackEntry(Strip(pieces[k]), provider)
  {
    if pieces == [] then []
    else Entries(pieces[..|pieces| - 1], provider) + [FallbackEntry(Strip(pieces[|pieces| - 1]), provider)]
  }

  /** `configure_fallbacks`: no entries for an empty setting, otherwise one
      entry per comma-separated piece, in order. */
  method ConfigureFallbacks(setting: string, provider: string) returns (fallbacks: seq<string>)
    ensures setting == "" ==> fallbacks == []
    ensures setting != "" ==> fallbacks == Entries(Split(setting, ','), provider)
  {
    if setting == "" {
      return [];
    }
    var pieces := Split(setting, ',');
    fallbacks := [];
    var i := 0;
    while i < |pieces|
      invariant 0 <= i <= |pieces|
      invariant fallbacks == Entries(pieces[..i], provider)
    {
      var fb := Strip(pieces[i]);
      assert pieces[..i + 1][..i] == pieces[..i];
      fallbacks := fallbacks + [FallbackEntry(fb, provider)];
      i := i + 1;
    }
    assert pieces[..i] == pieces;
  }

  /** The answers of the services for one request.  `completion(model,
      fallbacks)` is LiteLLM's reply text or the exception it raises;
      `anthropic` is the direct Anthropic call; `apiKeySet` says whether
      ANTHROPIC_API_KEY is set. */
  datatype Replies = Replies(
    apiKeySet: bool,
    anthropic: Outcome<string>,
    completion: (string, seq<string>) -> Outcome<string>)

  const KeyMissing: string := "ANTHROPIC_API_KEY environment variable is not set"
  const ErrorPrefix: string := "I encountered an error: "

  /** `process_message` while the provider is "openai": the completion's text,
      or the error text, and no further fallback. */
  function OpenAiAnswer(o: Replies, openaiModel: string, fallbacks: seq<string>): string {
    match o.completion(openaiModel, fallbacks)
    case Ok(text) => text
    case Raised(e) => ErrorPrefix + e
  }

  /** What `process_message_with_anthropic_direct` returns or raises. */
  function DirectAnswer(o: Replies, openaiModel: string, fallbacks: seq<string>): Outcome<string> {
    if !o.apiKeySet then Raised(KeyMissing)
    else match o.anthropic
      case Ok(text) => Ok(text)
      case Raised(_) => Ok(OpenAiAnswer(o, openaiModel, fallbacks))
  }

  /** What `process_message` returns or raises for the given provider. */
  function MessageAnswer(provider: string, model: string, openaiModel: string, fallbacks: seq<string>, o: Replies): Outcome<string> {
    if provider == "anthropic" then DirectAnswer(o, openaiModel, fallbacks)
    else match o.completion(model, fallbacks)
      case Ok(text) => Ok(text)
      case Raised(e) =>
        if fallbacks == [] && provider != "openai" then Ok(OpenAiAnswer(o, openaiModel, fallbacks))
        else Ok(ErrorPrefix + e)
  }

  /** Only one exception ever leaves `process_message`: the missing Anthropic
      key; every service failure becomes text. */
  lemma MessageRaisesOnlyForMissingKey(provider: string, model: string, openaiModel: string, fallbacks: seq<string>, o: Replies)
    ensures MessageAnswer(provider, model, openaiModel, fallbacks, o).Raised? <==>
      provider == "anthropic" && !o.apiKeySet
    ensures MessageAnswer(provider, model, openaiModel, fallbacks, o).Raised? ==>
      MessageAnswer(provider, model, openaiModel, fallbacks, o).message == KeyMissing
  {
  }

  /** `LLMManager`. */
  class LLMManager {
    var provider: string
    var model: string
    const modelMap: map<string, string>
    const fallbacks: seq<string>

    ghost predicate Valid() reads this {
      "openai" in modelMap && "anthropic" in modelMap &&
      model == ModelString(provider, modelMap)
    }

    /** `__init__`, restricted to the provider settings. */
    constructor (env: Env)
      ensures Valid()
      ensures provider == Lower(env.llmProvider.GetOr("openai"))
      ensures modelMap == map["openai" := env.openaiModel.GetOr("o3-mini"),
                              "anthropic" := env.anthropicModel.GetOr("claude-3-opus-20240229")]
      ensures env.llmFallbacks.GetOr("") == "" ==> fallbacks == []
      ensures env.llmFallbacks.GetOr("") != "" ==>
        fallbacks == Entries(Split(env.llmFallbacks.GetOr(""), ','), provider)
    {
      var p := Lower(env.llmProvider.GetOr("openai"));
      var mm := map["openai" := env.openaiModel.GetOr("o3-mini"),
                    "anthropic" := env.anthropicModel.GetOr("claude-3-opus-20240229")];
      var fbs := ConfigureFallbacks(env.llmFallbacks.GetOr(""), p);
      provider := p;
      modelMap := mm;
      model := ModelString(p, mm);
      fallbacks := fbs;
    }

    /** `switch_provider`. */
    method SwitchProvider(name: string) returns (ok: bool)
      requires Valid()
      modifies this`provider, this`model
      ensures Valid()
      ensures ok <==> Lower(name) in modelMap
      ensures ok ==> provider == Lower(name)
      ensures !ok ==> provider == old(provider) && model == old(model)
    {
      if Lower(name) !in modelMap {
        return false;
      }
      provider := Lower(name);
      model := ModelString(provider, modelMap);
      return true;
    }

    /** `process_message`: the reply, with provider and model as they were on
        entry, whether or not the fallback to OpenAI ran or succeeded. */
    method ProcessMessage(o: Replies) returns (r: Outcome<string>)
      requires Valid()
      modifies this`provider, this`model
      ensures Valid() && provider == old(provider) && model == old(model)
      ensures r == MessageAnswer(provider, model, modelMap["openai"], fallbacks, o)
      decreases if provider == "openai" then 0 else 3
    {
      if provider == "anthropic" {
        r := ProcessDirect(o);
        return;
      }
      match o.completion(model, fallbacks)
      case Ok(text) =>
        r := Ok(text);
      case Raised(e) =>
        if fallbacks == [] && provider != "openai" {
          var original := provider;
          provider := "openai";
          model := ModelString(provider, modelMap);
          var inner := ProcessMessage(o);
          provider := original;
          model := ModelString(provider, modelMap);
          if inner.Ok? {
            return inner;
          }
        }
        r := Ok(ErrorPrefix + e);
    }

    /** `process_message_with_anthropic_direct`: raises when the key is
        missing; on a failed call it falls back to OpenAI and restores the
        provider and model. */
    method ProcessDirect(o: Replies) returns (r: Outcome<string>)
      requires Valid()
      modifies this`provider, this`model
      ensures Valid() && provider == old(provider) && model == old(model)
      ensures r == DirectAnswer(o, modelMap["openai"], fallbacks)
      decreases if provider == "openai" then 1 else 2
    {
      if !o.apiKeySet {
        return Raised(KeyMissing);
      }
      match o.anthropic
      case Ok(text) =>
        r := Ok(text);
      case Raised(e) =>
        var original := provider;
        provider := "openai";
        model := ModelString(provider, modelMap);
        var inner := ProcessMessage(o);
        provider := original;
        model := ModelString(provider, modelMap);
        if inner.Ok? {
          return inner;
        }
        r := Ok(ErrorPrefix + e);
    }
  }
}

=== FILE: metrics.dfy ===
/** Sprint metrics (metrics_manager.py): the per-sprint sums over a sprint's
    issues, the choice and order of the sprints reported, and the average
    velocity over the closed ones.  Story points are `real`; the Jira REST
    calls are inputs. */
module Metrics {
  import opened Common
  import opened Text

  // ---------------------------------------------------------------------
  // One sprint

  /** The story-point field of an issue as Jira returns it: absent or null,
      a number, a boolean, a string, or a list or dictionary. */
  datatype RawPoints = Absent | Number(value: real) | Flag(b: bool) | Numeral(text: string) | Unconvertible

  /** What `calculate_metrics_for_sprint` reads of an issue: the story-point
      field and the key of the status category ("" when missing). */
  datatype Issue = Issue(points: RawPoints, statusCategoryKey: string)

  /** `float(fields.get(STORY_POINTS_FIELD) or 0)`, with 0 when the
      conversion raises.  `parse` is `float` on strings (None when it raises). */
  function StoryPoints(raw: RawPoints, parse: string -> Option<real>): (r: real)
    ensures raw.Number? ==> r == raw.value
    ensures raw.Numeral? && raw.text != "" && parse(raw.text).Some? ==> r == parse(raw.text).value
    ensures raw.Absent? || raw.Unconvertible? || raw == Flag(false) || raw == Numeral("") ==> r == 0.0
    ensures raw.Numeral? && parse(raw.text).None? ==> r == 0.0
    ensures raw == Flag(true) ==> r == 1.0
  {
    match raw
    case Absent => 0.0
    case Number(v) => v
    case Flag(b) => if b then 1.0 else 0.0
    case Numeral(t) => if t == "" then 0.0 else parse(t).GetOr(0.0)
    case Unconvertible => 0.0
  }

  /** The issue counts as completed. */
  predicate IsDone(i: Issue) {
    Lower(i.statusCategoryKey) == "done"
  }

  /** Sum of the story points of all issues. */
  function Committed(issues: seq<Issue>, parse: string -> Option<real>): real {
    if issues == [] then 0.0
    else Committed(issues[..|issues| - 1], parse) + StoryPoints(issues[|issues| - 1].points, parse)
  }

  /** Sum of the story points of the completed issues. */
  function Completed(issues: seq<Issue>, parse: string -> Option<real>): real {
    if issues == [] then 0.0
    else
      var last := issues[|issues| - 1];
      Completed(issues[..|issues| - 1], parse) + (if IsDone(last) then StoryPoints(last.points, parse) else 0.0)
  }

  /** Number of completed issues. */
  function DoneCount(issues: seq<Issue>): (n: nat)
    ensures n <= |issues|
  {
    if issues == [] then 0
    else DoneCount(issues[..|issues| - 1]) + (if IsDone(issues[|issues| - 1]) then 1 else 0)
  }

  /** The dictionary `calculate_metrics_for_sprint` returns. */
  datatype SprintMetrics = SprintMetrics(
    totalCommittedIssues: nat,
    committedPoints: real,
    completedIssues: nat,
    completedPoints: real,
    velocity: real,
    churn: real,
    churnRatePercentage: real)

  /** The churn as a percentage of the committed points; 0 when nothing
      positive was committed. */
  function ChurnRate(committed: real, completed: real): real {
    if committed > 0.0 then (committed - completed) / committed * 100.0 else 0.0
  }

  /** The metrics of a sprint with these issues. */
  function MetricsOf(issues: seq<Issue>, parse: string -> Option<real>): (m: SprintMetrics)
    ensures m.totalCommittedIssues == |issues| && m.completedIssues <= |issues|
    ensures m.velocity == m.completedPoints && m.churn == m.committedPoints - m.completedPoints
    ensures m.churnRatePercentage == ChurnRate(m.committedPoints, m.completedPoints)
  {
    var committed := Committed(issues, parse);
    var completed := Completed(issues, parse);
    SprintMetrics(|issues|, committed, DoneCount(issues), completed, completed,
                  committed - completed, ChurnRate(committed, completed))
  }

  /** `calculate_metrics_for_sprint`: one pass over the issues updating the
      counters and sums. */
  method CalculateMetricsForSprint(issues: seq<Issue>, parse: string -> Option<real>) returns (m: SprintMetrics)
    ensures m == MetricsOf(issues, parse)
    ensures m.completedIssues <= m.totalCommittedIssues == |issues|
    ensures m.velocity == m.completedPoints && m.churn == m.committedPoints - m.completedPoints
  {
    var totalCommittedIssues := 0;
    var committedPoints := 0.0;
    var completedPoints := 0.0;
    var completedIssues := 0;
    for k := 0 to |issues|
      invariant totalCommittedIssues == k
      invariant committedPoints == Committed(issues[..k], parse)
      invariant completedPoints == Completed(issues[..k], parse)
      invariant completedIssues == DoneCount(issues[..k])
    {
      assert issues[..k + 1][..k] == issues[..k];
      var issue := issues[k];
      totalCommittedIssues := totalCommittedIssues + 1;
      var storyPoints := StoryPoints(issue.points, parse);
      committedPoints := committedPoints + storyPoints;
      if Lower(issue.statusCategoryKey) == "done" {
        completedPoints := completedPoints + storyPoints;
        completedIssues := completedIssues + 1;
      }
    }
    assert issues[..|issues|] == issues;
    var velocity := completedPoints;
    var churn := committedPoints - completedPoints;
    var churnRate := if committedPoints > 0.0 then churn / committedPoints * 100.0 else 0.0;
    m := SprintMetrics(totalCommittedIssues, committedPoints, completedIssues, completedPoints,
                       velocity, churn, churnRate);
  }

  /** With no negative story points, the completed points lie between 0 and
      the committed points, and the churn rate between 0 and 100. */
  lemma {:induction false} CompletedWithinCommitted(issues: seq<Issue>, parse: string -> Option<real>)
    requires forall i :: 0 <= i < |issues| ==> StoryPoints(issues[i].points, parse) >= 0.0
    ensures 0.0 <= Completed(issues, parse) <= Committed(issues, parse)
    ensures 0.0 <= ChurnRate(Committed(issues, parse), Completed(issues, parse)) <= 100.0
  {
    if issues != [] {
      var init := issues[..|issues| - 1];
      assert forall i :: 0 <= i < |init| ==> init[i] == issues[i];
      CompletedWithinCommitted(init, parse);
    }
    RateBounds(Committed(issues, parse), Completed(issues, parse));
  }

  lemma RateBounds(committed: real, completed: real)
    requires 0.0 <= completed <= committed
    ensures 0.0 <= ChurnRate(committed, completed) <= 100.0
  {
    if committed > 0.0 {
      var q := (committed - completed) / committed;
      assert q * committed == committed - completed;
    }
  }

  /** The worked example of the test suite: 3 points done, 5 points in
      progress, and a done issue without points give 8 committed, 3 completed,
      churn 5 and a churn rate of 62.5. */
  lemma SprintExample(parse: string -> Option<real>)
    ensures var m := MetricsOf([Issue(Number(3.0), "done"), Issue(Number(5.0), "in_progress"), Issue(Absent, "done")], parse);
      m == SprintMetrics(3, 8.0, 2, 3.0, 3.0, 5.0, 62.5)
  {
    var issues := [Issue(Number(3.0), "done"), Issue(Number(5.0), "in_progress"), Issue(Absent, "done")];
    assert Lower("done") == "done";
    assert Lower("in_progress") != "done" by {
      assert |Lower("in_progress")| != |"done"|;
    }
    assert issues[..2][..1] == issues[..1] && issues[..1][..0] == [];
    assert Committed(issues[..1], parse) == 3.0;
    assert Completed(issues[..1], parse) == 3.0;
    assert Committed(issues[..2], parse) == 8.0;
    assert Completed(issues[..2], parse) == 3.0;
    assert DoneCount(issues[..2]) == 1;
  }

  // ---------------------------------------------------------------------
  // Choosing the sprints

  /** A sprint as the agile API lists it; dates are abstract timestamps in
      seconds, None when the field is missing or empty. */
  datatype Sprint = Sprint(
    id: int,
    name: Option<string>,
    state: Option<string>,
    startDate: Option<Timestamp>,
    endDate: Option<Timestamp>)

  /** The sort key: the end date, a missing one counting as `datetime.min`,
      earlier than every real date. */
  function EndKey(s: Sprint): nat {
    if s.endDate.Some? then s.endDate.value + 1 else 0
  }

  predicate SortedByEndDesc(s: seq<Sprint>) {
    forall i, j :: 0 <= i < j < |s| ==> EndKey(s[i]) >= EndKey(s[j])
  }

  /** Insert `x` after every element whose key is at least its own. */
  function InsertByEnd(sorted: seq<Sprint>, x: Sprint): (r: seq<Sprint>)
    ensures |r| == |sorted| + 1
  {
    if sorted == [] then [x]
    else if EndKey(sorted[0]) >= EndKey(x) then [sorted[0]] + InsertByEnd(sorted[1..], x)
    else [x] + sorted
  }

  /** Inserting into a sorted list keeps it sorted and adds exactly `x`. */
  lemma {:induction false} InsertByEndSorted(sorted: seq<Sprint>, x: Sprint)
    requires SortedByEndDesc(sorted)
    ensures SortedByEndDesc(InsertByEnd(sorted, x))
    ensures multiset(InsertByEnd(sorted, x)) == multiset(sorted) + multiset{x}
  {
    if sorted == [] {
    } else if EndKey(sorted[0]) >= EndKey(x) {
      var tail := sorted[1..];
      InsertByEndSorted(tail, x);
      assert forall i :: 0 <= i < |tail| ==> EndKey(tail[i]) <= EndKey(sorted[0]) by {
        forall i | 0 <= i < |tail| ensures EndKey(tail[i]) <= EndKey(sorted[0]) {
          assert tail[i] == sorted[i + 1];
        }
      }
      InsertByEndBounded(tail, x, EndKey(sorted[0]));
      ConsSorted(sorted[0], InsertByEnd(tail, x));
      assert sorted == [sorted[0]] + tail;
    } else {
      assert forall k :: 0 <= k < |sorted| ==> EndKey(x) >= EndKey(sorted[k]) by {
        forall k | 0 <= k < |sorted| ensures EndKey(x) >= EndKey(sorted[k]) {
          assert EndKey(sorted[0]) >= EndKey(sorted[k]);
        }
      }
      ConsSorted(x, sorted);
    }
  }

  /** Inserting into a list whose keys are all at most `k` an element whose
      key is at most `k` keeps every key at most `k`. */
  lemma {:induction false} InsertByEndBounded(s: seq<Sprint>, x: Sprint, k: nat)
    requires forall i :: 0 <= i < |s| ==> EndKey(s[i]) <= k
    requires EndKey(x) <= k
    ensures forall i :: 0 <= i < |InsertByEnd(s, x)| ==> EndKey(InsertByEnd(s, x)[i]) <= k
  {
    if s != [] && EndKey(s[0]) >= EndKey(x) {
      var rest := InsertByEnd(s[1..], x);
      InsertByEndBounded(s[1..], x, k);
      assert InsertByEnd(s, x) == [s[0]] + rest;
    }
  }

  /** A head at least as late as every element of a sorted list. */
  lemma ConsSorted(head: Sprint, s: seq<Sprint>)
    requires SortedByEndDesc(s)
    requires forall k :: 0 <= k < |s| ==> EndKey(head) >= EndKey(s[k])
    ensures SortedByEndDesc([head] + s)
  {
    var r := [head] + s;
    forall i, j | 0 <= i < j < |r| ensures EndKey(r[i]) >= EndKey(r[j]) {
      assert r[j] == s[j - 1];
      if i > 0 {
        assert r[i] == s[i - 1];
      }
    }
  }

  /** `sorted(closed, key=end date, reverse=True)`: a stable insertion sort,
      each sprint going after those with an end date at least as late. */
  function SortByEndDesc(s: seq<Sprint>): (r: seq<Sprint>)
    ensures SortedByEndDesc(r)
    ensures multiset(r) == multiset(s)
  {
    if s == [] then []
    else
      var r := InsertByEnd(SortByEndDesc(s[..|s| - 1]), s[|s| - 1]);
      InsertByEndSorted(SortByEndDesc(s[..|s| - 1]), s[|s| - 1]);
      assert s == s[..|s| - 1] + [s[|s| - 1]];
      assert |r| == |multiset(r)| == |multiset(s)| == |s|;
      r
  }

  /** The result of an HTTP helper: the data, or the error message and the
      status code that was not 200. */
  datatype Fetch<T> = Fetched(value: T) | HttpFailure(message: string, status: int)

  /** The active sprint: the first of a successful, non-empty listing. */
  function ActiveSprint(active: Fetch<seq<Sprint>>): Option<Sprint> {
    if active.Fetched? && active.value != [] then Some(active.value[0]) else None
  }

  /** Python's `s[:n]`. */
  function Prefix<T>(s: seq<T>, n: int): (r: seq<T>)
    ensures |r| == if n >= 0 then (if n <= |s| then n else |s|) else (if |s| + n >= 0 then |s| + n else 0)
    ensures r == s[..|r|]
  {
    if n >= 0 then (if n <= |s| then s[..n] else s)
    else if |s| + n >= 0 then s[..|s| + n] else []
  }

  /** The sprints `get_metrics` reports on: the active one first, then the
      closed ones, latest end date first, cut to `n`. */
  function SelectedSprints(active: Option<Sprint>, closed: seq<Sprint>, n: int): seq<Sprint> {
    Prefix((if active.Some? then [active.value] else []) + SortByEndDesc(closed), n)
  }

  /** For a non-negative `n`, min(n, available) sprints are reported; the
      active sprint, if any, comes first; the closed ones follow in order
      of descending end date and each comes from the closed listing. */
  lemma SelectionProperties(active: Option<Sprint>, closed: seq<Sprint>, n: int)
    requires n >= 0
    ensures var total := |closed| + (if active.Some? then 1 else 0);
      |SelectedSprints(active, closed, n)| == if n <= total then n else total
    ensures active.Some? && n > 0 ==> SelectedSprints(active, closed, n)[0] == active.value
    ensures var start := if active.Some? then 1 else 0;
      var r := SelectedSprints(active, closed, n);
      forall i, j :: start <= i < j < |r| ==> EndKey(r[i]) >= EndKey(r[j])
    ensures var start := if active.Some? then 1 else 0;
      var r := SelectedSprints(active, closed, n);
      forall i :: start <= i < |r| ==> r[i] in closed
  {
    var sorted := SortByEndDesc(closed);
    var combined := (if active.Some? then [active.value] else []) + sorted;
    var start := if active.Some? then 1 else 0;
    var r := SelectedSprints(active, closed, n);
    assert r == combined[..|r|];
    forall i | start <= i < |r| ensures r[i] == sorted[i - start] && r[i] in closed {
      assert r[i] == combined[i];
      assert sorted[i - start] in multiset(sorted);
    }
  }

  // ---------------------------------------------------------------------
  // get_metrics

  const Day: nat := 86400

  /** The board found for the project. */
  datatype Board = Board(id: int, name: Option<string>)

  /** The Jira REST results `get_metrics` works from: the boards of a project,
      the active and the closed sprints of a board, the issues of a sprint,
      and `float` on strings. */
  datatype Jira = Jira(
    boards: string -> Fetch<seq<Board>>,
    activeSprints: int -> Fetch<seq<Sprint>>,
    closedSprints: int -> Fetch<seq<Sprint>>,
    issues: (int, int) -> Fetch<seq<Issue>>,
    parse: string -> Option<real>)

  /** `get_board_for_project`: the first board, or a 404 when the project
      has none. */
  function BoardFor(projectKey: string, jira: Jira): (r: Fetch<Board>)
    ensures r.Fetched? <==> jira.boards(projectKey).Fetched? && jira.boards(projectKey).value != []
    ensures r.Fetched? ==> r.value == jira.boards(projectKey).value[0]
    ensures jira.boards(projectKey) == Fetched([]) ==>
      r == HttpFailure("No board found for project " + projectKey, 404)
  {
    match jira.boards(projectKey)
    case HttpFailure(msg, status) => HttpFailure(msg, status)
    case Fetched(boards) =>
      if boards == [] then HttpFailure("No board found for project " + projectKey, 404)
      else Fetched(boards[0])
  }

  /** One element of the "sprints" list: the sprint and its metrics, or the
      error fetching its issues. */
  datatype SprintEntry =
    | SprintInfo(sprintId: int, sprintName: Option<string>, state: Option<string>,
                 startDate: Option<Timestamp>, endDate: Option<Timestamp>,
                 baselineDate: Option<Timestamp>, metrics: SprintMetrics)
    | SprintError(sprintId: int, sprintName: Option<string>, error: string)

  /** The baseline: one day after the start. */
  function Baseline(s: Sprint): Option<Timestamp> {
    if s.startDate.Some? then Some(s.startDate.value + Day) else None
  }

  /** The entry `get_metrics` appends for one sprint. */
  function EntryFor(s: Sprint, boardId: int, jira: Jira): (r: SprintEntry)
    ensures r.sprintId == s.id && r.sprintName == s.name
    ensures r.SprintInfo? <==> jira.issues(s.id, boardId).Fetched?
    ensures r.SprintInfo? ==> r.state == s.state && r.metrics == MetricsOf(jira.issues(s.id, boardId).value, jira.parse)
    ensures r.SprintInfo? ==> (r.baselineDate.Some? <==> s.startDate.Some?)
    ensures r.SprintInfo? && s.startDate.Some? ==> r.baselineDate.value == s.startDate.value + Day
  {
    match jira.issues(s.id, boardId)
    case HttpFailure(msg, _) => SprintError(s.id, s.name, msg)
    case Fetched(issues) =>
      SprintInfo(s.id, s.name, s.state, s.startDate, s.endDate, Baseline(s), MetricsOf(issues, jira.parse))
  }

  /** The velocities of the closed sprints, in order; error entries have no
      state and are skipped. */
  function ClosedVelocities(entries: seq<SprintEntry>): seq<real> {
    if entries == [] then []
    else
      var e := entries[|entries| - 1];
      ClosedVelocities(entries[..|entries| - 1]) +
        (if e.SprintInfo? && e.state == Some("closed") then [e.metrics.velocity] else [])
  }

  function Sum(xs: seq<real>): real {
    if xs == [] then 0.0 else Sum(xs[..|xs| - 1]) + xs[|xs| - 1]
  }

  /** `sum(xs) / len(xs) if xs else 0`. */
  function Mean(xs: seq<real>): real {
    if xs == [] then 0.0 else Sum(xs) / |xs| as real
  }

  lemma {:induction false} SumBounds(xs: seq<real>, lo: real, hi: real)
    requires forall i :: 0 <= i < |xs| ==> lo <= xs[i] <= hi
    ensures |xs| as real * lo <= Sum(xs) <= |xs| as real * hi
  {
    if xs != [] {
      var init := xs[..|xs| - 1];
      assert forall i :: 0 <= i < |init| ==> init[i] == xs[i];
      SumBounds(init, lo, hi);
      var n := |init| as real;
      assert |xs| as real == n + 1.0;
      assert Sum(xs) == Sum(init) + xs[|xs| - 1];
      assert (n + 1.0) * lo == n * lo + lo && (n + 1.0) * hi == n * hi + hi;
    }
  }

  /** The average velocity lies between the least and the greatest closed
      velocity, and is 0 when no sprint is closed. */
  lemma MeanBounds(xs: seq<real>, lo: real, hi: real)
    requires forall i :: 0 <= i < |xs| ==> lo <= xs[i] <= hi
    ensures xs == [] ==> Mean(xs) == 0.0
    ensures xs != [] ==> lo <= Mean(xs) <= hi
  {
    if xs != [] {
      SumBounds(xs, lo, hi);
      var n := |xs| as real;
      assert Sum(xs) / n >= lo by {
        assert Sum(xs) >= n * lo;
      }
      assert Sum(xs) / n <= hi by {
        assert Sum(xs) <= n * hi;
      }
    }
  }

  /** Only closed sprints with metrics contribute to the average velocity. */
  lemma {:induction false} ClosedVelocitiesFrom(entries: seq<SprintEntry>)
    ensures forall v :: v in ClosedVelocities(entries) ==>
      exists e :: e in entries && e.SprintInfo? && e.state == Some("closed") && e.metrics.velocity == v
    ensures (forall e :: e in entries ==> !(e.SprintInfo? && e.state == Some("closed"))) ==>
      ClosedVelocities(entries) == []
  {
    if entries != [] {
      var init := entries[..|entries| - 1];
      ClosedVelocitiesFrom(init);
      assert forall e :: e in init ==> e in entries;
      assert entries[|entries| - 1] in entries;
    }
  }

  /** What `get_metrics` returns: the error body and status, or the report. */
  datatype MetricsOutcome =
    | ErrorResponse(error: string, status: int)
    | Report(project: string, board: Board, sprintsAnalyzed: nat, sprints: seq<SprintEntry>, averageVelocity: real)

  /** The entries for the chosen sprints, one each, in order. */
  function EntriesFor(selected: seq<Sprint>, boardId: int, jira: Jira): (r: seq<SprintEntry>)
    ensures |r| == |selected|
  {
    seq(|selected|, i requires 0 <= i < |selected| => EntryFor(selected[i], boardId, jira))
  }

  /** The result of `get_metrics(project_key, num_sprints)`. */
  function MetricsFor(projectKey: string, numSprints: int, jira: Jira): (r: MetricsOutcome)
    ensures r.Report? ==> r.project == projectKey && r.sprintsAnalyzed == |r.sprints|
    ensures r.Report? ==> r.averageVelocity == Mean(ClosedVelocities(r.sprints))
    ensures r.ErrorResponse? <==>
      (BoardFor(projectKey, jira).HttpFailure? || jira.closedSprints(BoardFor(projectKey, jira).value.id).HttpFailure?)
  {
    match BoardFor(projectKey, jira)
    case HttpFailure(msg, status) => ErrorResponse(msg, status)
    case Fetched(b) =>
      match jira.closedSprints(b.id)
      case HttpFailure(msg, status) => ErrorResponse(msg, status)
      case Fetched(closed) =>
        var entries := EntriesFor(SelectedSprints(ActiveSprint(jira.activeSprints(b.id)), closed, numSprints), b.id, jira);
        Report(projectKey, b, |entries|, entries, Mean(ClosedVelocities(entries)))
  }

  /** The two error responses come from the board lookup and the closed
      sprint listing, whose message and status are passed on; a failed
      active-sprint listing only means no active sprint.  A report holds one
      entry per chosen sprint, at most `num_sprints` of them, and an average
      velocity within the range of the closed sprints' velocities. */
  lemma MetricsForCases(projectKey: string, numSprints: int, jira: Jira)
    ensures var b := BoardFor(projectKey, jira);
      b.HttpFailure? ==> MetricsFor(projectKey, numSprints, jira) == ErrorResponse(b.message, b.status)
    ensures var b := BoardFor(projectKey, jira);
      b.Fetched? && jira.closedSprints(b.value.id).HttpFailure? ==>
      MetricsFor(projectKey, numSprints, jira) ==
        ErrorResponse(jira.closedSprints(b.value.id).message, jira.closedSprints(b.value.id).status)
    ensures var b := BoardFor(projectKey, jira);
      b.Fetched? && jira.closedSprints(b.value.id).Fetched? ==>
      var selected := SelectedSprints(ActiveSprint(jira.activeSprints(b.value.id)), jira.closedSprints(b.value.id).value, numSprints);
      var r := MetricsFor(projectKey, numSprints, jira);
      r.Report? && r.project == projectKey && r.board == b.value &&
      |r.sprints| == |selected| == r.sprintsAnalyzed &&
      (numSprints >= 0 ==> r.sprintsAnalyzed <= numSprints) &&
      (forall i :: 0 <= i < |selected| ==> r.sprints[i] == EntryFor(selected[i], b.value.id, jira)) &&
      (ClosedVelocities(r.sprints) == [] ==> r.averageVelocity == 0.0)
  {
    var b := BoardFor(projectKey, jira);
    if b.Fetched? && jira.closedSprints(b.value.id).Fetched? {
      if numSprints >= 0 {
        SelectionProperties(ActiveSprint(jira.activeSprints(b.value.id)), jira.closedSprints(b.value.id).value, numSprints);
      }
    }
  }

  /** `get_metrics(project_key, num_sprints)`. */
  method GetMetrics(projectKey: string, numSprints: int, jira: Jira) returns (r: MetricsOutcome)
    ensures r == MetricsFor(projectKey, numSprints, jira)
  {
    var board := BoardFor(projectKey, jira);
    if board.HttpFailure? {
      return ErrorResponse(board.message, board.status);
    }
    var boardId := board.value.id;
    var activeSprint := ActiveSprint(jira.activeSprints(boardId));
    var closed := jira.closedSprints(boardId);
    if closed.HttpFailure? {
      return ErrorResponse(closed.message, closed.status);
    }
    var combined: seq<Sprint> := [];
    if activeSprint.Some? {
      combined := combined + [activeSprint.value];
    }
    combined := combined + SortByEndDesc(closed.value);
    assert combined == (if activeSprint.Some? then [activeSprint.value] else []) + SortByEndDesc(closed.value);
    var selected := Prefix(combined, numSprints);
    assert selected == SelectedSprints(activeSprint, closed.value, numSprints);

    var results := SprintEntries(selected, boardId, jira);
    var average := AverageVelocity(results);
    r := Report(projectKey, board.value, |results|, results, average);
  }

  /** The loop of `get_metrics` over the chosen sprints: one entry each, in
      order. */
  method SprintEntries(selected: seq<Sprint>, boardId: int, jira: Jira) returns (results: seq<SprintEntry>)
    ensures results == EntriesFor(selected, boardId, jira)
  {
    results := [];
    for k := 0 to |selected|
      invariant |results| == k
      invariant forall i :: 0 <= i < k ==> results[i] == EntryFor(selected[i], boardId, jira)
    {
      var sprint := selected[k];
      var fetched := jira.issues(sprint.id, boardId);
      if fetched.HttpFailure? {
        results := results + [SprintError(sprint.id, sprint.name, fetched.message)];
      } else {
        var metrics := CalculateMetricsForSprint(fetched.value, jira.parse);
        var baseline := if sprint.startDate.Some? then Some(sprint.startDate.value + Day) else None;
        results := results + [SprintInfo(sprint.id, sprint.name, sprint.state, sprint.startDate, sprint.endDate, baseline, metrics)];
      }
    }
  }

  /** The average velocity of `get_metrics`: the mean over the closed
      sprints with metrics, 0 when there are none. */
  method AverageVelocity(results: seq<SprintEntry>) returns (average: real)
    ensures average == Mean(ClosedVelocities(results))
  {
    var velocities: seq<real> := [];
    for k := 0 to |results|
      invariant velocities == ClosedVelocities(results[..k])
    {
      assert results[..k + 1][..k] == results[..k];
      var entry := results[k];
      if entry.SprintInfo? && entry.state == Some("closed") {
        velocities := velocities + [entry.metrics.velocity];
      }
    }
    assert results[..|results|] == results;
    average := if velocities != [] then Sum(velocities) / |velocities| as real else 0.0;
  }
}

=== FILE: patterns.dfy ===
/** The regular expressions of the query-analysis code, each written out as
    "does the pattern match at index i, and with which groups".  Python's
    `re` engine backtracks, but for these patterns every quantifier is
    followed by something its own characters cannot match, so the greedy
    choice below is the only one that can succeed. */
module Patterns {
  import opened Common
  import opened Text

  /** The patterns the source uses. */
  datatype Pattern =
    | KeyAfter(keyword: string)   // keyword\s+([A-Z]+)                         (case-sensitive)
    | LastSprints                 // last\s+(\d+)\s+sprint                      (IGNORECASE)
    | LastPeriod                  // last\s+(\d+)\s+(day|week|month|year)s?     (IGNORECASE)
    | FieldIs(field: string)      // field\s+(is|=)\s+(["']?)(\w+)(["']?)       (IGNORECASE)

  /** A successful match: `groups[n - 1]` is Python's `group(n)`, `end` is the
      index just past the matched text. */
  datatype Match = Match(groups: seq<string>, end: nat)

  /** Number of capture groups of a pattern. */
  function Arity(p: Pattern): nat {
    match p
    case KeyAfter(_) => 1
    case LastSprints => 1
    case LastPeriod => 2
    case FieldIs(_) => 4
  }

  /** Length of the longest run of characters satisfying `p` from index `i`
      (what a greedy `p+` or `p*` consumes). */
  function RunLength(s: string, i: nat, p: char -> bool): (n: nat)
    requires i <= |s|
    ensures i + n <= |s|
    ensures forall j :: i <= j < i + n ==> p(s[j])
    ensures i + n == |s| || !p(s[i + n])
    decreases |s| - i
  {
    if i < |s| && p(s[i]) then 1 + RunLength(s, i + 1, p) else 0
  }

  /** `word` (written in lower case) occurs at `i`, ignoring ASCII case. */
  predicate OccursAtIgnoreCase(s: string, word: string, i: nat) {
    i + |word| <= |s| && Lower(s[i..i + |word|]) == word
  }

  /** `keyword\s+([A-Z]+)` at `i`. */
  function KeyAfterAt(s: string, keyword: string, i: nat): (r: Option<Match>)
    ensures r.Some? ==> |r.value.groups| == 1 && r.value.end <= |s|
    ensures r.Some? ==> r.value.groups[0] != [] && AllUpper(r.value.groups[0])
    ensures r.Some? ==> OccursAt(s, keyword, i)
  {
    if !OccursAt(s, keyword, i) then None
    else
      var a := i + |keyword|;
      var ws := RunLength(s, a, IsSpace);
      var b := a + ws;
      var n := RunLength(s, b, IsUpper);
      if ws == 0 || n == 0 then None else Some(Match([s[b..b + n]], b + n))
  }

  /** The common prefix `last\s+(\d+)\s+` of the two time patterns: the digits
      and the index where the unit word must start. */
  function LastNumberAt(s: string, i: nat): (r: Option<(string, nat)>)
    ensures r.Some? ==> r.value.0 != [] && AllDigits(r.value.0) && r.value.1 <= |s|
  {
    if !OccursAtIgnoreCase(s, "last", i) then None
    else
      var a := i + 4;
      var w1 := RunLength(s, a, IsSpace);
      var b := a + w1;
      var d := RunLength(s, b, IsDigit);
      var c := b + d;
      var w2 := RunLength(s, c, IsSpace);
      if w1 == 0 || d == 0 || w2 == 0 then None else Some((s[b..c], c + w2))
  }

  /** `last\s+(\d+)\s+sprint` at `i`, ignoring case. */
  function LastSprintsAt(s: string, i: nat): (r: Option<Match>)
    ensures r.Some? ==> |r.value.groups| == 1 && r.value.end <= |s|
    ensures r.Some? ==> r.value.groups[0] != [] && AllDigits(r.value.groups[0])
  {
    match LastNumberAt(s, i)
    case None => None
    case Some((digits, u)) =>
      if OccursAtIgnoreCase(s, "sprint", u) then Some(Match([digits], u + 6)) else None
  }

  /** The unit words of `(day|week|month|year)`, in the order they are tried. */
  const Units: seq<string> := ["day", "week", "month", "year"]

  /** `last\s+(\d+)\s+(day|week|month|year)s?` at `i`, ignoring case. */
  function LastPeriodAt(s: string, i: nat): (r: Option<Match>)
    ensures r.Some? ==> |r.value.groups| == 2 && r.value.end <= |s|
    ensures r.Some? ==> r.value.groups[0] != [] && AllDigits(r.value.groups[0])
    ensures r.Some? ==> Lower(r.value.groups[1]) in Units
  {
    match LastNumberAt(s, i)
    case None => None
    case Some((digits, u)) =>
      var k := UnitAt(s, u, 0);
      if k < 0 then None
      else
        var e := u + |Units[k]|;
        var e' := if e < |s| && LowerChar(s[e]) == 's' then e + 1 else e;
        assert Lower(s[u..e]) == Units[k];
        var m := Match([digits, s[u..e]], e');
        assert m.groups[1] == s[u..e] && m.groups[0] == digits;
        Some(m)
  }

  /** Index in `Units` of the first unit word occurring at `u` (ignoring case),
      trying them from index `k` on; -1 if none does. */
  function UnitAt(s: string, u: nat, k: nat): (r: int)
    requires k <= |Units|
    ensures -1 <= r < |Units|
    ensures r >= 0 ==> OccursAtIgnoreCase(s, Units[r], u)
    decreases |Units| - k
  {
    if k == |Units| then -1
    else if OccursAtIgnoreCase(s, Units[k], u) then k
    else UnitAt(s, u, k + 1)
  }

  /** An optional quote `["']?`: 1 if there is one at `i`, else 0. */
  function QuoteAt(s: string, i: nat): nat {
    if i < |s| && (s[i] == '"' || s[i] == '\'') then 1 else 0
  }

  /** `field\s+(is|=)\s+(["']?)(\w+)(["']?)` at `i`, ignoring case. */
  function FieldIsAt(s: string, field: string, i: nat): (r: Option<Match>)
    ensures r.Some? ==> |r.value.groups| == 4 && r.value.end <= |s|
    ensures r.Some? ==> r.value.groups[2] != [] && AllWordChars(r.value.groups[2])
    ensures r.Some? ==> OccursAtIgnoreCase(s, field, i)
    ensures r.Some? ==> i + |field| < |s| && IsSpace(s[i + |field|])
  {
    if !OccursAtIgnoreCase(s, field, i) then None
    else
      var a := i + |field|;
      var w1 := RunLength(s, a, IsSpace);
      var b := a + w1;
      var op := if OccursAtIgnoreCase(s, "is", b) then 2 else if OccursAt(s, "=", b) then 1 else 0;
      var c := b + op;
      var w2 := RunLength(s, c, IsSpace);
      var d := c + w2;
      var q := QuoteAt(s, d);
      var e := d + q;
      var n := RunLength(s, e, IsWordChar);
      var q' := QuoteAt(s, e + n);
      if w1 == 0 || op == 0 || w2 == 0 || n == 0 then None
      else Some(Match([s[b..c], s[d..e], s[e..e + n], s[e + n..e + n + q']], e + n + q'))
  }

  /** Python's `re.match(p, s[i:])` for the patterns above. */
  function MatchAt(p: Pattern, s: string, i: nat): (r: Option<Match>)
    ensures r.Some? ==> |r.value.groups| == Arity(p) && i < r.value.end <= |s|
  {
    match p
    case KeyAfter(kw) =>
      var r := KeyAfterAt(s, kw, i);
      if r.Some? then assert i + |kw| + 1 <= r.value.end; r else r
    case LastSprints => LastSprintsAt(s, i)
    case LastPeriod => LastPeriodAt(s, i)
    case FieldIs(f) => FieldIsAt(s, f, i)
  }

  /** Python's `re.search`: the index of the leftmost match at or after `i`. */
  function Search(p: Pattern, s: string, i: nat): (r: Option<nat>)
    ensures r.Some? ==> i <= r.value < |s| && MatchAt(p, s, r.value).Some?
    ensures r.Some? ==> forall j :: i <= j < r.value ==> MatchAt(p, s, j).None?
    ensures r.None? ==> forall j :: i <= j ==> MatchAt(p, s, j).None?
    decreases |s| - i
  {
    if i >= |s| then None
    else if MatchAt(p, s, i).Some? then Some(i)
    else Search(p, s, i + 1)
  }

  /** `group(n + 1)` of `re.search(p, s)`, or None when nothing matches. */
  function SearchGroup(p: Pattern, s: string, n: nat): (r: Option<string>)
    requires n < Arity(p)
    ensures r.Some? <==> exists i :: MatchAt(p, s, i).Some?
  {
    match Search(p, s, 0)
    case None => None
    case Some(k) => Some(MatchAt(p, s, k).value.groups[n])
  }
}

=== FILE: query.dfy ===
/** Query analysis: turning the text of a request into a `QueryAnalysis`
    (agent_coordinator.py, `QueryAnalysis` and `analyze_query` with its
    `_extract_*` helpers). */
module Query {
  import opened Common
  import opened Text
  import opened Patterns

  /** The structured form of a request.  `projectKeys` holds no duplicates;
      its order is Python's set iteration order, which the model leaves
      unspecified. */
  datatype QueryAnalysis = QueryAnalysis(
    query: string,
    projectKeys: seq<string>,
    metrics: seq<string>,
    timePeriod: Option<string>,
    filters: map<string, string>)

  predicate NoDuplicates(s: seq<string>) {
    forall i, j :: 0 <= i < j < |s| ==> s[i] != s[j]
  }

  // ---------------------------------------------------------------------
  // Project keys: re.findall(r'for\s+([A-Z]+)') and re.findall(r'in\s+([A-Z]+)')

  /** The key captured by `keyword\s+([A-Z]+)` matched at index `i`. */
  function KeyAt(s: string, keyword: string, i: nat): Option<string> {
    match KeyAfterAt(s, keyword, i)
    case None => None
    case Some(m) => Some(m.groups[0])
  }

  /** `key` is a maximal run of capitals after "for" or "in" and whitespace. */
  ghost predicate IsProjectKey(s: string, key: string) {
    exists i: nat :: KeyAt(s, "for", i) == Some(key) || KeyAt(s, "in", i) == Some(key)
  }

  /** The keywords the key patterns start with: a lower-case letter that does
      not occur again in the keyword, so no match can start inside another. */
  predicate IsKeyword(kw: string) {
    |kw| >= 1 && 'a' <= kw[0] <= 'z' && forall k :: 1 <= k < |kw| ==> kw[k] != kw[0]
  }

  /** After a match of `kw\s+[A-Z]+` at `i`, no match starts before its end. */
  lemma NoMatchInside(s: string, kw: string, i: nat, j: nat)
    requires IsKeyword(kw)
    requires KeyAfterAt(s, kw, i).Some?
    requires i < j < KeyAfterAt(s, kw, i).value.end
    ensures KeyAfterAt(s, kw, j).None?
  {
    var a := i + |kw|;
    var ws := RunLength(s, a, IsSpace);
    var b := a + ws;
    assert s[i..i + |kw|] == kw;
    if j < a {
      assert s[j] == kw[j - i];
    } else if j < b {
      assert IsSpace(s[j]);
    } else {
      assert IsUpper(s[j]);
    }
    if j + |kw| <= |s| {
      assert s[j..j + |kw|][0] == s[j];
    }
  }

  /** Python's `re.findall(kw + r'\s+([A-Z]+)', s)`: the engine tries each
      index from the left and resumes at the end of every match. */
  method FindAll(s: string, kw: string) returns (found: seq<string>)
    requires IsKeyword(kw)
    ensures forall x :: x in found <==> exists i: nat :: KeyAt(s, kw, i) == Some(x)
  {
    found := [];
    var i := 0;
    while i < |s|
      invariant 0 <= i <= |s|
      invariant forall x :: x in found <==> exists j: nat :: j < i && KeyAt(s, kw, j) == Some(x)
    {
      var m := KeyAfterAt(s, kw, i);
      if m.Some? {
        var e := m.value.end;
        forall j: nat | i < j < e
          ensures KeyAt(s, kw, j).None?
        {
          NoMatchInside(s, kw, i, j);
        }
        assert KeyAt(s, kw, i) == Some(m.value.groups[0]);
        forall x ensures x in found + [m.value.groups[0]] <==> exists j: nat :: j < e && KeyAt(s, kw, j) == Some(x) {
          if exists j: nat :: j < e && KeyAt(s, kw, j) == Some(x) {
            var j: nat :| j < e && KeyAt(s, kw, j) == Some(x);
            assert j <= i;
          }
        }
        found := found + [m.value.groups[0]];
        i := e;
      } else {
        assert KeyAt(s, kw, i).None?;
        i := i + 1;
      }
    }
    forall x, j: nat | KeyAt(s, kw, j) == Some(x)
      ensures j < i
    {
      assert OccursAt(s, kw, j);
    }
  }

  /** `_extract_project_keys`: the two findall passes, then `list(set(...))`,
      whose order the model leaves open. */
  method ExtractProjectKeys(s: string) returns (keys: seq<string>)
    ensures NoDuplicates(keys)
    ensures forall x :: x in keys <==> IsProjectKey(s, x)
  {
    var forKeys := FindAll(s, "for");
    var inKeys := FindAll(s, "in");
    var all := forKeys + inKeys;
    var remaining := set x | x in all;
    keys := [];
    while remaining != {}
      invariant NoDuplicates(keys)
      invariant forall x :: x in keys || x in remaining <==> x in all
      invariant forall x :: x in keys ==> x !in remaining
      decreases |remaining|
    {
      var k :| k in remaining;
      keys := keys + [k];
      remaining := remaining - {k};
    }
  }

  // ---------------------------------------------------------------------
  // Metrics

  /** The metrics `_extract_metrics` can report. */
  datatype Metric = Velocity | CommittedPoints | CompletedPoints | StoryPoints | Churn

  /** The name the source uses for a metric. */
  function Name(m: Metric): string {
    match m
    case Velocity => "velocity"
    case CommittedPoints => "committed_points"
    case CompletedPoints => "completed_points"
    case StoryPoints => "story_points"
    case Churn => "churn"
  }

  /** Distinct metrics have distinct names. */
  lemma NameInjective(a: Metric, b: Metric)
    ensures Name(a) == Name(b) ==> a == b
  {
    if Name(a) == Name(b) {
      assert |Name(a)| == |Name(b)|;
      if a.CommittedPoints? || a.CompletedPoints? {
        assert Name(a)[3] == Name(b)[3];
      }
    }
  }

  function Names(ms: seq<Metric>): (r: seq<string>)
    ensures |r| == |ms| && forall i :: 0 <= i < |ms| ==> r[i] == Name(ms[i])
  {
    seq(|ms|, i requires 0 <= i < |ms| => Name(ms[i]))
  }

  /** Position of a metric in the order `_extract_metrics` appends them. */
  function Rank(m: Metric): nat {
    match m
    case Velocity => 0
    case CommittedPoints => 1
    case CompletedPoints => 2
    case StoryPoints => 3
    case Churn => 4
  }

  /** Strictly increasing rank: the append order, without duplicates. */
  predicate InMetricOrder(ms: seq<Metric>) {
    forall i, j :: 0 <= i < j < |ms| ==> Rank(ms[i]) < Rank(ms[j])
  }

  /** `_extract_metrics`: case-insensitive keyword tests. */
  function ExtractMetrics(q: string): (r: seq<Metric>)
    ensures InMetricOrder(r)
    ensures Velocity in r <==> Contains(Lower(q), "velocity")
    ensures CommittedPoints in r <==>
      Contains(Lower(q), "points") && Contains(Lower(q), "committed")
    ensures CompletedPoints in r <==>
      Contains(Lower(q), "points") && (Contains(Lower(q), "completed") || Contains(Lower(q), "finished"))
    ensures StoryPoints in r <==>
      Contains(Lower(q), "points") && !Contains(Lower(q), "committed") &&
      !Contains(Lower(q), "completed") && !Contains(Lower(q), "finished")
    ensures Churn in r <==> Contains(Lower(q), "churn")
  {
    var lq := Lower(q);
    var tests := Tests(Contains(lq, "velocity"), Contains(lq, "points"), Contains(lq, "committed"),
      Contains(lq, "completed") || Contains(lq, "finished"), Contains(lq, "churn"));
    AllMetricsInOrder();
    Selected(AllMetrics, tests)
  }

  /** The outcomes of the keyword tests of `_extract_metrics`. */
  datatype Tests = Tests(velocity: bool, points: bool, committed: bool, completed: bool, churn: bool)

  /** Whether the tests append metric `m`. */
  predicate Chosen(m: Metric, t: Tests) {
    match m
    case Velocity => t.velocity
    case CommittedPoints => t.points && t.committed
    case CompletedPoints => t.points && t.completed
    case StoryPoints => t.points && !t.committed && !t.completed
    case Churn => t.churn
  }

  /** Every metric, in the order the source appends them. */
  const AllMetrics: seq<Metric> := [Velocity, CommittedPoints, CompletedPoints, StoryPoints, Churn]

  lemma AllMetricsInOrder()
    ensures InMetricOrder(AllMetrics)
    ensures forall m :: m in AllMetrics
  {
    forall m ensures m in AllMetrics {
      match m
      case Velocity => assert AllMetrics[0] == m;
      case CommittedPoints => assert AllMetrics[1] == m;
      case CompletedPoints => assert AllMetrics[2] == m;
      case StoryPoints => assert AllMetrics[3] == m;
      case Churn => assert AllMetrics[4] == m;
    }
  }

  /** The chosen metrics of `ms`, in the order of `ms`. */
  function Selected(ms: seq<Metric>, t: Tests): (r: seq<Metric>)
    ensures forall m :: m in r <==> m in ms && Chosen(m, t)
    ensures InMetricOrder(ms) ==> InMetricOrder(r)
  {
    if ms == [] then []
    else
      var rest := Selected(ms[1..], t);
      assert InMetricOrder(ms) ==> InMetricOrder(ms[1..]) && forall m :: m in ms[1..] ==> Rank(ms[0]) < Rank(m);
      if Chosen(ms[0], t) then [ms[0]] + rest else rest
  }

  /** The metrics for which the default time period is five sprints. */
  predicate IsSprintMetric(m: Metric) {
    m != StoryPoints
  }

  // ---------------------------------------------------------------------
  // Time period

  /** A time-period token: one or more digits followed by a unit letter. */
  predicate IsTimeToken(t: string) {
    |t| >= 2 && t[|t| - 1] in "sdwmy" && AllDigits(t[..|t| - 1])
  }

  /** `_extract_time_period`; it never answers None. */
  function ExtractTimePeriod(q: string): (r: string)
    ensures IsTimeToken(r)
  {
    match SearchGroup(LastSprints, q, 0)
    case Some(n) =>
      assert (n + "s")[..|n|] == n;
      n + "s"
    case None =>
      match Search(LastPeriod, q, 0)
      case Some(k) =>
        var m := MatchAt(LastPeriod, q, k).value;
        var unit := m.groups[1];
        assert Lower(unit) in Units;
        assert Lower(unit)[0] == LowerChar(unit[0]);
        var t := m.groups[0] + [LowerChar(unit[0])];
        assert t[..|m.groups[0]|] == m.groups[0];
        t
      case None =>
        if exists i | 0 <= i < |ExtractMetrics(q)| :: IsSprintMetric(ExtractMetrics(q)[i])
        then "5s" else "30d"
  }

  /** The rules of `_extract_time_period` in order: a sprint count wins over a
      day/week/month/year count, which wins over the defaults; the default is
      five sprints exactly when a sprint metric was asked for, so story points
      alone get thirty days. */
  lemma TimePeriodRules(q: string)
    ensures SearchGroup(LastSprints, q, 0).Some? ==>
      ExtractTimePeriod(q) == SearchGroup(LastSprints, q, 0).value + "s"
    ensures SearchGroup(LastSprints, q, 0).None? && SearchGroup(LastPeriod, q, 0).Some? ==>
      SearchGroup(LastPeriod, q, 1).value != [] &&
      ExtractTimePeriod(q) == SearchGroup(LastPeriod, q, 0).value + [LowerChar(SearchGroup(LastPeriod, q, 1).value[0])]
    ensures SearchGroup(LastSprints, q, 0).None? && SearchGroup(LastPeriod, q, 0).None? ==>
      (ExtractTimePeriod(q) == "5s" <==> exists m :: m in ExtractMetrics(q) && m != StoryPoints)
    ensures SearchGroup(LastSprints, q, 0).None? && SearchGroup(LastPeriod, q, 0).None? ==>
      (ExtractTimePeriod(q) == "5s" || ExtractTimePeriod(q) == "30d")
    ensures (SearchGroup(LastSprints, q, 0).None? && SearchGroup(LastPeriod, q, 0).None? &&
      ExtractMetrics(q) == [StoryPoints]) ==> ExtractTimePeriod(q) == "30d"
  {
    var ms := ExtractMetrics(q);
    if SearchGroup(LastSprints, q, 0).None? && SearchGroup(LastPeriod, q, 0).None? {
      if exists m :: m in ms && m != StoryPoints {
        var m :| m in ms && m != StoryPoints;
        var i :| 0 <= i < |ms| && ms[i] == m;
        assert IsSprintMetric(ms[i]);
      }
    } else if SearchGroup(LastSprints, q, 0).None? {
      PeriodRule(q);
    }
  }

  /** "last N <unit>" gives N followed by the unit's initial in lower case. */
  lemma PeriodRule(q: string)
    requires SearchGroup(LastSprints, q, 0).None? && SearchGroup(LastPeriod, q, 0).Some?
    ensures SearchGroup(LastPeriod, q, 1).value != []
    ensures ExtractTimePeriod(q) == SearchGroup(LastPeriod, q, 0).value + [LowerChar(SearchGroup(LastPeriod, q, 1).value[0])]
  {
    var k := Search(LastPeriod, q, 0).value;
    var m := MatchAt(LastPeriod, q, k).value;
    assert SearchGroup(LastPeriod, q, 0) == Some(m.groups[0]);
    assert SearchGroup(LastPeriod, q, 1) == Some(m.groups[1]);
    assert Lower(m.groups[1]) in Units;
  }

  // ---------------------------------------------------------------------
  // Filters

  /** `_extract_filters`: only "status" and "issuetype", each taken from the
      first `\w+` value of its pattern. */
  function ExtractFilters(q: string): (r: map<string, string>)
    ensures r.Keys <= {"status", "issuetype"}
    ensures "status" in r <==> exists i :: MatchAt(FieldIs("status"), q, i).Some?
    ensures "issuetype" in r <==> exists i :: MatchAt(FieldIs("type"), q, i).Some?
    ensures "status" in r ==> r["status"] != [] && AllWordChars(r["status"])
    ensures "issuetype" in r ==> r["issuetype"] != [] && AllWordChars(r["issuetype"])
    ensures "status" in r ==> SearchGroup(FieldIs("status"), q, 2) == Some(r["status"])
    ensures "issuetype" in r ==> SearchGroup(FieldIs("type"), q, 2) == Some(r["issuetype"])
  {
    var status := SearchGroup(FieldIs("status"), q, 2);
    var kind := SearchGroup(FieldIs("type"), q, 2);
    FieldValue(q, "status");
    FieldValue(q, "type");
    FilterMap(status, kind)
  }

  /** The value a filter search captures is a nonempty run of `\w` characters. */
  lemma FieldValue(q: string, field: string)
    ensures SearchGroup(FieldIs(field), q, 2).Some? ==>
      SearchGroup(FieldIs(field), q, 2).value != [] && AllWordChars(SearchGroup(FieldIs(field), q, 2).value)
  {
    if SearchGroup(FieldIs(field), q, 2).Some? {
      var k := Search(FieldIs(field), q, 0).value;
      assert MatchAt(FieldIs(field), q, k) == FieldIsAt(q, field, k);
    }
  }

  /** The filter dictionary for the values the two searches captured. */
  function FilterMap(status: Option<string>, kind: Option<string>): (r: map<string, string>)
    ensures r.Keys <= {"status", "issuetype"}
    ensures "status" in r <==> status.Some?
    ensures "issuetype" in r <==> kind.Some?
    ensures status.Some? ==> r["status"] == status.value
    ensures kind.Some? ==> r["issuetype"] == kind.value
  {
    var withStatus: map<string, string> := if status.Some? then map["status" := status.value] else map[];
    if kind.Some? then withStatus["issuetype" := kind.value] else withStatus
  }

  // ---------------------------------------------------------------------

  /** `analyze_query`. */
  method AnalyzeQuery(q: string) returns (a: QueryAnalysis)
    ensures a.query == q
    ensures NoDuplicates(a.projectKeys) && forall x :: x in a.projectKeys <==> IsProjectKey(q, x)
    ensures a.metrics == Names(ExtractMetrics(q))
    ensures a.timePeriod == Some(ExtractTimePeriod(q))
    ensures a.filters == ExtractFilters(q)
  {
    var keys := ExtractProjectKeys(q);
    a := QueryAnalysis(q, keys, Names(ExtractMetrics(q)), Some(ExtractTimePeriod(q)), ExtractFilters(q));
  }

  // ---------------------------------------------------------------------
  // Worked examples

  /** There is no word boundary before the keyword: "within ABC" names ABC. */
  lemma WithinNamesKey()
    ensures IsProjectKey("within ABC", "ABC")
  {
    var q := "within ABC";
    assert OccursAt(q, "in", 4);
    assert RunLength(q, 7, IsSpace) == 0;
    assert RunLength(q, 6, IsSpace) == 1;
    assert RunLength(q, 10, IsUpper) == 0;
    assert RunLength(q, 9, IsUpper) == 1;
    assert RunLength(q, 8, IsUpper) == 2;
    assert RunLength(q, 7, IsUpper) == 3;
    assert q[7..10] == "ABC";
    assert KeyAt(q, "in", 4) == Some("ABC");
  }

  /** The operator needs whitespace on both sides: "status=Done" is no filter. */
  lemma StatusWithoutSpaces()
    ensures ExtractFilters("status=Done") == map[]
  {
    var q := "status=Done";
    forall i: nat
      ensures MatchAt(FieldIs("status"), q, i).None?
    {
      NoStatusAt(q, i);
    }
    forall i: nat
      ensures MatchAt(FieldIs("type"), q, i).None?
    {
      NoTypeAt(q, i);
    }
  }

  lemma NoStatusAt(q: string, i: nat)
    requires q == "status=Done"
    ensures !(OccursAtIgnoreCase(q, "status", i) && i + 6 < |q| && IsSpace(q[i + 6]))
  {
    if 1 <= i <= 5 {
      assert Lower(q[i..i + 6])[5] == LowerChar(q[i + 5]);
      assert LowerChar(q[i + 5]) != 's';
    } else if i == 0 {
      assert !IsSpace(q[6]);
    }
  }

  lemma NoTypeAt(q: string, i: nat)
    requires q == "status=Done"
    ensures !OccursAtIgnoreCase(q, "type", i)
  {
    if i + 4 <= |q| {
      assert Lower(q[i..i + 4])[1] == LowerChar(q[i + 1]);
      assert LowerChar(q[i + 1]) != 'y';
    }
  }
}

=== FILE: registry.dfy ===
/** The endpoint registry (analytics_registry.py): an insertion-ordered
    dictionary from endpoint id to endpoint, persisted as a list of records
    from which the loaded module is dropped. */
module Registry {
  import opened Common
  import opened Text

  /** The `capabilities` dictionary every endpoint carries. */
  datatype Capabilities = Capabilities(
    projectKeys: seq<string>,
    metrics: seq<string>,
    timePeriod: Option<string>,
    filters: map<string, string>,
    description: string)

  /** A module produced by importing an endpoint's file: the module name it
      was imported under and the file it was imported from.  What the code in
      it does is not part of the model. */
  datatype LoadedModule = LoadedModule(name: string, path: string)

  /** Importing `path` under the module name `name`: it yields a module or
      raises. */
  type Loader = (string, string) -> Outcome<LoadedModule>

  /** `AnalyticsEndpoint`. */
  datatype Endpoint = Endpoint(
    id: string,
    name: string,
    path: string,
    capabilities: Capabilities,
    createdAt: Timestamp,
    loaded: Option<LoadedModule>)

  /** What `to_dict` produces and what the registry file holds per endpoint. */
  datatype Record = Record(
    id: string,
    name: string,
    path: string,
    capabilities: Capabilities,
    createdAt: Option<string>)

  /** The registry file at `db_path`: absent, not parseable as JSON, or a list
      of records. */
  datatype Snapshot = Missing | Unreadable | Stored(records: seq<Record>)

  // ---------------------------------------------------------------------
  // Timestamps as text

  function DigitChar(d: nat): char
    requires d < 10
  {
    ('0' as int + d) as char
  }

  /** `datetime.isoformat()` for the abstract timestamps: their decimal
      notation. */
  function IsoFormat(t: Timestamp): (r: string)
    ensures r != [] && AllDigits(r)
  {
    if t < 10 then [DigitChar(t)] else IsoFormat(t / 10) + [DigitChar(t % 10)]
  }

  /** `datetime.fromisoformat`: None stands for the `ValueError` it raises. */
  function ParseIso(s: string): (r: Option<Timestamp>)
    ensures r.Some? <==> s != [] && AllDigits(s)
  {
    if s != [] && AllDigits(s) then Some(DigitsValue(s)) else None
  }

  lemma {:induction false} DigitsOfIso(t: Timestamp)
    ensures DigitsValue(IsoFormat(t)) == t
  {
    if t >= 10 {
      var s := IsoFormat(t);
      DigitsOfIso(t / 10);
      assert s[..|s| - 1] == IsoFormat(t / 10);
    }
  }

  /** Parsing what `isoformat` wrote gives back the same time. */
  lemma IsoRoundTrip(t: Timestamp)
    ensures ParseIso(IsoFormat(t)) == Some(t)
  {
    DigitsOfIso(t);
  }

  // ---------------------------------------------------------------------
  // Records

  /** The record of an endpoint with the module dropped, as the comment in
      `to_dict` says it should be. */
  function Serialized(e: Endpoint): Record {
    Record(e.id, e.name, e.path, e.capabilities, Some(IsoFormat(e.createdAt)))
  }

  /** `str()` of the TypeError that deep-copying a module raises. */
  const CannotPickle: string := "cannot pickle 'module' object"

  /** `AnalyticsEndpoint.to_dict` as written: `asdict` deep-copies every
      field before the module is popped, and deep-copying a module raises,
      so only an endpoint without a module can be turned into a record. */
  function ToDict(e: Endpoint): (r: Outcome<Record>)
    ensures r.Raised? <==> e.loaded.Some?
    ensures r.Raised? ==> r.message == CannotPickle
    ensures r.Ok? ==> r.value.id == e.id && r.value.name == e.name && r.value.path == e.path
    ensures r.Ok? ==> r.value.capabilities == e.capabilities && r.value.createdAt == Some(IsoFormat(e.createdAt))
  {
    if e.loaded.Some? then Raised(CannotPickle) else Ok(Serialized(e))
  }

  /** One iteration of `load`'s loop: the record becomes an endpoint; a
      missing or unparseable `created_at` becomes `now`; the module is
      imported only when the file exists, and an import that raises leaves
      the module unset. */
  function Restore(rec: Record, files: set<string>, loader: Loader, now: Timestamp): Endpoint {
    var created := match rec.createdAt
      case None => now
      case Some(text) => ParseIso(text).GetOr(now);
    var loaded := if rec.path in files then
        (match loader(rec.id, rec.path)
         case Ok(m) => Some(m)
         case Raised(_) => None)
      else None;
    Endpoint(rec.id, rec.name, rec.path, rec.capabilities, created, loaded)
  }

  /** `to_dict` then `load`: an endpoint without a module comes back with
      every field, and a module only when its file exists and imports; an
      endpoint holding a module has no record at all. */
  lemma RecordRoundTrip(e: Endpoint, files: set<string>, loader: Loader, now: Timestamp)
    ensures ToDict(e).Ok? <==> e.loaded.None?
    ensures ToDict(e).Ok? ==> Restore(ToDict(e).value, files, loader, now).(loaded := None) == e
    ensures ToDict(e).Ok? && Restore(ToDict(e).value, files, loader, now).loaded.Some? ==>
      e.path in files && loader(e.id, e.path).Ok?
  {
    SerializedRoundTrip(e, files, loader, now);
  }

  /** The record with the module dropped, then `load`, keeps every field
      except the module. */
  lemma SerializedRoundTrip(e: Endpoint, files: set<string>, loader: Loader, now: Timestamp)
    ensures Restore(Serialized(e), files, loader, now).(loaded := None) == e.(loaded := None)
    ensures Restore(Serialized(e), files, loader, now).loaded.Some? ==>
      e.path in files && loader(e.id, e.path).Ok?
  {
    IsoRoundTrip(e.createdAt);
  }

  // ---------------------------------------------------------------------
  // The dictionary

  predicate Distinct(s: seq<string>) {
    forall i, j :: 0 <= i < j < |s| ==> s[i] != s[j]
  }

  /** `self.endpoints`: the entries, and the keys in insertion order. */
  datatype Table = Table(entries: map<string, Endpoint>, order: seq<string>) {
    ghost predicate Valid() {
      Distinct(order) &&
      (forall id :: id in entries <==> id in order) &&
      (forall id :: id in entries ==> entries[id].id == id)
    }
  }

  const Empty: Table := Table(map[], [])

  /** `self.endpoints[e.id] = e`. */
  function Put(t: Table, e: Endpoint): (r: Table)
    requires t.Valid()
    ensures r.Valid()
    ensures r.entries.Keys == t.entries.Keys + {e.id}
  {
    Table(t.entries[e.id := e], if e.id in t.entries then t.order else t.order + [e.id])
  }

  /** `order` without `id`. */
  function Without(order: seq<string>, id: string): (r: seq<string>)
    ensures forall x :: x in r <==> x in order && x != id
    ensures Distinct(order) ==> Distinct(r)
  {
    if order == [] then []
    else
      var init, last := order[..|order| - 1], order[|order| - 1];
      assert Distinct(order) ==> Distinct(init) && last !in init;
      if last == id then Without(init, id) else Without(init, id) + [last]
  }

  /** `del self.endpoints[id]`. */
  function Remove(t: Table, id: string): (r: Table)
    requires t.Valid()
    ensures r.Valid()
    ensures r.entries.Keys == t.entries.Keys - {id}
  {
    Table(t.entries - {id}, Without(t.order, id))
  }

  /** `self.endpoints.get(id)`. */
  function Lookup(t: Table, id: string): Option<Endpoint> {
    if id in t.entries then Some(t.entries[id]) else None
  }

  /** `list(self.endpoints.values())`. */
  function Values(t: Table): (r: seq<Endpoint>)
    requires t.Valid()
    ensures |r| == |t.order|
    ensures forall i :: 0 <= i < |r| ==> r[i] == t.entries[t.order[i]]
  {
    seq(|t.order|, i requires 0 <= i < |t.order| => t.entries[t.order[i]])
  }

  /** The list `save` is meant to write: one record per endpoint, in
      dictionary order, with the modules dropped. */
  function Records(t: Table): (r: seq<Record>)
    requires t.Valid()
    ensures |r| == |t.order|
  {
    seq(|t.order|, i requires 0 <= i < |t.order| => Serialized(t.entries[t.order[i]]))
  }

  /** Some endpoint of the table holds an imported module. */
  predicate HoldsModule(t: Table) {
    exists id :: id in t.entries && t.entries[id].loaded.Some?
  }

  /** The registry file after `save` as written: the list comprehension over
      `to_dict` raises as soon as an endpoint holds a module, the exception is
      caught, and the file keeps what it held. */
  function Saved(t: Table, db: Snapshot): (r: Snapshot)
    requires t.Valid()
  {
    if HoldsModule(t) then db else Stored(Records(t))
  }

  /** `save` as written writes the intended records exactly when no endpoint
      holds a module, and then each is what `to_dict` returns; otherwise the
      file is left as it was. */
  lemma SavedCases(t: Table, db: Snapshot)
    requires t.Valid()
    ensures Saved(t, db) != db ==> Saved(t, db) == Stored(Records(t))
    ensures !HoldsModule(t) ==> Saved(t, db) == Stored(Records(t))
    ensures !HoldsModule(t) ==> forall i :: 0 <= i < |t.order| ==> ToDict(t.entries[t.order[i]]) == Ok(Records(t)[i])
    ensures (exists i :: 0 <= i < |t.order| && ToDict(t.entries[t.order[i]]).Raised?) ==> Saved(t, db) == db
  {
    if exists i :: 0 <= i < |t.order| && ToDict(t.entries[t.order[i]]).Raised? {
      var i :| 0 <= i < |t.order| && ToDict(t.entries[t.order[i]]).Raised?;
      assert t.order[i] in t.entries;
    }
  }

  /** An endpoint that was imported, once registered, is never written: the
      file keeps holding what it held before, here nothing, where the
      intended save writes its record. */
  lemma SaveWithModuleExample(e: Endpoint, m: LoadedModule)
    ensures var t := Put(Empty, e.(loaded := Some(m)));
      Saved(t, Missing) == Missing && Records(t) == [Serialized(e)]
  {
    var t := Put(Empty, e.(loaded := Some(m)));
    assert t.entries[e.id].loaded.Some?;
  }

  /** The dictionary `load` builds from a list of records, one `Put` per
      record, so a repeated id keeps its first position and its last value. */
  function Rebuild(records: seq<Record>, files: set<string>, loader: Loader, now: Timestamp): (r: Table)
    ensures r.Valid()
  {
    if records == [] then Empty
    else Put(Rebuild(records[..|records| - 1], files, loader, now),
             Restore(records[|records| - 1], files, loader, now))
  }

  lemma RebuildStep(records: seq<Record>, i: nat, files: set<string>, loader: Loader, now: Timestamp)
    requires i < |records|
    ensures Rebuild(records[..i + 1], files, loader, now) ==
      Put(Rebuild(records[..i], files, loader, now), Restore(records[i], files, loader, now))
  {
    assert records[..i + 1][..i] == records[..i];
    assert records[..i + 1][i] == records[i];
  }

  /** What `load` leaves in `self.endpoints`: unchanged when the file is
      missing or does not parse, otherwise rebuilt from scratch. */
  function Loaded(t: Table, db: Snapshot, files: set<string>, loader: Loader, now: Timestamp): Table {
    match db
    case Stored(records) => Rebuild(records, files, loader, now)
    case _ => t
  }

  /** `find_endpoints`' test for one endpoint.  An empty `projectKey` or an
      empty `metrics` list is falsy and constrains nothing. */
  predicate Matches(e: Endpoint, projectKey: string, metrics: seq<string>) {
    (projectKey == "" || projectKey in e.capabilities.projectKeys) &&
    (metrics == [] || forall m :: m in metrics ==> m in e.capabilities.metrics)
  }

  /** The endpoints of `es` that match, in their order. */
  function Filter(es: seq<Endpoint>, projectKey: string, metrics: seq<string>): (r: seq<Endpoint>)
    ensures |r| <= |es|
  {
    if es == [] then []
    else
      var last := es[|es| - 1];
      Filter(es[..|es| - 1], projectKey, metrics) + (if Matches(last, projectKey, metrics) then [last] else [])
  }

  // ---------------------------------------------------------------------
  // Properties of the dictionary operations

  /** After `register_endpoint(e)`, `get_endpoint(e.id)` is `e`, every other id
      looks up as before, ids already present keep their positions, and a new
      id goes last. */
  lemma PutProperties(t: Table, e: Endpoint)
    requires t.Valid()
    ensures Lookup(Put(t, e), e.id) == Some(e)
    ensures forall id :: id != e.id ==> Lookup(Put(t, e), id) == Lookup(t, id)
    ensures e.id in t.entries ==> Put(t, e).order == t.order
    ensures e.id !in t.entries ==> Put(t, e).order == t.order + [e.id]
    ensures |Values(Put(t, e))| == |Values(t)| + (if e.id in t.entries then 0 else 1)
  {
  }

  /** Removing is the inverse of adding a new id. */
  lemma RemoveUndoesPut(t: Table, e: Endpoint)
    requires t.Valid() && e.id !in t.entries
    ensures Remove(Put(t, e), e.id) == t
  {
    WithoutAbsent(t.order, e.id);
    assert (t.order + [e.id])[..|t.order|] == t.order;
    assert t.entries[e.id := e] - {e.id} == t.entries;
  }

  lemma {:induction false} WithoutAbsent(order: seq<string>, id: string)
    requires id !in order
    ensures Without(order, id) == order
  {
    if order != [] {
      WithoutAbsent(order[..|order| - 1], id);
      assert order == order[..|order| - 1] + [order[|order| - 1]];
    }
  }

  /** `list_endpoints` lists every registered endpoint exactly once. */
  lemma ValuesOnce(t: Table, id: string)
    requires t.Valid() && id in t.entries
    ensures exists i :: 0 <= i < |Values(t)| && Values(t)[i] == t.entries[id]
    ensures forall i, j :: 0 <= i < j < |Values(t)| ==> Values(t)[i].id != Values(t)[j].id
  {
    var i :| 0 <= i < |t.order| && t.order[i] == id;
    assert Values(t)[i] == t.entries[id];
  }

  /** `find_endpoints` returns exactly the matching endpoints, in order. */
  lemma {:induction false} FilterMembers(es: seq<Endpoint>, projectKey: string, metrics: seq<string>)
    ensures forall e :: e in Filter(es, projectKey, metrics) <==> e in es && Matches(e, projectKey, metrics)
  {
    if es != [] {
      FilterMembers(es[..|es| - 1], projectKey, metrics);
      assert es == es[..|es| - 1] + [es[|es| - 1]];
    }
  }

  /** `find_endpoints` keeps the order of the endpoints: the matches in a
      list followed by another are the matches in the first followed by the
      matches in the second. */
  lemma {:induction false} FilterAppend(xs: seq<Endpoint>, ys: seq<Endpoint>, projectKey: string, metrics: seq<string>)
    ensures Filter(xs + ys, projectKey, metrics) == Filter(xs, projectKey, metrics) + Filter(ys, projectKey, metrics)
  {
    if ys == [] {
      assert xs + ys == xs;
    } else {
      var init := ys[..|ys| - 1];
      FilterAppend(xs, init, projectKey, metrics);
      assert (xs + ys)[..|xs + ys| - 1] == xs + init;
      assert (xs + ys)[|xs + ys| - 1] == ys[|ys| - 1];
    }
  }

  /** With no project key and no metrics every endpoint is found. */
  lemma {:induction false} FilterUnconstrained(es: seq<Endpoint>)
    ensures Filter(es, "", []) == es
  {
    if es != [] {
      FilterUnconstrained(es[..|es| - 1]);
      assert es == es[..|es| - 1] + [es[|es| - 1]];
    }
  }

  /** Rebuilding from distinct records keeps their order and has one entry
      per record. */
  lemma {:induction false} RebuildDistinct(records: seq<Record>, files: set<string>, loader: Loader, now: Timestamp)
    requires forall i, j :: 0 <= i < j < |records| ==> records[i].id != records[j].id
    ensures |Rebuild(records, files, loader, now).order| == |records|
    ensures forall i :: 0 <= i < |records| ==>
      Rebuild(records, files, loader, now).order[i] == records[i].id &&
      Rebuild(records, files, loader, now).entries[records[i].id] == Restore(records[i], files, loader, now)
  {
    if records != [] {
      var init := records[..|records| - 1];
      var last := records[|records| - 1];
      RebuildDistinct(init, files, loader, now);
      var t := Rebuild(init, files, loader, now);
      var e := Restore(last, files, loader, now);
      assert last.id !in t.order by {
        forall i | 0 <= i < |init| ensures t.order[i] != last.id {
          assert init[i] == records[i];
        }
      }
      assert e.id == last.id && e.id !in t.entries;
      var r := Rebuild(records, files, loader, now);
      assert r == Put(t, e);
      assert r.order == t.order + [last.id];
      assert r.entries == t.entries[last.id := e];
      forall i | 0 <= i < |records|
        ensures r.order[i] == records[i].id && r.entries[records[i].id] == Restore(records[i], files, loader, now)
      {
        if i < |init| {
          assert records[i] == init[i];
          assert records[i].id != last.id;
        }
      }
    }
  }

  /** Writing the intended records and loading them gives back the same ids
      in the same order, with the same names, paths, capabilities and
      creation times. */
  lemma SaveThenLoad(t: Table, files: set<string>, loader: Loader, now: Timestamp)
    requires t.Valid()
    ensures Rebuild(Records(t), files, loader, now).order == t.order
    ensures Rebuild(Records(t), files, loader, now).entries.Keys == t.entries.Keys
    ensures forall id :: id in t.entries ==>
      Rebuild(Records(t), files, loader, now).entries[id].(loaded := None) == t.entries[id].(loaded := None)
  {
    var rs := Records(t);
    RecordIds(t);
    RebuildDistinct(rs, files, loader, now);
    var r := Rebuild(rs, files, loader, now);
    assert r.order == t.order;
    forall id | id in t.entries
      ensures r.entries[id].(loaded := None) == t.entries[id].(loaded := None)
    {
      var i :| 0 <= i < |t.order| && t.order[i] == id;
      assert rs[i] == Serialized(t.entries[id]);
      SerializedRoundTrip(t.entries[id], files, loader, now);
    }
  }

  /** The records `save` writes carry the ids in dictionary order. */
  lemma RecordIds(t: Table)
    requires t.Valid()
    ensures forall i :: 0 <= i < |t.order| ==> Records(t)[i] == Serialized(t.entries[t.order[i]])
    ensures forall i :: 0 <= i < |t.order| ==> Records(t)[i].id == t.order[i]
    ensures forall i, j :: 0 <= i < j < |t.order| ==> Records(t)[i].id != Records(t)[j].id
  {
  }

  // ---------------------------------------------------------------------

  /** `AnalyticsRegistry`. */
  class AnalyticsRegistry {
    var endpoints: map<string, Endpoint>
    var order: seq<string>
    /** The registry file. */
    var db: Snapshot

    function Contents(): Table reads this {
      Table(endpoints, order)
    }

    ghost predicate Valid() reads this {
      Contents().Valid()
    }

    /** `__init__`: an empty dictionary, then `load`. */
    constructor (db: Snapshot, files: set<string>, loader: Loader, now: Timestamp)
      ensures Valid() && this.db == db
      ensures Contents() == Loaded(Empty, db, files, loader, now)
    {
      endpoints := map[];
      order := [];
      this.db := db;
      new;
      Load(files, loader, now);
    }

    /** `save`: the records of all endpoints, in dictionary order, unless
        an endpoint holds a module, when the file is left as it was. */
    method Save()
      requires Valid()
      modifies this`db
      ensures HoldsModule(Contents()) ==> db == old(db)
      ensures !HoldsModule(Contents()) ==> db == Stored(Records(Contents()))
    {
      if HoldsModule(Contents()) {
        return;
      }
      db := Stored(Records(Contents()));
    }

    /** `register_endpoint`. */
    method Register(e: Endpoint)
      requires Valid()
      modifies this
      ensures Valid()
      ensures Contents() == Put(old(Contents()), e)
      ensures db == Saved(Contents(), old(db))
      ensures e.loaded.Some? ==> db == old(db)
    {
      Assign(e);
      assert e.loaded.Some? ==> Contents().entries[e.id].loaded.Some?;
      Save();
    }

    /** `self.endpoints[e.id] = e`: a new id goes last, a known one keeps
        its place. */
    method Assign(e: Endpoint)
      requires Valid()
      modifies this`endpoints, this`order
      ensures Valid()
      ensures Contents() == Put(old(Contents()), e)
    {
      if e.id !in endpoints {
        order := order + [e.id];
      }
      endpoints := endpoints[e.id := e];
    }

    /** `unregister_endpoint`: True and removed iff the id was present;
        otherwise nothing changes, the file included. */
    method Unregister(id: string) returns (removed: bool)
      requires Valid()
      modifies this
      ensures Valid()
      ensures removed <==> id in old(endpoints)
      ensures removed ==> Contents() == Remove(old(Contents()), id) && db == Saved(Contents(), old(db))
      ensures !removed ==> Contents() == old(Contents()) && db == old(db)
    {
      if id in endpoints {
        endpoints := endpoints - {id};
        order := Without(order, id);
        Save();
        removed := true;
      } else {
        removed := false;
      }
    }

    /** `get_endpoint`. */
    function Get(id: string): (r: Option<Endpoint>)
      reads this
      requires Valid()
      ensures r.Some? <==> id in order
      ensures r.Some? ==> r.value.id == id
    {
      Lookup(Contents(), id)
    }

    /** `list_endpoints`. */
    function List(): seq<Endpoint>
      reads this
      requires Valid()
    {
      Values(Contents())
    }

    /** `find_endpoints`: the loop over the values, keeping the matching ones. */
    method Find(projectKey: string, metrics: seq<string>) returns (results: seq<Endpoint>)
      requires Valid()
      ensures results == Filter(List(), projectKey, metrics)
    {
      var all := List();
      results := [];
      var i := 0;
      while i < |all|
        invariant 0 <= i <= |all|
        invariant results == Filter(all[..i], projectKey, metrics)
      {
        assert all[..i + 1][..i] == all[..i];
        if Matches(all[i], projectKey, metrics) {
          results := results + [all[i]];
        }
        i := i + 1;
      }
      assert all[..i] == all;
    }

    /** `load`: `files` are the paths that exist, `loader` performs the
        imports, `now` is the clock. */
    method Load(files: set<string>, loader: Loader, now: Timestamp)
      requires Valid()
      modifies this`endpoints, this`order
      ensures Valid()
      ensures Contents() == Loaded(old(Contents()), db, files, loader, now)
    {
      if db.Stored? {
        endpoints := map[];
        order := [];
        RestoreAll(db.records, files, loader, now);
      }
    }

    /** The loop of `load` over the stored records, on an emptied
        dictionary. */
    method RestoreAll(records: seq<Record>, files: set<string>, loader: Loader, now: Timestamp)
      requires Contents() == Empty
      modifies this`endpoints, this`order
      ensures Valid()
      ensures Contents() == Rebuild(records, files, loader, now)
    {
      var i := 0;
      while i < |records|
        invariant 0 <= i <= |records|
        invariant Valid()
        invariant Contents() == Rebuild(records[..i], files, loader, now)
      {
        var e := Restore(records[i], files, loader, now);
        RebuildStep(records, i, files, loader, now);
        Assign(e);
        i := i + 1;
      }
      assert records[..i] == records;
    }
  }
}

=== FILE: routing.dfy ===
/** `LLMManager.analyze_jira_data` (llm_manager.py): the entry point for
    analytics questions.  It is a method of the language-model client, kept
    in a module of its own because it calls the agent coordinator, which in
    turn holds the client through the code generator. */
module Routing {
  import opened Common
  import opened Text
  import opened Patterns
  import opened Llm
  import opened Metrics
  import opened Query
  import opened CodeGen
  import opened Deployment
  import opened Coordinator

  /** The three ways a question is answered. */
  datatype Path = Direct | Sprints | Agents

  /** A question counts as a sprint-metrics question when it mentions
      "sprint" and one of these words. */
  const SprintKeywords: seq<string> := ["velocity", "points", "churn"]

  predicate IsSprintQuery(query: string) {
    Contains(Lower(query), "sprint") && AnyIn(Lower(query), SprintKeywords)
  }

  /** Which way `analyze_jira_data` goes for the current provider: the
      Anthropic provider always answers directly; otherwise the sprint test
      decides between the sprint table and the agents. */
  function Route(provider: string, query: string): (p: Path)
    ensures p == Direct <==> provider == "anthropic"
    ensures p == Sprints <==> provider != "anthropic" && IsSprintQuery(query)
    ensures p == Agents <==> provider != "anthropic" && !IsSprintQuery(query)
  {
    if provider == "anthropic" then Direct
    else if IsSprintQuery(query) then Sprints
    else Agents
  }

  /** The client is shared with the code generator, which leaves a provider
      the model map does not know (LLM_PROVIDER=gemini) on Anthropic; from
      then on every question takes the direct path, the sprint questions
      included. */
  lemma StuckOnAnthropic(openaiModel: string, anthropicModel: string, query: string)
    ensures Route(ProviderAfter("gemini", map["openai" := openaiModel, "anthropic" := anthropicModel]), query) == Direct
  {
    RestoreFailsForUnmappedProvider(openaiModel, anthropicModel);
  }

  /** One line of the sprint table. */
  datatype Row = Row(name: string, committed: real, completed: real, velocity: real, churn: real)

  /** What `analyze_jira_data` returns: a message, the sprint table (its
      text rendering is not modelled), or the coordinator's answer together
      with the analysis it was computed from. */
  datatype Reply =
    | Message(text: string)
    | SprintTable(projectKey: string, numSprints: nat, averageVelocity: real, rows: seq<Row>)
    | Coordinated(analysis: QueryAnalysis, answer: Answer)

  const AnalysisError: string := "I encountered an error while analyzing the data: "
  const NoProjectKey: string :=
    "I couldn't identify the project key in your query. Please specify a project key (e.g., 'PCTRS')."
  /** The exception `get_metrics`'s error tuple raises on `.get`. */
  const TupleHasNoGet: string := "'tuple' object has no attribute 'get'"

  function NoSprintData(projectKey: string): string {
    "No sprint data found for project " + projectKey + "."
  }

  /** The Anthropic path: the direct call's reply, or its exception as text. */
  function DirectReply(o: Replies, openaiModel: string, fallbacks: seq<string>): (r: Reply)
    ensures r.Message?
    ensures DirectAnswer(o, openaiModel, fallbacks).Ok? ==> r.text == DirectAnswer(o, openaiModel, fallbacks).value
    ensures !o.apiKeySet ==> r.text == AnalysisError + KeyMissing
  {
    match DirectAnswer(o, openaiModel, fallbacks)
    case Ok(text) => Message(text)
    case Raised(e) => Message(AnalysisError + e)
  }

  // ---------------------------------------------------------------------
  // The sprint table

  /** The project key: the capital letters after the first "for" followed
      by white space. */
  function RequestedProject(query: string): (r: Option<string>)
    ensures r == SearchGroup(KeyAfter("for"), query, 0)
    ensures r.Some? ==> r.value != [] && AllUpper(r.value)
    ensures r.None? <==> forall i :: MatchAt(KeyAfter("for"), query, i).None?
  {
    match Search(KeyAfter("for"), query, 0)
    case None => None
    case Some(k) => Some(KeyAfterAt(query, "for", k).value.groups[0])
  }

  /** The number of sprints: the digits of the first "last N sprint", 5
      when there is none. */
  function RequestedSprints(query: string): (n: nat)
    ensures (forall i :: MatchAt(LastSprints, query, i).None?) ==> n == 5
    ensures SearchGroup(LastSprints, query, 0).Some? ==>
      AllDigits(SearchGroup(LastSprints, query, 0).value) &&
      n == DigitsValue(SearchGroup(LastSprints, query, 0).value)
  {
    match Search(LastSprints, query, 0)
    case None => 5
    case Some(k) => DigitsValue(LastSprintsAt(query, k).value.groups[0])
  }

  /** The table row for an entry, reading the entry's own fields; a sprint
      whose issues could not be fetched shows zeros. */
  function RowOf(e: SprintEntry): (r: Row)
    ensures r.velocity == r.completed && r.churn == r.committed - r.completed
    ensures e.SprintInfo? ==>
      r.committed == e.metrics.committedPoints && r.completed == e.metrics.completedPoints
    ensures r.name == e.sprintName.GetOr("Unknown")
  {
    var committed := if e.SprintInfo? then e.metrics.committedPoints else 0.0;
    var completed := if e.SprintInfo? then e.metrics.completedPoints else 0.0;
    Row(e.sprintName.GetOr("Unknown"), committed, completed, completed, committed - completed)
  }

  function Rows(entries: seq<SprintEntry>): (r: seq<Row>)
    ensures |r| == |entries|
    ensures forall i :: 0 <= i < |entries| ==> r[i] == RowOf(entries[i])
  {
    seq(|entries|, i requires 0 <= i < |entries| => RowOf(entries[i]))
  }

  function CompletedColumn(rows: seq<Row>): (r: seq<real>)
    ensures |r| == |rows|
    ensures forall i :: 0 <= i < |rows| ==> r[i] == rows[i].completed
  {
    seq(|rows|, i requires 0 <= i < |rows| => rows[i].completed)
  }

  /** The table with the rows read from the entries' sprint name and
      metrics, and the average velocity the mean of the completed points:
      the table `analyze_jira_data` is meant to build. */
  function Table(projectKey: string, numSprints: nat, entries: seq<SprintEntry>): (r: Reply)
    ensures r.SprintTable? && r.projectKey == projectKey && r.numSprints == numSprints
    ensures |r.rows| == |entries| && forall i :: 0 <= i < |entries| ==> r.rows[i] == RowOf(entries[i])
    ensures r.averageVelocity == Mean(CompletedColumn(r.rows))
  {
    var rows := Rows(entries);
    SprintTable(projectKey, numSprints, Mean(CompletedColumn(rows)), rows)
  }

  /** The row `analyze_jira_data` builds for every entry: it reads "name",
      "committed_points" and "completed_points" at the top level of the
      entry, where `get_metrics` puts "sprint_name" and a nested "metrics",
      so every lookup falls back to its default. */
  const BlankRow: Row := Row("Unknown", 0.0, 0.0, 0.0, 0.0)

  /** The table as `analyze_jira_data` builds it: every row is "Unknown"
      with zero points and the average velocity is 0, whatever the sprints
      hold. */
  function TableAsWritten(projectKey: string, numSprints: nat, entries: seq<SprintEntry>): (r: Reply)
    ensures r.SprintTable? && r.projectKey == projectKey && r.numSprints == numSprints
    ensures |r.rows| == |entries| && forall i :: 0 <= i < |r.rows| ==> r.rows[i] == BlankRow
    ensures r.averageVelocity == 0.0
  {
    var rows := seq(|entries|, i requires 0 <= i < |entries| => BlankRow);
    MeanBounds(CompletedColumn(rows), 0.0, 0.0);
    SprintTable(projectKey, numSprints, Mean(CompletedColumn(rows)), rows)
  }

  /** A closed sprint with 3 of 8 points completed: as written the table
      shows it as "Unknown" with 0 points; read from the entry, it shows
      its name, 8 committed, 3 completed, and an average velocity of 3. */
  lemma TableFindingExample()
    ensures var e := SprintInfo(1, Some("Sprint 1"), Some("closed"), None, None, None,
                                Metrics.SprintMetrics.SprintMetrics(2, 8.0, 1, 3.0, 3.0, 5.0, 62.5));
      TableAsWritten("PCTRS", 5, [e]).rows == [Row("Unknown", 0.0, 0.0, 0.0, 0.0)] &&
      TableAsWritten("PCTRS", 5, [e]).averageVelocity == 0.0 &&
      Table("PCTRS", 5, [e]).rows == [Row("Sprint 1", 8.0, 3.0, 3.0, 5.0)] &&
      Table("PCTRS", 5, [e]).averageVelocity == 3.0
  {
    var e := SprintInfo(1, Some("Sprint 1"), Some("closed"), None, None, None,
                        Metrics.SprintMetrics.SprintMetrics(2, 8.0, 1, 3.0, 3.0, 5.0, 62.5));
    var column := CompletedColumn(Rows([e]));
    assert column == [3.0];
    assert Sum(column) == Sum([]) + 3.0;
  }

  /** The table's velocities are those of the report: when every chosen
      sprint is closed and has metrics (whose velocity is the completed
      points, as `get_metrics` computes them), the table's column of
      completed points is the list the report's average is taken over. */
  lemma {:induction false} TableMatchesReport(entries: seq<SprintEntry>)
    requires forall i :: 0 <= i < |entries| ==>
      entries[i].SprintInfo? && entries[i].state == Some("closed") &&
      entries[i].metrics.velocity == entries[i].metrics.completedPoints
    ensures CompletedColumn(Rows(entries)) == ClosedVelocities(entries)
  {
    if entries != [] {
      var init := entries[..|entries| - 1];
      TableMatchesReport(init);
      assert CompletedColumn(Rows(entries)) == CompletedColumn(Rows(init)) + [entries[|entries| - 1].metrics.completedPoints];
    }
  }

  /** The entries of a report carry metrics whose velocity is the completed
      points. */
  lemma ReportVelocities(projectKey: string, numSprints: int, jira: Jira)
    ensures var r := MetricsFor(projectKey, numSprints, jira);
      r.Report? ==> forall i :: 0 <= i < |r.sprints| && r.sprints[i].SprintInfo? ==>
        r.sprints[i].metrics.velocity == r.sprints[i].metrics.completedPoints
  {
  }

  /** The sprint path once the key and the count are known: the error
      tuple of `get_metrics` has no `get`, an empty report is reported as
      such, and otherwise the table is built as written. */
  function SprintReply(projectKey: string, numSprints: nat, m: MetricsOutcome): (r: Reply)
    ensures m.ErrorResponse? ==> r == Message(AnalysisError + TupleHasNoGet)
    ensures m.Report? && m.sprints == [] ==> r == Message(NoSprintData(projectKey))
    ensures m.Report? && m.sprints != [] ==> r == TableAsWritten(projectKey, numSprints, m.sprints)
  {
    match m
    case ErrorResponse(_, _) => Message(AnalysisError + TupleHasNoGet)
    case Report(_, _, _, sprints, _) =>
      if sprints == [] then Message(NoSprintData(projectKey)) else TableAsWritten(projectKey, numSprints, sprints)
  }

  /** The whole sprint path for a question: a table is only ever given for
      the key and count the question names, and it is blank. */
  function SprintsAnswer(query: string, jira: Jira): (r: Reply)
    ensures RequestedProject(query).None? ==> r == Message(NoProjectKey)
    ensures r.SprintTable? ==>
      RequestedProject(query).Some? && r.projectKey == RequestedProject(query).value &&
      r.numSprints == RequestedSprints(query) && r.averageVelocity == 0.0 &&
      forall i :: 0 <= i < |r.rows| ==> r.rows[i] == BlankRow
  {
    match RequestedProject(query)
    case None => Message(NoProjectKey)
    case Some(key) =>
      var n := RequestedSprints(query);
      SprintReply(key, n, MetricsFor(key, n, jira))
  }

  /** `analyze_jira_data`.  `o` answers the direct Anthropic call, `jira`
      the sprint-metrics requests and `s` the services the agents use.  The
      provider is never restored here: when the coordinator's code generator
      shares this client, a question that generates code leaves it where
      `generate_code` left it. */
  method AnalyzeJiraData(llm: LLMManager, coordinator: AgentCoordinator, query: string,
                         o: Replies, jira: Jira, s: Services) returns (reply: Reply)
    requires llm.Valid() && coordinator.Valid() && IsName(s.freshId)
    modifies llm`provider, llm`model, coordinator.Clients(), coordinator.deployer
    ensures llm.Valid() && coordinator.Valid()
    ensures Route(old(llm.provider), query) == Direct ==>
      reply == DirectReply(o, llm.modelMap["openai"], llm.fallbacks)
    ensures Route(old(llm.provider), query) == Sprints ==>
      reply == SprintsAnswer(query, jira)
    ensures Route(old(llm.provider), query) != Agents && coordinator.deployer != null ==>
      unchanged(coordinator.deployer)
    ensures Route(old(llm.provider), query) == Agents ==> AgentsReply(coordinator, query, s, reply)
    ensures Route(old(llm.provider), query) == Agents && coordinator.MatchFor(reply.analysis).None? &&
            coordinator.codeGenerator != null && coordinator.deployer != null ==>
      coordinator.DeployedCode(old(coordinator.deployer.dirs), old(coordinator.deployer.files),
        CodeFor(coordinator.codeGenerator, reply.analysis, s.replies), reply.analysis, s)
    ensures Route(old(llm.provider), query) == Agents && coordinator.MatchFor(reply.analysis).Some? &&
            coordinator.deployer != null ==>
      unchanged(coordinator.deployer)
    ensures llm.provider ==
      if Route(old(llm.provider), query) == Agents && coordinator.MatchFor(reply.analysis).None? &&
         coordinator.codeGenerator != null && coordinator.codeGenerator.llm == llm
      then ProviderAfter(old(llm.provider), llm.modelMap)
      else old(llm.provider)
  {
    if llm.provider == "anthropic" {
      var answer := llm.ProcessDirect(o);
      if answer.Ok? {
        return Message(answer.value);
      }
      return Message(AnalysisError + answer.message);
    }
    if Contains(Lower(query), "sprint") && AnyIn(Lower(query), SprintKeywords) {
      reply := AnswerSprintQuery(query, jira);
      return;
    }
    reply := AskAgents(llm, coordinator, query, s);
  }

  /** The agents' reply to `query`: the analysis `process_query` makes of
      it (the query, its project keys, metric names, time period and
      filters) and the coordinator's answer for that analysis. */
  ghost predicate AgentsReply(coordinator: AgentCoordinator, query: string, s: Services, reply: Reply)
    reads coordinator, coordinator.registry
    requires coordinator.registry != null ==> coordinator.registry.Valid()
    requires coordinator.codeGenerator != null && coordinator.codeGenerator.llm != null ==>
      "openai" in coordinator.codeGenerator.llm.modelMap
  {
    reply.Coordinated? && reply.analysis.query == query &&
    (forall x :: x in reply.analysis.projectKeys <==> IsProjectKey(query, x)) &&
    reply.analysis.metrics == Names(ExtractMetrics(query)) &&
    reply.analysis.timePeriod == Some(ExtractTimePeriod(query)) &&
    reply.analysis.filters == ExtractFilters(query) &&
    reply.answer == coordinator.AnswerFor(reply.analysis, s)
  }

  /** The agents branch of `analyze_jira_data`: the coordinator's answer,
      with the analysis it was computed from. */
  method AskAgents(llm: LLMManager, coordinator: AgentCoordinator, query: string, s: Services) returns (reply: Reply)
    requires llm.Valid() && coordinator.Valid() && IsName(s.freshId)
    modifies coordinator.Clients(), coordinator.deployer
    ensures llm.Valid() && coordinator.Valid()
    ensures AgentsReply(coordinator, query, s, reply)
    ensures coordinator.MatchFor(reply.analysis).Some? && coordinator.deployer != null ==>
      unchanged(coordinator.deployer)
    ensures coordinator.MatchFor(reply.analysis).None? && coordinator.codeGenerator != null &&
            coordinator.deployer != null ==>
      coordinator.DeployedCode(old(coordinator.deployer.dirs), old(coordinator.deployer.files),
        CodeFor(coordinator.codeGenerator, reply.analysis, s.replies), reply.analysis, s)
    ensures llm.provider ==
      if coordinator.MatchFor(reply.analysis).None? && coordinator.codeGenerator != null &&
         coordinator.codeGenerator.llm == llm
      then ProviderAfter(old(llm.provider), llm.modelMap)
      else old(llm.provider)
  {
    var analysis, answer := coordinator.ProcessQuery(query, s);
    reply := Coordinated(analysis, answer);
  }

  /** The sprint-metrics branch of `analyze_jira_data`. */
  method AnswerSprintQuery(query: string, jira: Jira) returns (reply: Reply)
    ensures reply == SprintsAnswer(query, jira)
  {
    var projectKey := RequestedProject(query);
    if projectKey.None? {
      return Message(NoProjectKey);
    }
    var numSprints := RequestedSprints(query);
    var metrics := GetMetrics(projectKey.value, numSprints, jira);
    if metrics.ErrorResponse? {
      return Message(AnalysisError + TupleHasNoGet);
    }
    if metrics.sprints == [] {
      return Message(NoSprintData(projectKey.value));
    }
    reply := BuildTable(projectKey.value, numSprints, metrics.sprints);
  }

  /** The table-building loop of the sprint branch: the completed points
      are collected for the average, then one row is added per entry, each
      read with the fallbacks of `analyze_jira_data`. */
  method BuildTable(projectKey: string, numSprints: nat, entries: seq<SprintEntry>) returns (reply: Reply)
    ensures reply == TableAsWritten(projectKey, numSprints, entries)
  {
    var completed: seq<real> := [];
    for k := 0 to |entries|
      invariant completed == seq(k, i => 0.0)
    {
      completed := completed + [0.0];
    }
    var average := if completed != [] then Sum(completed) / |completed| as real else 0.0;
    var rows: seq<Row> := [];
    for k := 0 to |entries|
      invariant rows == seq(k, i => BlankRow)
    {
      rows := rows + [BlankRow];
    }
    assert rows == seq(|entries|, i requires 0 <= i < |entries| => BlankRow);
    assert CompletedColumn(rows) == completed;
    assert average == Mean(completed);
    reply := SprintTable(projectKey, numSprints, average, rows);
  }
}

=== FILE: text.dfy ===
/** The parts of Python's `str` that the modelled code relies on:
    character classes, `lower()`, `in`, `startswith`/`endswith`, `strip()`,
    `split(sep)`, `split(sep, 1)` and `sep.join(...)`. */
module Text {

  /** `str.isspace()` for one character: exactly the characters Python treats
      as whitespace, which are also the ones the regular-expression class
      `\s` matches and the ones `str.strip()` removes. */
  predicate IsSpace(c: char) {
    ('\t' <= c <= '\r') || ('\U{1C}' <= c <= '\U{1F}') || c == ' ' ||
    c == '\U{85}' || c == '\U{A0}' || c == '\U{1680}' ||
    ('\U{2000}' <= c <= '\U{200A}') || c == '\U{2028}' || c == '\U{2029}' ||
    c == '\U{202F}' || c == '\U{205F}' || c == '\U{3000}'
  }

  /** The regular-expression class `[A-Z]`. */
  predicate IsUpper(c: char) { 'A' <= c <= 'Z' }

  /** The regular-expression class `\d`, restricted to ASCII digits. */
  predicate IsDigit(c: char) { '0' <= c <= '9' }

  /** The regular-expression class `\w`, restricted to ASCII. */
  predicate IsWordChar(c: char) {
    'a' <= c <= 'z' || 'A' <= c <= 'Z' || IsDigit(c) || c == '_'
  }

  predicate AllUpper(t: string) { forall j :: 0 <= j < |t| ==> IsUpper(t[j]) }
  predicate AllDigits(t: string) { forall j :: 0 <= j < |t| ==> IsDigit(t[j]) }
  predicate AllWordChars(t: string) { forall j :: 0 <= j < |t| ==> IsWordChar(t[j]) }

  /** `int(s)` for a run of decimal digits. */
  function DigitsValue(s: string): nat
    requires AllDigits(s)
  {
    if s == [] then 0
    else DigitsValue(s[..|s| - 1]) * 10 + (s[|s| - 1] as int - '0' as int)
  }

  /** `str.lower()` for one character, restricted to ASCII letters. */
  function LowerChar(c: char): char {
    if 'A' <= c <= 'Z' then (c as int - 'A' as int + 'a' as int) as char else c
  }

  /** `str.lower()`. */
  function Lower(s: string): (r: string)
    ensures |r| == |s|
    ensures forall i :: 0 <= i < |s| ==> r[i] == LowerChar(s[i])
  {
    seq(|s|, i requires 0 <= i < |s| => LowerChar(s[i]))
  }

  predicate StartsWith(s: string, prefix: string) {
    |prefix| <= |s| && s[..|prefix|] == prefix
  }

  predicate EndsWith(s: string, suffix: string) {
    |suffix| <= |s| && s[|s| - |suffix|..] == suffix
  }

  /** `sub` occurs in `s` starting at index `i`. */
  predicate OccursAt(s: string, sub: string, i: int) {
    0 <= i && i + |sub| <= |s| && s[i..i + |sub|] == sub
  }

  /** Python's `sub in s`. */
  predicate Contains(s: string, sub: string) {
    exists i | 0 <= i <= |s| :: OccursAt(s, sub, i)
  }

  lemma ContainsMiddle(a: string, sub: string, b: string)
    ensures Contains(a + sub + b, sub)
  {
    assert OccursAt(a + sub + b, sub, |a|);
  }

  /** Every character of `s` is whitespace. */
  predicate AllSpace(s: string) {
    forall i :: 0 <= i < |s| ==> IsSpace(s[i])
  }

  /** `str.lstrip()`: the suffix left after dropping leading whitespace. */
  function TrimStart(s: string): (r: string)
    ensures |r| <= |s| && r == s[|s| - |r|..]
    ensures AllSpace(s[..|s| - |r|])
    ensures r == [] || !IsSpace(r[0])
  {
    if |s| > 0 && IsSpace(s[0]) then
      var r := TrimStart(s[1..]);
      assert s[..|s| - |r|] == [s[0]] + s[1..][..|s[1..]| - |r|];
      r
    else s
  }

  /** `str.rstrip()`: the prefix left after dropping trailing whitespace. */
  function TrimEnd(s: string): (r: string)
    ensures |r| <= |s| && r == s[..|r|]
    ensures AllSpace(s[|r|..])
    ensures r == [] || !IsSpace(r[|r| - 1])
  {
    if |s| > 0 && IsSpace(s[|s| - 1]) then
      var r := TrimEnd(s[..|s| - 1]);
      assert s[|r|..] == s[..|s| - 1][|r|..] + [s[|s| - 1]];
      r
    else s
  }

  /** `str.strip()`. */
  function Strip(s: string): string {
    TrimEnd(TrimStart(s))
  }

  /** Text that `strip()` leaves alone: no whitespace at either end. */
  predicate IsStripped(s: string) {
    s == [] || (!IsSpace(s[0]) && !IsSpace(s[|s| - 1]))
  }

  lemma {:induction false} TrimStartSkip(w: string, t: string)
    requires AllSpace(w)
    ensures TrimStart(w + t) == TrimStart(t)
  {
    if w != [] {
      assert (w + t)[1..] == w[1..] + t;
      TrimStartSkip(w[1..], t);
    } else {
      assert w + t == t;
    }
  }

  lemma {:induction false} TrimEndSkip(t: string, w: string)
    requires AllSpace(w)
    ensures TrimEnd(t + w) == TrimEnd(t)
  {
    if w != [] {
      var n := |t + w|;
      assert (t + w)[..n - 1] == t + w[..|w| - 1];
      TrimEndSkip(t, w[..|w| - 1]);
    } else {
      assert t + w == t;
    }
  }

  /** `strip()` returns stripped text, and leaves stripped text alone. */
  lemma StripProperties(s: string)
    ensures IsStripped(Strip(s))
    ensures IsStripped(s) ==> Strip(s) == s
  {
    var t := TrimStart(s);
    if t != [] && TrimEnd(t) != [] {
      assert TrimEnd(t)[0] == t[0];
    }
  }

  /** `strip()` removes exactly the whitespace around stripped text. */
  lemma StripAround(w1: string, t: string, w2: string)
    requires AllSpace(w1) && AllSpace(w2) && IsStripped(t)
    ensures Strip(w1 + t + w2) == t
  {
    assert w1 + t + w2 == w1 + (t + w2);
    TrimStartSkip(w1, t + w2);
    if t == [] {
      assert t + w2 == [] + w2;
      TrimStartSkip(w2, []);
      assert w2 + [] == w2;
    } else {
      TrimEndSkip(t, w2);
    }
  }

  /** Number of occurrences of `c` in `s`. */
  function Count(s: string, c: char): nat {
    if s == [] then 0 else (if s[0] == c then 1 else 0) + Count(s[1..], c)
  }

  /** `s.split(c)` for a one-character separator: one piece per separator plus
      one, none of them containing the separator. */
  function Split(s: string, c: char): (r: seq<string>)
    ensures |r| == Count(s, c) + 1
    ensures forall i :: 0 <= i < |r| ==> c !in r[i]
  {
    if s == [] then [""]
    else if s[0] == c then [""] + Split(s[1..], c)
    else
      var rest := Split(s[1..], c);
      [[s[0]] + rest[0]] + rest[1..]
  }

  /** `sep.join(pieces)`. */
  function Join(pieces: seq<string>, sep: string): string {
    if pieces == [] then ""
    else if |pieces| == 1 then pieces[0]
    else pieces[0] + sep + Join(pieces[1..], sep)
  }

  /** Joining the pieces of a split with the separator gives back the text. */
  lemma {:induction false} JoinSplit(s: string, c: char)
    ensures Join(Split(s, c), [c]) == s
  {
    if s == [] {
    } else {
      var rest := Split(s[1..], c);
      JoinSplit(s[1..], c);
      if s[0] == c {
        assert Split(s, c) == [""] + rest;
        assert ([""] + rest)[1..] == rest;
        assert s == [c] + s[1..];
      } else {
        var r := Split(s, c);
        assert r == [[s[0]] + rest[0]] + rest[1..];
        if |rest| == 1 {
          assert s == [s[0]] + s[1..];
        } else {
          assert r[1..] == rest[1..];
          assert Join(rest, [c]) == rest[0] + [c] + Join(rest[1..], [c]);
          assert s == [s[0]] + s[1..];
        }
      }
    }
  }

  /** `s.split(c, 1)` when `c` occurs in `s`: the text before the first `c`
      and the text after it. */
  function SplitFirst(s: string, c: char): (r: (string, string))
    requires c in s
    ensures r.0 + [c] + r.1 == s
    ensures c !in r.0
  {
    if s[0] == c then ("", s[1..])
    else
      assert s == [s[0]] + s[1..];
      var (before, after) := SplitFirst(s[1..], c);
      ([s[0]] + before, after)
  }
}
